=== FILE: README.md ===
# Vista project migration: the XML rewriting engine

This project models the engine of the Vista .NET project helper, the part of
`MainWindow.xaml.cs` that rewrites a parsed `.csproj` and its companion
`.nuspec` in memory:

- **The project-file merge (`SetProjectFile`).**
  - It unions `net461` and `netstandard2.0` into `TargetFrameworks` and sorts the list.
  - It upserts a fixed list of properties into the attribute-free ("global") `PropertyGroup`.
  - It finds or creates the Debug and Release conditioned groups and sets their properties. `DefineConstants` depends on whether `Vista.CodeContracts` is referenced.
  - It replaces by key the five analyzer `PackageReference`s and the `stylecop.json` `AdditionalFiles` item.
  - It adds the NCrunch pattern to `DefaultItemExcludes`. The model does this in the corrected form described under Findings, which keeps a single global `DefaultItemExcludes`.
  - Last, it prunes every `PropertyGroup` and `ItemGroup` left without child nodes.
- **The manifest synchronisation (`CheckAndCreateNuspecFile`).**
  - It upserts `id`, `version` and `requireLicenseAcceptance` into the `metadata`.
  - It regenerates the `files` list from the migrated project's target frameworks: three entries per framework, then one source entry.
  - It strips the namespace from every element except `package`.
- **The batch driver (`MigrateButton_Click`).** It stops at the first failure. Whatever was saved before that failure stays saved.

An XML element is a value `Element(ns, name, attrs, text, children)`. A
document is the sequence of children of its root (`Project` or `package`).
The lookup helpers (`Get*`) are pure functions over that sequence. Each of
them builds a dictionary, and `ToDictionary`'s exceptions (a missing key
attribute, a repeated key) become `Failure` values of one `Error` type,
together with the engine's own `throw`s.

The source mutates the tree in place. Each mutating operation is therefore a
method of `ProjectDocument` or `ManifestDocument`, a class whose `items`
field the method reassigns. Every method is proved against a pure step
function: `Applied(old(items), Step(old(items)), err, items)` says the
document becomes the step's result on success and stays as loaded on
failure. The source never saves a document whose migration threw. The
properties of each step are lemmas about its function.

Modules, one file each:

- `wrappers.dfy`: the Option and Result types.
- `text.dfy`: substring search, ASCII case folding, `;`-split and join, an ordinal sort.
- `xml.dfy`: elements, selectors and the picked/unpicked views of children.
- `tree.dfy`: the edits applied to groups.
- `lookup.dfy`: the errors and the `Get*` lookups.
- `merge.dfy`: the upsert rule.
- `frameworks.dfy`: the target-framework merge.
- `prune.dfy`: the prune pass.
- `project.dfy`: the `.csproj` steps and `ProjectDocument`.
- `nuspec.dfy`: the `.nuspec` steps and `ManifestDocument`.
- `pipeline.dfy`: the batch driver.

Two behaviours are kept as the code has them:

- The batch aborts at the first exception, because one `try` wraps the whole loop. It does not skip the failing project and carry on.
- `TargetFrameworks` keeps duplicate segments that were already present. It is not treated as a set.

## Model

| member | source | states |
|---|---|---|
| Text.Split | VistaMigration/VistaDotNetProjectHelper/MainWindow.xaml.cs:528 | `Split(";")`: the segments joined back with `;` give the value again, and no segment holds a `;` |
| Text.SplitJoin | VistaMigration/VistaDotNetProjectHelper/MainWindow.xaml.cs:528-536 | splitting a join of `;`-free segments gives the segments back |
| Text.Sort | VistaMigration/VistaDotNetProjectHelper/MainWindow.xaml.cs:534 | `List.Sort`: the result is sorted and a permutation of the input |
| Text.SortSorted | VistaMigration/VistaDotNetProjectHelper/MainWindow.xaml.cs:534 | sorting a sorted list changes nothing |
| Text.RemoveAll | VistaMigration/VistaDotNetProjectHelper/MainWindow.xaml.cs:190-192 | `Replace(pattern, "")`: the text is unchanged when the pattern does not occur, and at least one occurrence shorter when it does |
| Text.RemoveAllFirst | VistaMigration/VistaDotNetProjectHelper/MainWindow.xaml.cs:190-192 | at the first occurrence, the text ahead of it is kept as it is, the occurrence is removed and the removal resumes after it; with the case of no occurrence this fixes the result of the left-to-right, non-overlapping `Replace` |
| Text.ContainsIgnoreCase | VistaMigration/VistaDotNetProjectHelper/MainWindow.xaml.cs:162 | `Contains(..., InvariantCultureIgnoreCase)`: every exact occurrence counts, and on lower-case text it is exact `Contains` |
| Text.ContainsLowered | VistaMigration/VistaDotNetProjectHelper/MainWindow.xaml.cs:162 | folding both sides keeps an occurrence |
| Frameworks.AddMissing | VistaMigration/VistaDotNetProjectHelper/MainWindow.xaml.cs:527-532 | every original segment is kept as often as before; every framework to add is present afterwards; nothing else appears; nothing changes when all were present |
| Frameworks.AddMissingPair | VistaMigration/VistaDotNetProjectHelper/MainWindow.xaml.cs:527-532 | `net461` and `netstandard2.0` each appear once more exactly when they were absent |
| Frameworks.MergeFrameworks | VistaMigration/VistaDotNetProjectHelper/MainWindow.xaml.cs:527-534 | the merged list is sorted, holds both frameworks and the original segments with their multiplicities, plus each missing framework once |
| Frameworks.MergeTargetFrameworks | VistaMigration/VistaDotNetProjectHelper/MainWindow.xaml.cs:527-534 | the `foreach` and `Sort` compute `MergeFrameworks` |
| Frameworks.AddEach | VistaMigration/VistaDotNetProjectHelper/MainWindow.xaml.cs:530-532 | the `foreach` appends each framework the list lacks, in order: `AddMissing` |
| Frameworks.MergeMembers | VistaMigration/VistaDotNetProjectHelper/MainWindow.xaml.cs:527-534 | a merged list holds exactly the original segments and the two added frameworks |
| Frameworks.MergeIdempotent | VistaMigration/VistaDotNetProjectHelper/MainWindow.xaml.cs:527-534 | merging a merged list changes nothing |
| Frameworks.MergedValueStable | VistaMigration/VistaDotNetProjectHelper/MainWindow.xaml.cs:521-542 | a second run writes the same `TargetFrameworks` value as the first |
| Lookup.ToDictionary | VistaMigration/VistaDotNetProjectHelper/MainWindow.xaml.cs:565 | succeeds exactly when every entry has a key and no key repeats; the map holds each entry under its key; on failure the error is that of the first entry without a key or with a repeated key |
| Lookup.NameDictionary | VistaMigration/VistaDotNetProjectHelper/MainWindow.xaml.cs:565 | a dictionary by local name exists exactly when the names are distinct, and then it indexes every child and nothing else |
| Lookup.AttrKeyed | VistaMigration/VistaDotNetProjectHelper/MainWindow.xaml.cs:586-587 | a dictionary keyed by an attribute exists exactly when every element has the attribute and no value repeats; then maps each value to its element; otherwise the error is a missing key or a repeated key |
| Lookup.ValueKeyed | VistaMigration/VistaDotNetProjectHelper/MainWindow.xaml.cs:642-644 | a dictionary keyed by value exists exactly when no two values are equal, and then maps each value to its element |
| Lookup.GroupFilter | VistaMigration/VistaDotNetProjectHelper/MainWindow.xaml.cs:559-563 | the lookup filter selects exactly the `PropertyGroup`s in no namespace that have no attribute (blank name) or have an attribute with that name and value, the `Where` test stated on its own as `MatchesGroup` |
| Lookup.PropertyGroupsElements | VistaMigration/VistaDotNetProjectHelper/MainWindow.xaml.cs:554-566 | succeeds exactly when the children of the matching groups have distinct local names, and then indexes each by its name; otherwise fails with a repeated key |
| Lookup.PropertyGroupIndex | VistaMigration/VistaDotNetProjectHelper/MainWindow.xaml.cs:568-578 | the first matching group among the root's children, or None when no group matches |
| Lookup.PackageReferences | VistaMigration/VistaDotNetProjectHelper/MainWindow.xaml.cs:580-593 | succeeds exactly when every `PackageReference` has an `Include` and no `Include` repeats; then every `Include` is a key mapped to its reference and every key is some reference's `Include`; otherwise fails with the missing `Include` or a repeated key |
| Lookup.AdditionalFilesByInclude | VistaMigration/VistaDotNetProjectHelper/MainWindow.xaml.cs:621-634 | succeeds exactly when every `AdditionalFiles` has an `Include` and none repeats, and then maps each `Include` to its entry; otherwise fails with the missing `Include` or a repeated key |
| Lookup.DefaultItemExcludesByValue | VistaMigration/VistaDotNetProjectHelper/MainWindow.xaml.cs:636-645 | succeeds exactly when no two `DefaultItemExcludes` of any property group have the same value, and then maps each value to its entry; otherwise fails with a repeated key |
| Lookup.MetadataElements | VistaMigration/VistaDotNetProjectHelper/MainWindow.xaml.cs:647-654 | succeeds exactly when the children of the attribute-free `metadata` have distinct local names, and then indexes each by its name |
| Lookup.FirstWithoutSrcTarget | VistaMigration/VistaDotNetProjectHelper/MainWindow.xaml.cs:662-666 | the first file without `src` or `target`; every file before it has both; None exactly when all have both |
| Lookup.AllFiles | VistaMigration/VistaDotNetProjectHelper/MainWindow.xaml.cs:656-668 | succeeds exactly when every child of the attribute-free `files` has `src` and `target`, and then lists those children |
| Lookup.FileIndex | VistaMigration/VistaDotNetProjectHelper/MainWindow.xaml.cs:670-673 | the first `files` element in the manifest namespace, whatever its attributes, or None when there is none |
| Lookup.AllTargetFrameworks | VistaMigration/VistaDotNetProjectHelper/MainWindow.xaml.cs:544-552 | succeeds exactly when the global lookup succeeds and holds `TargetFrameworks`; then gives its non-empty list of `;`-free segments that join back to its value; without it fails with "no TargetFrameworks"; a failing lookup is its failure |
| Lookup.ShouldIncludeCodeOfConduct | VistaMigration/VistaDotNetProjectHelper/MainWindow.xaml.cs:757-760 | on success, true exactly when some `PackageReference` has `Include="Vista.CodeContracts"` |
| Merge.Fresh | VistaMigration/VistaDotNetProjectHelper/MainWindow.xaml.cs:447-451 | the appended element has no namespace and no attributes; it is empty for a blank value and carries the value otherwise |
| Merge.ApplySettings | VistaMigration/VistaDotNetProjectHelper/MainWindow.xaml.cs:434-452 | the `foreach` over the override list computes `UpsertAll` |
| Merge.UpsertAllMissing | VistaMigration/VistaDotNetProjectHelper/MainWindow.xaml.cs:447-452 | when no setting is present, each is appended to the target group in list order and nothing else changes |
| Merge.UpsertAllOther | VistaMigration/VistaDotNetProjectHelper/MainWindow.xaml.cs:434-452 | children whose names are not in the override list are kept as they were |
| Merge.UpsertAllSame | VistaMigration/VistaDotNetProjectHelper/MainWindow.xaml.cs:434-452 | after the list, each listed name is held by exactly one element: an empty one for a blank value, the old element with the new text when it existed, a new one otherwise |
| Merge.StepGroup | VistaMigration/VistaDotNetProjectHelper/MainWindow.xaml.cs:436-451 | one setting: an absent one is appended fresh to the target group; a present blank one is removed and an empty element appended; a present valued one is set in place |
| Merge.UpsertAllPlacement | VistaMigration/VistaDotNetProjectHelper/MainWindow.xaml.cs:434-452 | after the list, the target group holds its old children in order, each overwritten in place by its setting when present with a value, dropped when present and blank; then one fresh element per absent or blank setting, in list order |
| Merge.UpsertAllDisjoint | VistaMigration/VistaDotNetProjectHelper/MainWindow.xaml.cs:434-452 | groups outside the scope are left untouched |
| Merge.UpsertDictionary | VistaMigration/VistaDotNetProjectHelper/MainWindow.xaml.cs:432-452 | the upsert driven by the dictionary of the scope gives each setting's element as `UpsertedFrom` and keeps the other names |
| Tree.EditWithin | VistaMigration/VistaDotNetProjectHelper/MainWindow.xaml.cs:436-444 | an edit (`Remove()`, `Value =`) of the selected groups changes what a narrower scope sees exactly by that edit |
| Tree.EditDisjoint | VistaMigration/VistaDotNetProjectHelper/MainWindow.xaml.cs:316-317 | an edit of some groups leaves every disjoint scope untouched |
| Tree.AppendScope | VistaMigration/VistaDotNetProjectHelper/MainWindow.xaml.cs:744 | children appended to a group in a scope appear in that scope's view at that group's place |
| Tree.AppendToEmpty | VistaMigration/VistaDotNetProjectHelper/MainWindow.xaml.cs:711-744 | entries appended to a selected group of an emptied scope are exactly what the scope then holds |
| Tree.ClearAppended | VistaMigration/VistaDotNetProjectHelper/MainWindow.xaml.cs:711-744 | clearing the selected groups again removes what was appended to one of them and changes nothing else |
| Prune.PruneTreeValue | VistaMigration/VistaDotNetProjectHelper/MainWindow.xaml.cs:143-147 | pruning never changes an element's value |
| Prune.Kept | VistaMigration/VistaDotNetProjectHelper/MainWindow.xaml.cs:143-147 | the siblings a prune keeps are exactly those that are not a group without child nodes |
| Prune.PruneAllKept | VistaMigration/VistaDotNetProjectHelper/MainWindow.xaml.cs:143-147 | the pruned siblings are the kept ones, in their original order, each pruned inside |
| Prune.PrunePicked | VistaMigration/VistaDotNetProjectHelper/MainWindow.xaml.cs:143-147 | picking entries by a key after the prune gives the pruned entries picked before |
| Prune.PruneScope | VistaMigration/VistaDotNetProjectHelper/MainWindow.xaml.cs:143-147 | the children a group lookup sees after the prune are the pruned children it saw before |
| Prune.PruneDistinct | VistaMigration/VistaDotNetProjectHelper/MainWindow.xaml.cs:143-147 | siblings with distinct names keep distinct names |
| Prune.PruneClean | VistaMigration/VistaDotNetProjectHelper/MainWindow.xaml.cs:143-147 | a tree without empty groups is left exactly as it is |
| Prune.PruneFlat | VistaMigration/VistaDotNetProjectHelper/MainWindow.xaml.cs:143-147 | when no group holds a group, no `PropertyGroup` or `ItemGroup` without child nodes remains |
| Prune.PruneKeepsAll | VistaMigration/VistaDotNetProjectHelper/MainWindow.xaml.cs:143-147 | when no sibling is a group without child nodes, every sibling is kept, in order, each pruned inside |
| Prune.PruneFlatIdempotent | VistaMigration/VistaDotNetProjectHelper/MainWindow.xaml.cs:143-147 | in such a tree, pruning twice is pruning once |
| Prune.NestedEmptyGroupSurvives | VistaMigration/VistaDotNetProjectHelper/MainWindow.xaml.cs:143-147 | a group that only held an empty group survives, now empty: candidates are chosen before any removal |
| ProjectFile.TargetFrameworksStep | VistaMigration/VistaDotNetProjectHelper/MainWindow.xaml.cs:521-542 | succeeds exactly when `GetAllTargetFrameworks` does, and fails with its error |
| ProjectFile.TargetFrameworksStepEffect | VistaMigration/VistaDotNetProjectHelper/MainWindow.xaml.cs:521-542 | afterwards the target frameworks read back are the merge of those read before |
| ProjectFile.GlobalSettings | VistaMigration/VistaDotNetProjectHelper/MainWindow.xaml.cs:417-427 | the override list of the global group names no property twice |
| ProjectFile.GlobalStep | VistaMigration/VistaDotNetProjectHelper/MainWindow.xaml.cs:415-453 | succeeds exactly when a global group exists and its children's names are distinct; without a global group it fails with that error |
| ProjectFile.GlobalStepEffect | VistaMigration/VistaDotNetProjectHelper/MainWindow.xaml.cs:415-453 | each listed property ends up as exactly one element (empty for `NoWarn` and `WarningsAsErrors`); other properties are kept; item groups are untouched |
| ProjectFile.GlobalStepPlacement | VistaMigration/VistaDotNetProjectHelper/MainWindow.xaml.cs:429-452 | the first global group's children become its old ones overwritten in place, then the absent and blank settings appended in list order |
| ProjectFile.GlobalStepDistinct | VistaMigration/VistaDotNetProjectHelper/MainWindow.xaml.cs:415-453 | global children with distinct names keep distinct names |
| ProjectFile.ConfigurationSettings | VistaMigration/VistaDotNetProjectHelper/MainWindow.xaml.cs:474-518 | the Debug and Release lists name no property twice, start with `DefineConstants`, and hold no blank value |
| ProjectFile.ConfiguredGroup | VistaMigration/VistaDotNetProjectHelper/MainWindow.xaml.cs:457-469 | the first group with the exact `Condition` is reused; otherwise one is appended; afterwards such a group exists, and none was added when one existed |
| ProjectFile.ConfigurationStep | VistaMigration/VistaDotNetProjectHelper/MainWindow.xaml.cs:455-519 | succeeds exactly when the children of the Debug (or Release) groups, after the group is found or added, have distinct names and every `PackageReference` has a distinct `Include` |
| ProjectFile.ConfigurationStepEffect | VistaMigration/VistaDotNetProjectHelper/MainWindow.xaml.cs:455-519 | each setting is held by exactly one element with its value; `DefineConstants` gets `;VISTA_CODE_CONTRACTS` exactly when the input references `Vista.CodeContracts`; other properties and item groups are kept |
| ProjectFile.ConfigurationStepPlacement | VistaMigration/VistaDotNetProjectHelper/MainWindow.xaml.cs:471-518 | the configuration group's children become its old ones with the present settings set in place, then the absent ones appended in list order |
| ProjectFile.ConfigurationStepGlobals | VistaMigration/VistaDotNetProjectHelper/MainWindow.xaml.cs:455-519 | the configuration step leaves the global children as they were |
| ProjectFile.DefineDecisionUsesInput | VistaMigration/VistaDotNetProjectHelper/MainWindow.xaml.cs:139-140 | the steps before the Debug group leave the package references as in the input |
| ProjectFile.DropAndAppend | VistaMigration/VistaDotNetProjectHelper/MainWindow.xaml.cs:312-343 | "remove every match, then append a fresh group": the scope's entries become the unmatched old ones followed by the new group's |
| ProjectFile.ExcludesAsWrittenEffect | VistaMigration/VistaDotNetProjectHelper/MainWindow.xaml.cs:328-343 | as written: the entries of the property groups become the old ones without the NCrunch exclusion, then one new NCrunch exclusion; item groups are untouched |
| ProjectFile.ExcludesAsWrittenClash | VistaMigration/VistaDotNetProjectHelper/MainWindow.xaml.cs:328-343 | as written: when a global group already holds another `DefaultItemExcludes`, reading the target frameworks of the result fails |
| ProjectFile.ExcludesAsWrittenExample | VistaMigration/VistaDotNetProjectHelper/MainWindow.xaml.cs:328-343 | as written: a global group with `TargetFrameworks` and `DefaultItemExcludes` "bin" reads its frameworks before the step and fails to afterwards |
| ProjectFile.ExcludesStepAsWritten | VistaMigration/VistaDotNetProjectHelper/MainWindow.xaml.cs:328-343 | as written: succeeds exactly when `GetDefaultItemExcludes` does, and otherwise fails with a repeated key; on success the top-level elements keep their headers and one new `PropertyGroup` follows them |
| ProjectFile.ExcludesStep | VistaMigration/VistaDotNetProjectHelper/MainWindow.xaml.cs:328-343 | corrected: succeeds exactly when `GetDefaultItemExcludes` does, and otherwise fails with a repeated key |
| ProjectFile.ExcludesStepEffect | VistaMigration/VistaDotNetProjectHelper/MainWindow.xaml.cs:328-343 | corrected: every global property other than `DefaultItemExcludes` is kept; global children with distinct names keep distinct names and end with exactly one `DefaultItemExcludes`, which excludes the NCrunch files; item groups are untouched |
| ProjectFile.ExcludesStepKeepsHeld | VistaMigration/VistaDotNetProjectHelper/MainWindow.xaml.cs:328-343 | corrected: on global groups that already hold one NCrunch-excluding `DefaultItemExcludes`, the step leaves one, with the same value |
| ProjectFile.ExcludesStepStable | VistaMigration/VistaDotNetProjectHelper/MainWindow.xaml.cs:328-343 | corrected: after one run on distinct global names the global groups exclude the NCrunch files, and a second run that succeeds leaves the single `DefaultItemExcludes` with the value the first run wrote |
| ProjectFile.ExcludesStepAgrees | VistaMigration/VistaDotNetProjectHelper/MainWindow.xaml.cs:328-343 | when every global `DefaultItemExcludes` already is the NCrunch one, the corrected step is the step as written |
| ProjectFile.TargetFrameworksStepExcludes | VistaMigration/VistaDotNetProjectHelper/MainWindow.xaml.cs:521-542 | writing the merged frameworks leaves the global `DefaultItemExcludes` entries alone |
| ProjectFile.GlobalStepExcludes | VistaMigration/VistaDotNetProjectHelper/MainWindow.xaml.cs:415-453 | the global overrides leave the global `DefaultItemExcludes` entries alone |
| ProjectFile.PropertyStepsExcludes | VistaMigration/VistaDotNetProjectHelper/MainWindow.xaml.cs:415-519 | the property-group steps ahead of `AddDefaultItemExcludes` keep whether every global `DefaultItemExcludes` is the NCrunch one |
| ProjectFile.ReferenceFor | VistaMigration/VistaDotNetProjectHelper/MainWindow.xaml.cs:392-405 | a fresh `PackageReference` whose `Include` is the package name |
| ProjectFile.ReferencesFor | VistaMigration/VistaDotNetProjectHelper/MainWindow.xaml.cs:392-406 | one reference per package, in list order |
| ProjectFile.ReferencesForKey | VistaMigration/VistaDotNetProjectHelper/MainWindow.xaml.cs:388-410 | among distinct packages, each name's references are exactly its own fresh one |
| ProjectFile.BuildReferences | VistaMigration/VistaDotNetProjectHelper/MainWindow.xaml.cs:392-406 | the `Select` over the list computes `ReferencesFor` |
| ProjectFile.PackagesStep | VistaMigration/VistaDotNetProjectHelper/MainWindow.xaml.cs:386-412 | succeeds exactly when every `PackageReference` has an `Include` and none repeats; otherwise fails with the missing `Include` or a repeated key |
| ProjectFile.PackagesStepEffect | VistaMigration/VistaDotNetProjectHelper/MainWindow.xaml.cs:345-413 | the references become the unmatched old ones followed by the new ones, in one new last `ItemGroup` |
| ProjectFile.PackagesExactlyOnce | VistaMigration/VistaDotNetProjectHelper/MainWindow.xaml.cs:345-413 | each listed package has exactly one reference afterwards, carrying that entry's version and assets and nothing of the old entry |
| ProjectFile.PackagesKeepOthers | VistaMigration/VistaDotNetProjectHelper/MainWindow.xaml.cs:345-413 | references with another `Include` are kept, in order |
| ProjectFile.PackagesKeepCodeContracts | VistaMigration/VistaDotNetProjectHelper/MainWindow.xaml.cs:345-413 | the injection keeps the `Vista.CodeContracts` references as they were, in order, and so does not change whether one exists (the define decision) |
| ProjectFile.AnalyzersNames | VistaMigration/VistaDotNetProjectHelper/MainWindow.xaml.cs:347-384 | the five analyzer names are distinct, and none is `Vista.CodeContracts` |
| ProjectFile.AnalyzersStepGlobals | VistaMigration/VistaDotNetProjectHelper/MainWindow.xaml.cs:345-413 | the package step leaves the global children as they were |
| ProjectFile.AnalyzersStep | VistaMigration/VistaDotNetProjectHelper/MainWindow.xaml.cs:345-413 | `AddCodeAnalysisPackages` succeeds exactly when every `PackageReference` has an `Include` and none repeats, and otherwise fails with the missing `Include` or a repeated key; on success the top-level elements keep their headers and one new `ItemGroup` follows them |
| ProjectFile.StyleCopStep | VistaMigration/VistaDotNetProjectHelper/MainWindow.xaml.cs:312-326 | succeeds exactly when every `AdditionalFiles` has an `Include` and none repeats; otherwise fails with the missing `Include` or a repeated key |
| ProjectFile.StyleCopStepEffect | VistaMigration/VistaDotNetProjectHelper/MainWindow.xaml.cs:312-326 | afterwards exactly one `AdditionalFiles` whose `Include` contains `stylecop.json` exists: `..\..\stylecop.json` with `Link=stylecop.json`; the other entries are kept |
| ProjectFile.StyleCopStepKeeps | VistaMigration/VistaDotNetProjectHelper/MainWindow.xaml.cs:312-326 | the StyleCop step leaves the global children and the package references as they were |
| ProjectFile.FrameworksRead | VistaMigration/VistaDotNetProjectHelper/MainWindow.xaml.cs:544-566 | `GetAllTargetFrameworks` succeeds exactly when the global children have distinct names and include `TargetFrameworks`, and then gives the segments of that one |
| ProjectFile.MergeStepsEffect | VistaMigration/VistaDotNetProjectHelper/MainWindow.xaml.cs:139-141 | after the steps ahead of the prune: distinct global names; one `TargetFrameworks`, whose segments are the merge of the input's; each global setting held once with its value; one NCrunch-excluding `DefaultItemExcludes`; each analyzer referenced exactly once by its fresh reference; one StyleCop entry |
| ProjectFile.PrunedFrameworks | VistaMigration/VistaDotNetProjectHelper/MainWindow.xaml.cs:143-147 | the prune keeps what `GetAllTargetFrameworks` reads |
| ProjectFile.PrunedGlobals | VistaMigration/VistaDotNetProjectHelper/MainWindow.xaml.cs:143-147 | the prune keeps every global setting held and the single NCrunch exclusion |
| ProjectFile.PrunedItems | VistaMigration/VistaDotNetProjectHelper/MainWindow.xaml.cs:143-147 | the prune keeps each analyzer referenced exactly once and the single StyleCop entry |
| ProjectFile.MergeStepsAgrees | VistaMigration/VistaDotNetProjectHelper/MainWindow.xaml.cs:139-141 | when every global `DefaultItemExcludes` of the input is the NCrunch one, the steps with the corrected exclusion are the steps as written, `AddDefaultItemExcludes` included |
| ProjectFile.MergeStepsAsWritten | VistaMigration/VistaDotNetProjectHelper/MainWindow.xaml.cs:139-141 | as written: a failure of the property-group steps is its failure, and two `DefaultItemExcludes` of one value make `AddDefaultItemExcludes` fail it with a repeated key |
| ProjectFile.MigrateProjectAsWritten | VistaMigration/VistaDotNetProjectHelper/MainWindow.xaml.cs:135-156 | as written: succeeds exactly when the steps as written do, with their error otherwise; the prune adds no top-level element |
| ProjectFile.MigrateProject | VistaMigration/VistaDotNetProjectHelper/MainWindow.xaml.cs:135-156 | succeeds exactly when the steps do, with their error otherwise; the prune adds no top-level element |
| ProjectFile.MigrateProjectAgrees | VistaMigration/VistaDotNetProjectHelper/MainWindow.xaml.cs:135-156 | on the same inputs, the migrated project is `SetProjectFile` as written, so `ProjectFile.MigrateProjectEffect` holds of the code as written |
| ProjectFile.MigrateProjectEffect | VistaMigration/VistaDotNetProjectHelper/MainWindow.xaml.cs:135-156 | the saved project reads back the merge of the input's target frameworks, holds each global setting once with its value and one NCrunch exclusion, each analyzer reference once and one StyleCop entry |
| ProjectFile.ProjectDocument.SetTargetFrameworks | VistaMigration/VistaDotNetProjectHelper/MainWindow.xaml.cs:521-542 | the document becomes `TargetFrameworksStep`'s result, or stays as loaded with its error |
| ProjectFile.ProjectDocument.SetGlobalPropertyGroupItems | VistaMigration/VistaDotNetProjectHelper/MainWindow.xaml.cs:415-453 | the same for `GlobalStep` |
| ProjectFile.ProjectDocument.SetConfigurationPropertyGroupItems | VistaMigration/VistaDotNetProjectHelper/MainWindow.xaml.cs:455-519 | the same for `ConfigurationStep` |
| ProjectFile.ProjectDocument.AddDefaultItemExcludes | VistaMigration/VistaDotNetProjectHelper/MainWindow.xaml.cs:328-343 | the same for the corrected `ExcludesStep` (see Findings) |
| ProjectFile.ProjectDocument.AddPackages | VistaMigration/VistaDotNetProjectHelper/MainWindow.xaml.cs:386-412 | the same for `PackagesStep` |
| ProjectFile.ProjectDocument.AddCodeAnalysisPackages | VistaMigration/VistaDotNetProjectHelper/MainWindow.xaml.cs:345-413 | the same for `AnalyzersStep` |
| ProjectFile.ProjectDocument.AddStyleCop | VistaMigration/VistaDotNetProjectHelper/MainWindow.xaml.cs:312-326 | the same for `StyleCopStep` |
| ProjectFile.ProjectDocument.PruneEmptyGroups | VistaMigration/VistaDotNetProjectHelper/MainWindow.xaml.cs:143-147 | the document becomes the prune of itself |
| ProjectFile.ProjectDocument.SetProjectFile | VistaMigration/VistaDotNetProjectHelper/MainWindow.xaml.cs:135-156 | the document becomes `MigrateProject`'s result, or stays as loaded with the first error |
| Manifest.MetadataSettings | VistaMigration/VistaDotNetProjectHelper/MainWindow.xaml.cs:677-682 | `id` is the assembly name, `version` is `$VersionNuGet$`, `requireLicenseAcceptance` is `false`, and no name repeats |
| Manifest.MetadataStepAsWritten | VistaMigration/VistaDotNetProjectHelper/MainWindow.xaml.cs:675-707 | as written: fails with "no metadata" when there is none, and succeeds exactly when metadata exists and the children of the attribute-free ones have distinct names |
| Manifest.MetadataAsWrittenDuplicatesId | VistaMigration/VistaDotNetProjectHelper/MainWindow.xaml.cs:647-654 | as written, a `metadata` element with an attribute that holds an `id` ends up with two `id`s |
| Manifest.MetadataStep | VistaMigration/VistaDotNetProjectHelper/MainWindow.xaml.cs:675-707 | corrected: fails with "no metadata" when there is none, and succeeds exactly when metadata exists and its children's names are distinct |
| Manifest.MetadataStepEffect | VistaMigration/VistaDotNetProjectHelper/MainWindow.xaml.cs:675-707 | each of `id`, `version`, `requireLicenseAcceptance` ends up as exactly one element (the old one with the new text where it existed); other metadata and the `files` lists are kept |
| Manifest.MetadataStepAgrees | VistaMigration/VistaDotNetProjectHelper/MainWindow.xaml.cs:647-707 | when no `metadata` element has attributes, the corrected step is the step as written |
| Manifest.FrameworkEntriesAt | VistaMigration/VistaDotNetProjectHelper/MainWindow.xaml.cs:719-734 | framework `i`'s `.dll`, `.pdb` and `.xml` entries sit at `3i`, `3i+1` and `3i+2` |
| Manifest.FrameworkEntriesWellFormed | VistaMigration/VistaDotNetProjectHelper/MainWindow.xaml.cs:719-734 | every per-framework entry is a `file` with `src` and `target`, no namespace and no children |
| Manifest.FileEntries | VistaMigration/VistaDotNetProjectHelper/MainWindow.xaml.cs:719-740 | 3N+1 entries, each a `file` with `src` and `target` |
| Manifest.FileEntriesLayout | VistaMigration/VistaDotNetProjectHelper/MainWindow.xaml.cs:719-740 | three entries per framework in framework order, then the `**\*.cs` source entry with target `src\<asm>` |
| Manifest.FilesAsWrittenKeepsOldEntries | VistaMigration/VistaDotNetProjectHelper/MainWindow.xaml.cs:709-745 | as written, a `files` element with an attribute keeps its old entries and gets the new ones after them |
| Manifest.FilesAsWrittenTwice | VistaMigration/VistaDotNetProjectHelper/MainWindow.xaml.cs:709-745 | as written, a second run on such a manifest lists every file twice |
| Manifest.FilesStepAsWritten | VistaMigration/VistaDotNetProjectHelper/MainWindow.xaml.cs:709-745 | as written: succeeds exactly when the attribute-free `files` children all have `src` and `target`, the project has `TargetFrameworks` and a `files` element exists |
| Manifest.FilesStep | VistaMigration/VistaDotNetProjectHelper/MainWindow.xaml.cs:709-745 | corrected: keeps every top-level header; fails with a missing key when a listed file lacks `src` or `target`, then with the framework read's error, then with the missing `files` element, in that order |
| Manifest.FilesStepEffect | VistaMigration/VistaDotNetProjectHelper/MainWindow.xaml.cs:709-745 | corrected: succeeds exactly when every listed file has `src` and `target`, the project has `TargetFrameworks` and a `files` element exists; afterwards exactly the new entries are listed |
| Manifest.FilesStepIdempotent | VistaMigration/VistaDotNetProjectHelper/MainWindow.xaml.cs:709-745 | corrected: a second run changes nothing |
| Manifest.FilesStepAgrees | VistaMigration/VistaDotNetProjectHelper/MainWindow.xaml.cs:656-745 | when no `files` element has attributes, the corrected step is the step as written |
| Manifest.FilesKeepMetadata | VistaMigration/VistaDotNetProjectHelper/MainWindow.xaml.cs:709-745 | the files step leaves the metadata as it was |
| Manifest.FileEntriesStripped | VistaMigration/VistaDotNetProjectHelper/MainWindow.xaml.cs:719-740 | the new entries have no namespace anywhere, so the strip leaves them as they are |
| Manifest.StripTree | VistaMigration/VistaDotNetProjectHelper/MainWindow.xaml.cs:174-180 | an element equals its strip up to namespaces, at every depth; `package` keeps its namespace and every other element loses it |
| Manifest.StripAll | VistaMigration/VistaDotNetProjectHelper/MainWindow.xaml.cs:174-180 | as many siblings as before, equal to them up to namespaces at every depth |
| Manifest.StripAllEffect | VistaMigration/VistaDotNetProjectHelper/MainWindow.xaml.cs:174-180 | afterwards no element but `package` has a namespace and each `package` keeps its own; with namespaces erased the tree is unchanged at every depth; values are unchanged |
| Manifest.StripAllIdempotent | VistaMigration/VistaDotNetProjectHelper/MainWindow.xaml.cs:174-180 | stripping twice is stripping once |
| Manifest.StripPicked | VistaMigration/VistaDotNetProjectHelper/MainWindow.xaml.cs:174-180 | picking entries by a key after the strip gives the stripped entries picked before |
| Manifest.StripScope | VistaMigration/VistaDotNetProjectHelper/MainWindow.xaml.cs:174-180 | the children of the stripped `metadata` or `files` are the stripped children of those in the manifest namespace |
| Manifest.StrippedSetting | VistaMigration/VistaDotNetProjectHelper/MainWindow.xaml.cs:174-180 | a setting held before the strip is held after it |
| Manifest.StrippedFiles | VistaMigration/VistaDotNetProjectHelper/MainWindow.xaml.cs:172-180 | after the files step and the strip, the `files` children are exactly the new entries |
| Manifest.StrippedOverrides | VistaMigration/VistaDotNetProjectHelper/MainWindow.xaml.cs:171-180 | after the strip, each override is held once with its value, and every other metadata entry is the one from before, stripped |
| Manifest.CleanSavedText | VistaMigration/VistaDotNetProjectHelper/MainWindow.xaml.cs:190-192 | removing ` xmlns=""` leaves the text unchanged when the declaration does not occur, and removes at least one declaration's length when it does (the exact result is `Text.RemoveAllFirst`) |
| Manifest.ManifestDocument.SetMetadataItems | VistaMigration/VistaDotNetProjectHelper/MainWindow.xaml.cs:675-707 | the manifest becomes `MetadataStep`'s result, or stays as loaded with its error |
| Manifest.ManifestDocument.SetAllFiles | VistaMigration/VistaDotNetProjectHelper/MainWindow.xaml.cs:709-745 | the same for `FilesStep`, appending one entry at a time |
| Manifest.AppendEntries | VistaMigration/VistaDotNetProjectHelper/MainWindow.xaml.cs:744 | the `foreach` adds the entries to the `files` element one by one, in order |
| Manifest.MetadataHeaders | VistaMigration/VistaDotNetProjectHelper/MainWindow.xaml.cs:675-707 | the metadata step keeps every top-level element's namespace, name and attributes |
| Manifest.MetadataStepPlain | VistaMigration/VistaDotNetProjectHelper/MainWindow.xaml.cs:675-707 | after the metadata step, `metadata` and `files` elements still have no attributes when they had none |
| Manifest.FilesHeaders | VistaMigration/VistaDotNetProjectHelper/MainWindow.xaml.cs:709-745 | the files step keeps every top-level element's namespace, name and attributes |
| Manifest.ManifestDocument.StripNamespaces | VistaMigration/VistaDotNetProjectHelper/MainWindow.xaml.cs:174-180 | the manifest becomes `StripAll` of itself |
| Pipeline.MigrateManifest | VistaMigration/VistaDotNetProjectHelper/MainWindow.xaml.cs:171-180 | on success only `package` elements keep a namespace, and no top-level element is added, removed or renamed; a metadata failure is its failure |
| Pipeline.MigrateManifestAsWritten | VistaMigration/VistaDotNetProjectHelper/MainWindow.xaml.cs:171-180 | as written: on success only `package` elements keep a namespace; a metadata failure is its failure, and after the metadata step it succeeds exactly when `SetAllFiles` as written does |
| Pipeline.MigrateManifestEffect | VistaMigration/VistaDotNetProjectHelper/MainWindow.xaml.cs:171-180 | the saved manifest lists exactly the file entries of the project's target frameworks, holds `id`, `version` and `requireLicenseAcceptance` once each with their new values, and keeps every other metadata entry, stripped |
| Pipeline.AfterMergeSavesProject | VistaMigration/VistaDotNetProjectHelper/MainWindow.xaml.cs:124-125 | after the merge, the project file is saved first, exactly when the merge succeeded |
| Pipeline.AfterMergeSavesManifest | VistaMigration/VistaDotNetProjectHelper/MainWindow.xaml.cs:124-125 | after the merge, the stripped manifest is saved second exactly when its step runs and succeeds, and never a third file |
| Pipeline.AfterMergeStripped | VistaMigration/VistaDotNetProjectHelper/MainWindow.xaml.cs:171-193 | the second file saved is the `.nuspec`, holding the result of the manifest steps, with namespaces only on `package` |
| Pipeline.AfterMergeSucceeds | VistaMigration/VistaDotNetProjectHelper/MainWindow.xaml.cs:124-125 | after the merge, the directory succeeds exactly when everything it was to save is saved |
| Pipeline.AfterMerge | VistaMigration/VistaDotNetProjectHelper/MainWindow.xaml.cs:124-125 | a failed merge saves nothing and is the error; a successful one saves the project file first and at most one more file; a test project saves only that, and a missing `.nuspec` is reported after it |
| Pipeline.MigrateOne | VistaMigration/VistaDotNetProjectHelper/MainWindow.xaml.cs:119-125 | a missing `Properties` directory saves nothing and is the error; at most two files are saved, and the first is the migrated project file |
| Pipeline.ProjectSavedFirst | VistaMigration/VistaDotNetProjectHelper/MainWindow.xaml.cs:122-125 | a directory saves something exactly when `Properties` exists and the merge succeeds, and the migrated project file comes first |
| Pipeline.ManifestSavedSecond | VistaMigration/VistaDotNetProjectHelper/MainWindow.xaml.cs:158-193 | the manifest is saved, stripped, exactly when the path has no `UnitTests`, the `.nuspec` exists and its step succeeds |
| Pipeline.SavedManifestContents | VistaMigration/VistaDotNetProjectHelper/MainWindow.xaml.cs:158-193 | when a directory saves its manifest, the files listed are the entries of the merged target frameworks of its project, and the metadata holds each override with its value |
| Pipeline.MigrateManifestAgrees | VistaMigration/VistaDotNetProjectHelper/MainWindow.xaml.cs:171-180 | when no `metadata` or `files` element has attributes, the manifest steps are the steps as written, `SetMetadataItems` and `SetAllFiles` included |
| Pipeline.SavedAsWritten | VistaMigration/VistaDotNetProjectHelper/MainWindow.xaml.cs:117-126 | when neither correction changes anything, the project file a directory saves is `SetProjectFile` as written, and the manifest is `CheckAndCreateNuspecFile` as written on it |
| Pipeline.SavedManifestAsWritten | VistaMigration/VistaDotNetProjectHelper/MainWindow.xaml.cs:158-193 | on those inputs, the manifest the code as written saves lists the entries of the merged target frameworks and holds each override with its value |
| Pipeline.SucceedsWhenAllSaved | VistaMigration/VistaDotNetProjectHelper/MainWindow.xaml.cs:158-193 | a directory succeeds exactly when everything it was to save is saved |
| Pipeline.TestProjectsNeedNoManifest | VistaMigration/VistaDotNetProjectHelper/MainWindow.xaml.cs:162 | a project whose path contains `UnitTests` in any case never saves or needs a manifest |
| Pipeline.Combine | VistaMigration/VistaDotNetProjectHelper/MainWindow.xaml.cs:117-126 | the run succeeds exactly when every directory does, and its error is one of theirs |
| Pipeline.CombineSucceeds | VistaMigration/VistaDotNetProjectHelper/MainWindow.xaml.cs:117-126 | when every directory succeeds, the run saves what each saves, in selection order |
| Pipeline.CombineStopsAt | VistaMigration/VistaDotNetProjectHelper/MainWindow.xaml.cs:107-132 | the first failing directory ends the run with its error; the earlier saves stay; no later directory is touched |
| Pipeline.MigrateDirectory | VistaMigration/VistaDotNetProjectHelper/MainWindow.xaml.cs:119-125 | the two documents, changed in place, give the directory's report |
| Pipeline.MigrateSelected | VistaMigration/VistaDotNetProjectHelper/MainWindow.xaml.cs:105-133 | the loop, which ends at the first failure, gives `MigrateAll` |
| Pipeline.MigrateEach | VistaMigration/VistaDotNetProjectHelper/MainWindow.xaml.cs:117-126 | the loop over the directories, given each one's report, gives their combination |
| Pipeline.MigrateNext | VistaMigration/VistaDotNetProjectHelper/MainWindow.xaml.cs:119-125 | one turn: the directory's saves are added to the earlier ones, or its error decides the whole run |
| Pipeline.ManifestHeaders | VistaMigration/VistaDotNetProjectHelper/MainWindow.xaml.cs:171-180 | the two manifest steps keep every top-level element's namespace, name and attributes |

## Left out

- The WPF window, project discovery and the message box are left out: they are user interface. The selected directories are inputs.
- DotLiquid rendering and the template files (`SetStyleCop`, `SetGitIgnore`, `SetEditorConfig`, `SetGitAttributes`, `SetNugetConfig`, and the body of `SetAssemblyInfo`) are left out: they are a foreign library and file writes. Only the `Properties` existence check of `SetAssemblyInfo` is kept, as a boolean input.
- XML parsing and serialisation are left out, and so are file reads and writes. Documents are parsed trees, and a save is a `Write` value. Reloading the saved project file is assumed to give back the saved tree.
- Manifest.CleanSavedText: the ` xmlns=""` cleanup is a string function on text the model never produces, since serialisation is left out. Like `Replace`, it does not rescan, so its result is not claimed to be free of the declaration: a removal can join the two halves of a new one.
- `List.Sort` uses .NET's culture-sensitive comparer. The model sorts by ordinal character order.
- `Path.GetFileNameWithoutExtension` and `Path.Join` are not modelled. The assembly name and the paths are inputs, and the separator is fixed as `\`.
- Groups, `metadata` and `files` are looked up among the root's children only. The source's `Descendants` would also find nested ones. The prune pass is the exception: it works at every depth.
- `Manifest.MetadataStep`, `Manifest.FilesStep`, `Manifest.ManifestDocument.SetMetadataItems`, `Manifest.ManifestDocument.SetAllFiles`, `Pipeline.MigrateManifestEffect`, `Pipeline.SavedManifestContents`: the model uses the corrected lookups, which see the same elements as the target lookup. The as-written versions are kept beside them (see Findings), and `Pipeline.MigrateManifestAsWritten` chains them. `Manifest.MetadataStepAgrees`, `Manifest.FilesStepAgrees` and `Pipeline.MigrateManifestAgrees` prove the two equal when no `metadata` or `files` element has attributes; `Pipeline.SavedManifestAsWritten` states the saved contents for the code as written on those manifests.
- `ProjectFile.ExcludesStep`, `ProjectFile.ProjectDocument.AddDefaultItemExcludes`, `ProjectFile.ProjectDocument.SetProjectFile`, `ProjectFile.MergeStepsEffect`, `ProjectFile.MigrateProjectEffect`: `SetProjectFile` is modelled with the corrected exclusion step (see Findings). `ProjectFile.MergeStepsAsWritten` and `ProjectFile.MigrateProjectAsWritten` are the steps as written. `ProjectFile.ExcludesStepAgrees`, `ProjectFile.MergeStepsAgrees` and `ProjectFile.MigrateProjectAgrees` prove them equal when the input's global groups hold no other `DefaultItemExcludes`. On other inputs the code as written saves two global `DefaultItemExcludes` and then fails the batch at its next framework read (`ProjectFile.ExcludesAsWrittenClash`), where the model saves one.
- Pipeline.MigrateManifest: its own contract states only the strip and the top-level headers. The saved contents are stated by `Pipeline.MigrateManifestEffect`.
- Pipeline.MigrateManifestEffect: stated for manifests whose `metadata` and `files` elements are all in the manifest namespace. After the strip, an element with the same local name in another namespace would be read back with them.
- ProjectFile.MigrateProjectEffect: does not carry the Debug and Release settings through the later steps. They are stated per step by `ProjectFile.ConfigurationStepEffect` and `ProjectFile.ConfigurationStepPlacement`.
- Comment, processing-instruction and CDATA nodes are not modelled: an `Element` holds only text and child elements. The source's prune test `Nodes().Any()` counts those nodes too. So a group that holds only a comment is kept by the source but removed by the model. `Xml.Value` is an element's own text followed by its children's values, while `XElement.Value` joins them in document order; the two differ only for text after or between child elements, which property and metadata values do not have.
- `Prune.PruneFlat`: "no empty group remains" is proved only for trees whose groups hold no groups, because the source itself leaves a group that only held an empty group (`Prune.NestedEmptyGroupSurvives`).
- `ContainsIgnoreCase` folds ASCII letters only. It does not model the invariant culture's full case mapping.
- The never-called helpers `GetItemGroupsElements` and `GetItemGroup` are not modelled.

## Findings

| source | as written | input that shows it | evidently intended | confidence | as-written member | corrected member |
|---|---|---|---|---|---|---|
| VistaMigration/VistaDotNetProjectHelper/MainWindow.xaml.cs:684-686 | `GetMetadataElements` reads only `metadata` elements without attributes. The new elements go to the first `metadata` element, whatever its attributes. | a `<metadata minClientVersion="…">` holding an `<id>` | the existing `id` is overwritten in place, leaving one `id` | not executed | Manifest.MetadataAsWrittenDuplicatesId | Manifest.MetadataStepEffect |
| VistaMigration/VistaDotNetProjectHelper/MainWindow.xaml.cs:711-744 | `GetAllFiles` clears only `files` elements without attributes. `GetFile` appends to the first `files` element, whatever its attributes. | a `<files>` element with any attribute | the old entries are replaced, so that a second run changes nothing | not executed | Manifest.FilesAsWrittenTwice | Manifest.FilesStepIdempotent |
| VistaMigration/VistaDotNetProjectHelper/MainWindow.xaml.cs:328-343 | `AddDefaultItemExcludes` appends a new attribute-free `PropertyGroup` holding the NCrunch exclusion, even when a global group already holds another `DefaultItemExcludes`. The global lookup of 554-566 then meets that name twice, so `GetAllTargetFrameworks` in `SetAllFiles` (715) throws. | a global `PropertyGroup` holding `TargetFrameworks` and `<DefaultItemExcludes>bin</DefaultItemExcludes>` | the existing global `DefaultItemExcludes` also excludes the NCrunch files, the global group keeps one such entry, and a second run leaves it as it is | not executed | ProjectFile.ExcludesAsWrittenExample | ProjectFile.ExcludesStepEffect |

=== FILE: frameworks.dfy ===
/**
 * The target-framework merge of `SetTargetFrameworks`: the two frameworks
 * every migrated project must build for are added when absent, and the
 * list is sorted before it is joined back with ';'.
 */
module Frameworks {
  import opened Text

  const Net461 := "net461"
  const NetStandard20 := "netstandard2.0"

  /** The frameworks added to every project, in the order they are tried. */
  const FrameworksToAdd: seq<string> := [Net461, NetStandard20]

  /** Appends each of `adds`, in order, unless the list already holds it. */
  function AddMissing(fs: seq<string>, adds: seq<string>): (r: seq<string>)
    ensures multiset(fs) <= multiset(r)
    ensures forall a :: a in adds ==> a in r
    ensures forall x :: x in r ==> x in fs || x in adds
    ensures (forall a :: a in adds ==> a in fs) ==> r == fs
  {
    if adds == [] then fs
    else
      var n := |adds| - 1;
      var before := AddMissing(fs, adds[..n]);
      assert forall a :: a in adds ==> a in adds[..n] || a == adds[n];
      if adds[n] in before then before else before + [adds[n]]
  }

  /** Each added framework appears once more exactly when it was absent. */
  lemma AddMissingPair(fs: seq<string>)
    ensures multiset(AddMissing(fs, FrameworksToAdd)) == multiset(fs)
      + (if Net461 in fs then multiset{} else multiset{Net461})
      + (if NetStandard20 in fs then multiset{} else multiset{NetStandard20})
  {
    assert FrameworksToAdd[..1][..0] == [];
    assert FrameworksToAdd[..|FrameworksToAdd| - 1] == FrameworksToAdd[..1];
    var first := AddMissing(fs, FrameworksToAdd[..1]);
    assert first == if Net461 in fs then fs else fs + [Net461];
    assert NetStandard20 in first <==> NetStandard20 in fs;
  }

  lemma SortKeeps(s: seq<string>)
    ensures forall x :: x in Sort(s) <==> x in s
  {
    var r := Sort(s);
    assert forall x :: x in r <==> x in multiset(r);
    assert forall x :: x in s <==> x in multiset(s);
  }

  /**
   * The merged list: sorted, holding both added frameworks, and holding
   * every original segment as often as before (duplicates included), plus
   * each added framework exactly once when it was absent.
   */
  function MergeFrameworks(fs: seq<string>): (r: seq<string>)
    ensures Sorted(r)
    ensures Net461 in r && NetStandard20 in r
    ensures forall x :: x in r ==> x in fs || x == Net461 || x == NetStandard20
    ensures multiset(r) == multiset(fs)
      + (if Net461 in fs then multiset{} else multiset{Net461})
      + (if NetStandard20 in fs then multiset{} else multiset{NetStandard20})
  {
    var both := AddMissing(fs, FrameworksToAdd);
    assert Net461 in FrameworksToAdd && NetStandard20 in FrameworksToAdd;
    AddMissingPair(fs);
    SortKeeps(both);
    Sort(both)
  }

  /** The merge of `SetTargetFrameworks`: the `foreach` that adds the missing frameworks, then the sort. */
  method MergeTargetFrameworks(current: seq<string>) returns (merged: seq<string>)
    ensures merged == MergeFrameworks(current)
  {
    var all := AddEach(current, FrameworksToAdd);
    merged := Sort(all);
  }

  /** The `foreach` of `SetTargetFrameworks`: each framework is appended unless the list already holds it. */
  method AddEach(current: seq<string>, adds: seq<string>) returns (all: seq<string>)
    ensures all == AddMissing(current, adds)
  {
    all := current;
    var i := 0;
    while i < |adds|
      invariant 0 <= i <= |adds|
      invariant all == AddMissing(current, adds[..i])
    {
      assert adds[..i + 1][..i] == adds[..i];
      if adds[i] !in all {
        all := all + [adds[i]];
      }
      i := i + 1;
    }
    assert adds[..i] == adds;
  }

  /** Merging a merged list changes nothing. */
  lemma MergeIdempotent(fs: seq<string>)
    ensures MergeFrameworks(MergeFrameworks(fs)) == MergeFrameworks(fs)
  {
    var m := MergeFrameworks(fs);
    assert AddMissing(m, FrameworksToAdd) == m;
    SortSorted(m);
  }

  /** A merged list holds the original segments and the added frameworks, and nothing else. */
  lemma MergeMembers(fs: seq<string>)
    ensures forall x :: x in MergeFrameworks(fs) <==> x in fs || x == Net461 || x == NetStandard20
  {
    var both := AddMissing(fs, FrameworksToAdd);
    SortKeeps(both);
    assert MergeFrameworks(fs) == Sort(both);
    forall x
      ensures x in both <==> x in fs || x == Net461 || x == NetStandard20
    {
      if x in fs {
        assert x in multiset(fs);
      }
      assert x in FrameworksToAdd <==> x == Net461 || x == NetStandard20;
    }
  }

  lemma AddedSegments()
    ensures Separator !in Net461 && Separator !in NetStandard20
  {
  }

  /** No segment of a merged list holds a ';', when none of the original ones did. */
  lemma MergeSegments(fs: seq<string>)
    requires forall i :: 0 <= i < |fs| ==> Separator !in fs[i]
    ensures forall i :: 0 <= i < |MergeFrameworks(fs)| ==> Separator !in MergeFrameworks(fs)[i]
  {
    var m := MergeFrameworks(fs);
    AddedSegments();
    MergeMembers(fs);
    forall i | 0 <= i < |m| ensures Separator !in m[i] {
      var x := m[i];
      assert x in m;
      if x in fs {
        var j :| 0 <= j < |fs| && fs[j] == x;
      }
    }
  }

  /**
   * The stored value is a fixed point: merging the segments of a merged and
   * joined value gives the same value back, so a second migration leaves
   * `TargetFrameworks` as the first one wrote it.
   */
  lemma MergedValueStable(value: string)
    ensures var merged := Join(MergeFrameworks(Split(value)));
      Join(MergeFrameworks(Split(merged))) == merged
  {
    var m := MergeFrameworks(Split(value));
    MergeSegments(Split(value));
    SplitJoin(m);
    MergeIdempotent(Split(value));
  }
}

=== FILE: lookup.dfy ===
/**
 * The lookups of MainWindow.xaml.cs (`GetPropertyGroupsElements`,
 * `GetPropertyGroup`, `GetPackageReferences`, `GetAdditionalFiles`,
 * `GetDefaultItemExcludes`, `GetMetadataElements`, `GetAllFiles`, `GetFile`,
 * `GetAllTargetFrameworks`, `ShouldIncludeCodeOfConduct`) and the errors the
 * engine can raise. Each dictionary-building lookup goes through
 * `ToDictionary`, which fails on a missing key attribute or a repeated key.
 */
module Lookup {
  import opened Wrappers
  import opened Text
  import opened Xml

  /** The exceptions the engine raises, one constructor per cause. */
  datatype Error =
    | DuplicateKey(key: string)               // ToDictionary met a key twice
    | MissingKey(element: string)             // `element.Attribute(name)!.Value` on an element without it
    | NoGlobalPropertyGroup                   // `First` found no attribute-free PropertyGroup
    | NoTargetFrameworks                      // "No TargetFrameworks found!!!"
    | NoMetadata                              // `First` found no manifest metadata element
    | NoFilesElement                          // `GetFile` returned null and `Add` was called on it
    | MissingNuspec(path: string)             // "File ... does not exist"
    | MissingPropertiesDirectory(path: string) // "Properties ... directory does not exist!!!"

  type Outcome<T> = Result<T, Error>

  /** How a method leaves a document: the new children on success, the old ones and the error otherwise. */
  predicate Applied(before: seq<Element>, r: Outcome<seq<Element>>, err: Option<Error>, after: seq<Element>)
  {
    match r
    case Success(v) => err == None && after == v
    case Failure(e) => err == Some(e) && after == before
  }

  // ---------------------------------------------------------------------
  // Names the engine uses

  const ProjectName := "Project"
  const PropertyGroup := "PropertyGroup"
  const ItemGroup := "ItemGroup"
  const Condition := "Condition"
  const TargetFrameworks := "TargetFrameworks"
  const DefineConstants := "DefineConstants"
  const DebugType := "DebugType"
  const DebugSymbols := "DebugSymbols"
  const PackageReference := "PackageReference"
  const AdditionalFiles := "AdditionalFiles"
  const DefaultItemExcludes := "DefaultItemExcludes"
  const Include := "Include"
  const Link := "Link"
  const VersionAttribute := "Version"
  const PrivateAssets := "PrivateAssets"
  const IncludeAssets := "IncludeAssets"
  const CodeContractsPackage := "Vista.CodeContracts"

  const NuspecNamespace := "http://schemas.microsoft.com/packaging/2010/07/nuspec.xsd"
  const Metadata := "metadata"
  const Files := "files"
  const FileElement := "file"
  const Src := "src"
  const Target := "target"
  const Package := "package"

  /**
   * The attribute filter of the group lookups: a blank attribute name asks
   * for groups without attributes, otherwise for groups whose attribute of
   * that name has the given value.
   */
  function GroupFilter(attributeName: string, attributeValue: string): (f: Filter)
    ensures IsBlank(attributeName) ==> f == NoAttributes
    ensures !IsBlank(attributeName) ==> f == WithAttribute(attributeName, attributeValue)
    ensures forall e :: Selects(PropertyGroups(f), e) <==> MatchesGroup(e, attributeName, attributeValue)
  {
    if IsBlank(attributeName) then NoAttributes else WithAttribute(attributeName, attributeValue)
  }

  /**
   * The `Where` test of the group lookups, in the source's terms: a
   * `PropertyGroup` in no namespace that has no attribute at all when the
   * attribute name is blank, and otherwise has some attribute with that
   * name and value.
   */
  predicate MatchesGroup(e: Element, attributeName: string, attributeValue: string)
  {
    e.ns == "" && e.name == PropertyGroup &&
    if IsBlank(attributeName) then |e.attrs| == 0
    else exists a :: a in e.attrs && a.name == attributeName && a.value == attributeValue
  }

  function PropertyGroups(f: Filter): Selector
  {
    Selector("", PropertyGroup, f)
  }

  /** The attribute-free ("global") property groups. */
  const GlobalGroups := PropertyGroups(NoAttributes)
  const AllPropertyGroups := PropertyGroups(AnyAttributes)
  const ItemGroups := Selector("", ItemGroup, AnyAttributes)
  const MetadataScope := Selector(NuspecNamespace, Metadata, NoAttributes)
  const AnyMetadata := Selector(NuspecNamespace, Metadata, AnyAttributes)
  const FilesScope := Selector(NuspecNamespace, Files, NoAttributes)
  const AnyFiles := Selector(NuspecNamespace, Files, AnyAttributes)

  // ---------------------------------------------------------------------
  // ToDictionary

  /** An element with the key its lookup files it under; None when the key attribute is absent. */
  datatype Keyed = Keyed(key: Option<string>, element: Element)

  function KeysOf(entries: seq<Keyed>): set<string>
  {
    set i | 0 <= i < |entries| && entries[i].key.Some? :: entries[i].key.value
  }

  /** Every entry has a key and no key repeats. */
  predicate Unique(entries: seq<Keyed>)
  {
    (forall i :: 0 <= i < |entries| ==> entries[i].key.Some?) &&
    (forall i, j :: 0 <= i < j < |entries| ==> entries[i].key != entries[j].key)
  }

  /** Entry `e` cannot be added after `prefix`: it has no key or its key is taken. */
  predicate Offends(prefix: seq<Keyed>, e: Keyed)
  {
    e.key.None? || e.key.value in KeysOf(prefix)
  }

  function OffenceError(e: Keyed): Error
  {
    if e.key.None? then MissingKey(e.element.name) else DuplicateKey(e.key.value)
  }

  lemma KeysOfSnoc(init: seq<Keyed>, last: Keyed)
    ensures KeysOf(init + [last]) == KeysOf(init) + (if last.key.Some? then {last.key.value} else {})
  {
    var e := init + [last];
    forall k | k in KeysOf(e) ensures k in KeysOf(init) || (last.key.Some? && k == last.key.value) {
      var i :| 0 <= i < |e| && e[i].key.Some? && e[i].key.value == k;
      if i < |init| { assert e[i] == init[i]; }
    }
    forall k | k in KeysOf(init) ensures k in KeysOf(e) {
      var i :| 0 <= i < |init| && init[i].key.Some? && init[i].key.value == k;
      assert e[i] == init[i];
    }
    if last.key.Some? {
      assert e[|init|] == last;
    }
  }

  lemma UniqueSnoc(init: seq<Keyed>, last: Keyed)
    ensures Unique(init + [last]) <==> Unique(init) && !Offends(init, last)
  {
    var e := init + [last];
    assert forall i :: 0 <= i < |init| ==> e[i] == init[i];
    assert e[|init|] == last;
    if Unique(e) {
      forall i | 0 <= i < |init| ensures init[i].key != last.key {
        assert e[i].key != e[|init|].key;
      }
      assert last.key.value !in KeysOf(init);
    }
    if Unique(init) && !Offends(init, last) {
      forall i | 0 <= i < |init| ensures init[i].key != last.key {
        assert init[i].key.value in KeysOf(init);
      }
    }
  }

  lemma ExtendDictionary(init: seq<Keyed>, last: Keyed, d: map<string, Element>)
    requires Unique(init + [last]) && Unique(init) && last.key.Some?
    requires forall i :: 0 <= i < |init| ==> init[i].key.value in d && d[init[i].key.value] == init[i].element
    ensures var e, r := init + [last], d[last.key.value := last.element];
      forall i :: 0 <= i < |e| ==> e[i].key.value in r && r[e[i].key.value] == e[i].element
  {
    var e, r := init + [last], d[last.key.value := last.element];
    forall i | 0 <= i < |e| ensures e[i].key.value in r && r[e[i].key.value] == e[i].element {
      if i < |init| {
        assert e[i] == init[i] && e[i].key != e[|init|].key;
      }
    }
  }

  /**
   * `ToDictionary`: succeeds exactly when every entry has a key and no key
   * repeats, and then maps each key to its element; otherwise it fails at
   * the first entry, in document order, that has no key or repeats one.
   */
  function ToDictionary(entries: seq<Keyed>): (r: Outcome<map<string, Element>>)
    ensures r.Success? <==> Unique(entries)
    ensures r.Success? ==> r.value.Keys == KeysOf(entries)
    ensures r.Success? ==> forall i :: 0 <= i < |entries| ==> r.value[entries[i].key.value] == entries[i].element
    ensures r.Failure? ==> exists i :: 0 <= i < |entries| && Unique(entries[..i]) && Offends(entries[..i], entries[i]) && r.error == OffenceError(entries[i])
  {
    if entries == [] then Success(map[])
    else
      var n := |entries| - 1;
      var init, last := entries[..n], entries[n];
      assert entries == init + [last];
      UniqueSnoc(init, last);
      KeysOfSnoc(init, last);
      match ToDictionary(init)
      case Failure(e) =>
        ghost var i :| 0 <= i < |init| && Unique(init[..i]) && Offends(init[..i], init[i]) && e == OffenceError(init[i]);
        assert init[..i] == entries[..i] && init[i] == entries[i];
        Failure(e)
      case Success(d) =>
        if last.key.None? || last.key.value in d then
          Failure(OffenceError(last))
        else
          ExtendDictionary(init, last, d);
          Success(d[last.key.value := last.element])
  }

  /** Keys every element by its local name (`element.Name.LocalName`). */
  function ByName(cs: seq<Element>): (r: seq<Keyed>)
    ensures |r| == |cs| && forall i :: 0 <= i < |cs| ==> r[i] == Keyed(Some(cs[i].name), cs[i])
  {
    seq(|cs|, i requires 0 <= i < |cs| => Keyed(Some(cs[i].name), cs[i]))
  }

  /** Keys every element by an attribute (`element.Attribute(attr)!.Value`). */
  function ByAttr(cs: seq<Element>, attr: string): (r: seq<Keyed>)
    ensures |r| == |cs| && forall i :: 0 <= i < |cs| ==> r[i] == Keyed(Attribute(cs[i], attr), cs[i])
  {
    seq(|cs|, i requires 0 <= i < |cs| => Keyed(Attribute(cs[i], attr), cs[i]))
  }

  /** Keys every element by its value (`element.Value`). */
  function ByValue(cs: seq<Element>): (r: seq<Keyed>)
    ensures |r| == |cs| && forall i :: 0 <= i < |cs| ==> r[i] == Keyed(Some(Value(cs[i])), cs[i])
  {
    seq(|cs|, i requires 0 <= i < |cs| => Keyed(Some(Value(cs[i])), cs[i]))
  }

  /** No two of the elements share a local name. */
  predicate DistinctNames(cs: seq<Element>)
  {
    forall i, j :: 0 <= i < j < |cs| ==> cs[i].name != cs[j].name
  }

  /** `d` holds each element of `cs` under its name, and nothing else. */
  predicate IndexesByName(cs: seq<Element>, d: map<string, Element>)
  {
    (forall i :: 0 <= i < |cs| ==> cs[i].name in d && d[cs[i].name] == cs[i]) &&
    (forall k :: k in d ==> d[k] in cs && d[k].name == k)
  }

  /**
   * A name-keyed dictionary of `cs` exists exactly when the names are
   * distinct, and then holds each element under its name and nothing else.
   */
  function NameDictionary(cs: seq<Element>): (r: Outcome<map<string, Element>>)
    ensures r.Success? <==> DistinctNames(cs)
    ensures r.Failure? ==> r.error.DuplicateKey?
    ensures r.Success? ==> IndexesByName(cs, r.value)
  {
    var entries := ByName(cs);
    var r := ToDictionary(entries);
    assert Unique(entries) <==> DistinctNames(cs) by {
      if DistinctNames(cs) {
        forall i, j | 0 <= i < j < |entries| ensures entries[i].key != entries[j].key {}
      }
      if Unique(entries) {
        forall i, j | 0 <= i < j < |cs| ensures cs[i].name != cs[j].name {
          assert entries[i].key != entries[j].key;
        }
      }
    }
    if r.Success? then
      assert forall k :: k in r.value ==> r.value[k] in cs && r.value[k].name == k by {
        forall k | k in r.value ensures r.value[k] in cs && r.value[k].name == k {
          assert k in KeysOf(entries);
          var i :| 0 <= i < |entries| && entries[i].key.Some? && entries[i].key.value == k;
          assert r.value[k] == cs[i];
        }
      }
      r
    else
      ghost var i :| 0 <= i < |entries| && Unique(entries[..i]) && Offends(entries[..i], entries[i]) && r.error == OffenceError(entries[i]);
      assert entries[i].key.Some?;
      r
  }

  /** With distinct names, at most one element carries a given name. */
  lemma {:induction false} DistinctPicked(cs: seq<Element>, k: string)
    requires DistinctNames(cs)
    ensures |Picked(cs, Named(k))| <= 1
  {
    if cs != [] {
      DistinctPicked(cs[1..], k);
      if cs[0].name == k {
        forall i | 0 <= i < |cs[1..]| ensures cs[1..][i].name != k {
          assert cs[1..][i] == cs[i + 1];
        }
        PickedWhenNone(cs[1..], Named(k));
      }
    }
  }

  /** Two elements with one name are both picked by it. */
  lemma TwoPicked(cs: seq<Element>, i: nat, j: nat)
    requires i < j < |cs| && cs[i].name == cs[j].name
    ensures |Picked(cs, Named(cs[i].name))| >= 2
  {
    var n := cs[i].name;
    assert cs == cs[..j] + cs[j..];
    PickedConcat(cs[..j], cs[j..], Named(n));
    assert cs[i] in cs[..j];
    assert cs[i] in Picked(cs[..j], Named(n));
    assert cs[j..][0] == cs[j];
    assert cs[j] in Picked(cs[j..], Named(n));
  }

  /** Conversely, when no name picks two elements, the names are distinct. */
  lemma PickedDistinct(cs: seq<Element>)
    requires forall n :: |Picked(cs, Named(n))| <= 1
    ensures DistinctNames(cs)
  {
    forall i, j | 0 <= i < j < |cs| ensures cs[i].name != cs[j].name {
      if cs[i].name == cs[j].name {
        TwoPicked(cs, i, j);
        assert false;
      }
    }
  }

  // ---------------------------------------------------------------------
  // The lookups

  /** `GetPropertyGroupsElements`: the children of the matching property groups, by local name. */
  function PropertyGroupsElements(items: seq<Element>, attributeName: string, attributeValue: string): (r: Outcome<map<string, Element>>)
    ensures var cs := ScopeChildren(items, PropertyGroups(GroupFilter(attributeName, attributeValue)));
      (r.Success? <==> DistinctNames(cs)) && (r.Success? ==> IndexesByName(cs, r.value)) && (r.Failure? ==> r.error.DuplicateKey?)
  {
    NameDictionary(ScopeChildren(items, PropertyGroups(GroupFilter(attributeName, attributeValue))))
  }

  /** `GetPropertyGroup`: the first matching property group among the root's children. */
  function PropertyGroupIndex(items: seq<Element>, attributeName: string, attributeValue: string): (r: Option<nat>)
    ensures r.Some? ==> r.value < |items| && MatchesGroup(items[r.value], attributeName, attributeValue)
    ensures r.Some? ==> forall j :: 0 <= j < r.value ==> !MatchesGroup(items[j], attributeName, attributeValue)
    ensures r.None? ==> forall j :: 0 <= j < |items| ==> !MatchesGroup(items[j], attributeName, attributeValue)
  {
    FirstIndex(items, PropertyGroups(GroupFilter(attributeName, attributeValue)))
  }

  /** The `PackageReference` children of every item group, in document order. */
  function References(items: seq<Element>): seq<Element>
  {
    Picked(ScopeChildren(items, ItemGroups), Named(PackageReference))
  }

  /** The `AdditionalFiles` children of every item group, in document order. */
  function AdditionalFileEntries(items: seq<Element>): seq<Element>
  {
    Picked(ScopeChildren(items, ItemGroups), Named(AdditionalFiles))
  }

  /** The `DefaultItemExcludes` children of every property group, conditioned or not. */
  function ExcludeEntries(items: seq<Element>): seq<Element>
  {
    Picked(ScopeChildren(items, AllPropertyGroups), Named(DefaultItemExcludes))
  }

  /** A dictionary keyed by an attribute holds the key of every element, and only those keys. */
  lemma AttrDictionary(cs: seq<Element>, attr: string)
    requires ToDictionary(ByAttr(cs, attr)).Success?
    ensures var d := ToDictionary(ByAttr(cs, attr)).value;
      (forall c :: c in cs ==> Attribute(c, attr).Some? && Attribute(c, attr).value in d) &&
      (forall k :: k in d ==> exists c :: c in cs && Attribute(c, attr) == Some(k))
  {
    var entries := ByAttr(cs, attr);
    var d := ToDictionary(entries).value;
    forall c | c in cs ensures Attribute(c, attr).Some? && Attribute(c, attr).value in d {
      var i :| 0 <= i < |cs| && cs[i] == c;
      assert entries[i].key.Some?;
    }
    forall k | k in d ensures exists c :: c in cs && Attribute(c, attr) == Some(k) {
      var i :| 0 <= i < |entries| && entries[i].key.Some? && entries[i].key.value == k;
      assert cs[i] in cs;
    }
  }

  /** Every element has the attribute `attr`, and no two have the same value for it. */
  predicate UniqueAttr(cs: seq<Element>, attr: string)
  {
    (forall i :: 0 <= i < |cs| ==> Attribute(cs[i], attr).Some?) &&
    (forall i, j :: 0 <= i < j < |cs| ==> Attribute(cs[i], attr) != Attribute(cs[j], attr))
  }

  /** A dictionary keyed by `attr`: it exists exactly when the keys are unique, and then maps each key to its element. */
  lemma AttrKeyed(cs: seq<Element>, attr: string, name: string)
    requires forall c :: c in cs ==> c.name == name
    ensures var r := ToDictionary(ByAttr(cs, attr));
      (r.Success? <==> UniqueAttr(cs, attr)) &&
      (r.Success? ==> forall i :: 0 <= i < |cs| ==> Attribute(cs[i], attr).value in r.value && r.value[Attribute(cs[i], attr).value] == cs[i]) &&
      (r.Failure? ==> r.error == MissingKey(name) || r.error.DuplicateKey?)
  {
    UniqueByAttr(cs, attr);
    if ToDictionary(ByAttr(cs, attr)).Failure? {
      AttrOffence(cs, attr, name);
    }
  }

  lemma UniqueByAttr(cs: seq<Element>, attr: string)
    ensures Unique(ByAttr(cs, attr)) <==> UniqueAttr(cs, attr)
  {
  }

  /** The entry a keyed dictionary fails at has no key, or repeats one. */
  lemma AttrOffence(cs: seq<Element>, attr: string, name: string)
    requires forall c :: c in cs ==> c.name == name
    requires ToDictionary(ByAttr(cs, attr)).Failure?
    ensures var r := ToDictionary(ByAttr(cs, attr)); r.error == MissingKey(name) || r.error.DuplicateKey?
  {
    var entries := ByAttr(cs, attr);
    var r := ToDictionary(entries);
    var i :| 0 <= i < |entries| && Unique(entries[..i]) && Offends(entries[..i], entries[i]) && r.error == OffenceError(entries[i]);
    assert entries[i].element == cs[i] && cs[i] in cs;
  }

  /** A dictionary keyed by value: it exists exactly when the values are distinct, and then maps each value to its element. */
  lemma ValueKeyed(cs: seq<Element>)
    ensures var r := ToDictionary(ByValue(cs));
      (r.Success? <==> forall i, j :: 0 <= i < j < |cs| ==> Value(cs[i]) != Value(cs[j])) &&
      (r.Success? ==> forall i :: 0 <= i < |cs| ==> Value(cs[i]) in r.value && r.value[Value(cs[i])] == cs[i]) &&
      (r.Failure? ==> r.error.DuplicateKey?)
  {
    var entries := ByValue(cs);
    var r := ToDictionary(entries);
    if r.Failure? {
      var i :| 0 <= i < |entries| && Unique(entries[..i]) && Offends(entries[..i], entries[i]) && r.error == OffenceError(entries[i]);
    }
  }

  /**
   * `GetPackageReferences`: package references by `Include`. It fails on a
   * reference without `Include` and on an `Include` met twice; when it
   * succeeds its keys are exactly the `Include` values, each mapped to its
   * reference.
   */
  function PackageReferences(items: seq<Element>): (r: Outcome<map<string, Element>>)
    ensures r.Success? <==> UniqueAttr(References(items), Include)
    ensures r.Success? ==> forall c :: c in References(items) ==> Attribute(c, Include).Some? && Attribute(c, Include).value in r.value
    ensures r.Success? ==> forall k :: k in r.value ==> exists c :: c in References(items) && Attribute(c, Include) == Some(k)
    ensures var refs := References(items);
      r.Success? ==> forall i :: 0 <= i < |refs| ==> r.value[Attribute(refs[i], Include).value] == refs[i]
    ensures r.Failure? ==> r.error == MissingKey(PackageReference) || r.error.DuplicateKey?
  {
    var r := ToDictionary(ByAttr(References(items), Include));
    AttrKeyed(References(items), Include, PackageReference);
    if r.Success? then
      AttrDictionary(References(items), Include);
      r
    else r
  }

  /**
   * `GetAdditionalFiles`: additional-file entries by `Include`; like the
   * package references it fails on a missing or repeated `Include`.
   */
  function AdditionalFilesByInclude(items: seq<Element>): (r: Outcome<map<string, Element>>)
    ensures r.Success? <==> UniqueAttr(AdditionalFileEntries(items), Include)
    ensures var es := AdditionalFileEntries(items);
      r.Success? ==> forall i :: 0 <= i < |es| ==> Attribute(es[i], Include).value in r.value && r.value[Attribute(es[i], Include).value] == es[i]
    ensures r.Failure? ==> r.error == MissingKey(AdditionalFiles) || r.error.DuplicateKey?
  {
    AttrKeyed(AdditionalFileEntries(items), Include, AdditionalFiles);
    ToDictionary(ByAttr(AdditionalFileEntries(items), Include))
  }

  /**
   * `GetDefaultItemExcludes`: `DefaultItemExcludes` entries by value. It
   * fails exactly when two entries have the same value.
   */
  function DefaultItemExcludesByValue(items: seq<Element>): (r: Outcome<map<string, Element>>)
    ensures var es := ExcludeEntries(items);
      r.Success? <==> forall i, j :: 0 <= i < j < |es| ==> Value(es[i]) != Value(es[j])
    ensures var es := ExcludeEntries(items);
      r.Success? ==> forall i :: 0 <= i < |es| ==> Value(es[i]) in r.value && r.value[Value(es[i])] == es[i]
    ensures r.Failure? ==> r.error.DuplicateKey?
  {
    ValueKeyed(ExcludeEntries(items));
    ToDictionary(ByValue(ExcludeEntries(items)))
  }

  /** `GetMetadataElements`: children of the attribute-free manifest metadata, by local name. */
  function MetadataElements(items: seq<Element>): (r: Outcome<map<string, Element>>)
    ensures var cs := ScopeChildren(items, MetadataScope);
      (r.Success? <==> DistinctNames(cs)) && (r.Success? ==> IndexesByName(cs, r.value)) && (r.Failure? ==> r.error.DuplicateKey?)
  {
    NameDictionary(ScopeChildren(items, MetadataScope))
  }

  /** The first element without a `src` or a `target` attribute. */
  function FirstWithoutSrcTarget(cs: seq<Element>): (r: Option<nat>)
    ensures r.Some? ==> r.value < |cs| && (Attribute(cs[r.value], Src).None? || Attribute(cs[r.value], Target).None?)
    ensures r.Some? ==> forall j :: 0 <= j < r.value ==> Attribute(cs[j], Src).Some? && Attribute(cs[j], Target).Some?
    ensures r.None? ==> forall j :: 0 <= j < |cs| ==> Attribute(cs[j], Src).Some? && Attribute(cs[j], Target).Some?
  {
    if cs == [] then None
    else if Attribute(cs[0], Src).None? || Attribute(cs[0], Target).None? then Some(0)
    else
      match FirstWithoutSrcTarget(cs[1..])
      case None => None
      case Some(k) => Some(k + 1)
  }

  /**
   * `GetAllFiles`: every child of the attribute-free manifest `files`
   * elements; it fails on the first child without `src` or `target`.
   */
  function AllFiles(items: seq<Element>): (r: Outcome<seq<Element>>)
    ensures r.Success? ==> r.value == ScopeChildren(items, FilesScope)
    ensures r.Success? <==> forall c :: c in ScopeChildren(items, FilesScope) ==> Attribute(c, Src).Some? && Attribute(c, Target).Some?
  {
    var cs := ScopeChildren(items, FilesScope);
    match FirstWithoutSrcTarget(cs)
    case None => Success(cs)
    case Some(i) => Failure(MissingKey(cs[i].name))
  }

  /** `GetFile`: the first manifest `files` element, whatever its attributes. */
  function FileIndex(items: seq<Element>): (r: Option<nat>)
    ensures r.Some? ==> r.value < |items| && items[r.value].ns == NuspecNamespace && items[r.value].name == Files
    ensures r.Some? ==> forall j :: 0 <= j < r.value ==> !(items[j].ns == NuspecNamespace && items[j].name == Files)
    ensures r.None? ==> forall j :: 0 <= j < |items| ==> !(items[j].ns == NuspecNamespace && items[j].name == Files)
  {
    FirstIndex(items, AnyFiles)
  }

  /**
   * `GetAllTargetFrameworks`: the ';'-segments of the `TargetFrameworks`
   * property of the global groups; it fails when there is none.
   */
  function AllTargetFrameworks(items: seq<Element>): (r: Outcome<seq<string>>)
    ensures var d := PropertyGroupsElements(items, "", "");
      r.Success? <==> d.Success? && TargetFrameworks in d.value
    ensures var d := PropertyGroupsElements(items, "", "");
      r.Success? ==> |r.value| >= 1 && Join(r.value) == Value(d.value[TargetFrameworks])
    ensures r.Success? ==> forall i :: 0 <= i < |r.value| ==> Separator !in r.value[i]
    ensures var d := PropertyGroupsElements(items, "", "");
      d.Success? && TargetFrameworks !in d.value ==> r == Failure(NoTargetFrameworks)
    ensures var d := PropertyGroupsElements(items, "", "");
      d.Failure? ==> r == Failure(d.error)
  {
    var d := PropertyGroupsElements(items, "", "");
    if d.Failure? then Failure(d.error)
    else if TargetFrameworks in d.value then Success(Split(Value(d.value[TargetFrameworks])))
    else Failure(NoTargetFrameworks)
  }

  /** Some package reference includes `Vista.CodeContracts`. */
  predicate ReferencesCodeContracts(items: seq<Element>)
  {
    exists c :: c in References(items) && Attribute(c, Include) == Some(CodeContractsPackage)
  }

  /** `ShouldIncludeCodeOfConduct`: whether a `Vista.CodeContracts` package reference exists. */
  function ShouldIncludeCodeOfConduct(items: seq<Element>): (r: Outcome<bool>)
    ensures r.Success? <==> PackageReferences(items).Success?
    ensures r.Success? ==> (r.value <==> ReferencesCodeContracts(items))
  {
    var d :- PackageReferences(items);
    Success(CodeContractsPackage in d)
  }
}

=== FILE: merge.dfy ===
/**
 * The upsert rule shared by `SetGlobalPropertyGroupItems`,
 * `SetDebugPropertyGroupItems`, `SetReleasePropertyGroupItems` and
 * `SetMetadataItems`: for each (name, value) setting, in list order,
 *   - a blank value removes the existing element and appends an empty one,
 *   - a value for an existing element overwrites its text in place,
 *   - a value for a missing element appends a new one to the target group.
 * Whether an element exists is decided on a dictionary of the scope's
 * children built once, before the first setting is applied.
 */
module Merge {
  import opened Wrappers
  import opened Text
  import opened Xml
  import opened Tree
  import opened Lookup

  /** One (name, value) pair of an override list. */
  datatype Setting = Setting(name: string, value: string)

  function SettingNames(ss: seq<Setting>): set<string>
  {
    set i | 0 <= i < |ss| :: ss[i].name
  }

  /** No name appears twice in the override list. */
  predicate DistinctSettings(ss: seq<Setting>)
  {
    forall i, j :: 0 <= i < j < |ss| ==> ss[i].name != ss[j].name
  }

  /** The element appended for a missing setting: empty when the value is blank. */
  function Fresh(s: Setting): (e: Element)
    ensures e.name == s.name && e.ns == "" && e.attrs == [] && e.children == []
    ensures IsBlank(s.value) ==> !HasNodes(e)
    ensures !IsBlank(s.value) ==> Value(e) == s.value
  {
    if IsBlank(s.value) then Leaf(s.name, "") else Leaf(s.name, s.value)
  }

  /**
   * What the scope holds under the setting's name once the setting is
   * applied, given what it held before (`found`, at most one element).
   */
  function Upserted(s: Setting, found: seq<Element>): Element
  {
    if IsBlank(s.value) then Leaf(s.name, "")
    else if found != [] then WithValue(found[0], s.value)
    else Leaf(s.name, s.value)
  }

  /**
   * One setting applied to the document: `present` is the key set of the
   * dictionary of the scope's children, `g` the index of the target group.
   */
  function UpsertStep(items: seq<Element>, scope: Selector, g: nat, present: set<string>, s: Setting): (r: seq<Element>)
    requires g < |items|
    ensures SameHeaders(r, items)
  {
    if s.name in present then
      if IsBlank(s.value) then AppendChildren(EditGroups(items, scope, Drop(Named(s.name))), g, [Leaf(s.name, "")])
      else EditGroups(items, scope, Assign(s.name, s.value))
    else AppendChildren(items, g, [Fresh(s)])
  }

  /** The settings applied one after the other, in list order. */
  function UpsertAll(items: seq<Element>, scope: Selector, g: nat, present: set<string>, ss: seq<Setting>): (r: seq<Element>)
    requires g < |items|
    ensures SameHeaders(r, items)
  {
    if ss == [] then items
    else
      var before := UpsertAll(items, scope, g, present, ss[..|ss| - 1]);
      UpsertStep(before, scope, g, present, ss[|ss| - 1])
  }

  /** The `foreach` over the override list, one setting at a time. */
  method ApplySettings(items: seq<Element>, scope: Selector, g: nat, present: set<string>, ss: seq<Setting>) returns (r: seq<Element>)
    requires g < |items|
    ensures r == UpsertAll(items, scope, g, present, ss)
  {
    r := items;
    var i := 0;
    while i < |ss|
      invariant 0 <= i <= |ss|
      invariant r == UpsertAll(items, scope, g, present, ss[..i])
    {
      assert ss[..i + 1][..i] == ss[..i];
      r := UpsertStep(r, scope, g, present, ss[i]);
      i := i + 1;
    }
    assert ss[..|ss|] == ss;
  }

  /** The upsert depends only on which elements its scope chooses. */
  lemma {:induction false} UpsertAllSameSelection(items: seq<Element>, s1: Selector, s2: Selector, g: nat, present: set<string>, ss: seq<Setting>)
    requires g < |items| && SameSelection(items, s1, s2)
    ensures UpsertAll(items, s1, g, present, ss) == UpsertAll(items, s2, g, present, ss)
  {
    if ss != [] {
      var init := ss[..|ss| - 1];
      var s := ss[|ss| - 1];
      UpsertAllSameSelection(items, s1, s2, g, present, init);
      var before := UpsertAll(items, s1, g, present, init);
      SameHeadersSelection(before, items, s1, s2);
      EditSameSelection(before, s1, s2, Drop(Named(s.name)));
      EditSameSelection(before, s1, s2, Assign(s.name, s.value));
    }
  }

  /** The elements appended for settings that are all missing, in list order. */
  function FreshAll(ss: seq<Setting>): (r: seq<Element>)
    ensures |r| == |ss| && forall i :: 0 <= i < |ss| ==> r[i] == Fresh(ss[i])
  {
    if ss == [] then [] else FreshAll(ss[..|ss| - 1]) + [Fresh(ss[|ss| - 1])]
  }

  /** When no setting is present, every setting is appended to the target group, in list order. */
  lemma {:induction false} UpsertAllMissing(items: seq<Element>, scope: Selector, g: nat, present: set<string>, ss: seq<Setting>)
    requires g < |items|
    requires forall i :: 0 <= i < |ss| ==> ss[i].name !in present
    ensures var r := UpsertAll(items, scope, g, present, ss);
      |r| == |items| && r[g] == items[g].(children := items[g].children + FreshAll(ss)) &&
      forall j :: 0 <= j < |items| && j != g ==> r[j] == items[j]
  {
    if ss == [] {
      assert items[g].children + [] == items[g].children;
    } else {
      var n := |ss| - 1;
      UpsertAllMissing(items, scope, g, present, ss[..n]);
      var before := UpsertAll(items, scope, g, present, ss[..n]);
      assert UpsertAll(items, scope, g, present, ss) == AppendChildren(before, g, [Fresh(ss[n])]);
      assert before[g].children + [Fresh(ss[n])] == items[g].children + FreshAll(ss);
    }
  }

  // ---------------------------------------------------------------------
  // One step

  /**
   * Children appended to a selected group show up in the scope's picks,
   * exactly, when only one of the two sides holds picked children.
   */
  lemma AppendPicked(items: seq<Element>, g: nat, cs: seq<Element>, scope: Selector, q: Pick)
    requires g < |items| && Selects(scope, items[g])
    requires Picked(ScopeChildren(items, scope), q) == [] || Picked(cs, q) == []
    ensures Picked(ScopeChildren(AppendChildren(items, g, cs), scope), q) == Picked(ScopeChildren(items, scope), q) + Picked(cs, q)
  {
    var front, back := ScopeChildren(items[..g + 1], scope), ScopeChildren(items[g + 1..], scope);
    AppendScope(items, g, cs, scope);
    ScopeSplit(items, g, scope);
    PickedConcat(front + cs, back, q);
    PickedConcat(front, cs, q);
    PickedConcat(front, back, q);
  }

  /** A step leaves every pick of another name as it was. */
  lemma StepOther(items: seq<Element>, scope: Selector, g: nat, present: set<string>, s: Setting, q: Pick)
    requires g < |items| && Selects(scope, items[g])
    requires q.name != s.name
    ensures Picked(ScopeChildren(UpsertStep(items, scope, g, present, s), scope), q) == Picked(ScopeChildren(items, scope), q)
  {
    var added := if s.name in present then Leaf(s.name, "") else Fresh(s);
    assert Picked([added], q) == [];
    if s.name in present {
      if IsBlank(s.value) {
        var dropped := EditGroups(items, scope, Drop(Named(s.name)));
        EditWithin(items, scope, scope, Drop(Named(s.name)));
        UnpickedOther(ScopeChildren(items, scope), Named(s.name), q);
        AppendPicked(dropped, g, [added], scope, q);
      } else {
        EditWithin(items, scope, scope, Assign(s.name, s.value));
        SetValuesOther(ScopeChildren(items, scope), s.name, s.value, q);
      }
    } else {
      AppendPicked(items, g, [added], scope, q);
    }
  }

  lemma StepSameBlank(items: seq<Element>, scope: Selector, g: nat, present: set<string>, s: Setting)
    requires g < |items| && Selects(scope, items[g])
    requires s.name in present && IsBlank(s.value)
    ensures Picked(ScopeChildren(UpsertStep(items, scope, g, present, s), scope), Named(s.name)) == [Leaf(s.name, "")]
  {
    var k := s.name;
    var dropped := EditGroups(items, scope, Drop(Named(k)));
    EditWithin(items, scope, scope, Drop(Named(k)));
    UnpickedNone(ScopeChildren(items, scope), Named(k));
    AppendPicked(dropped, g, [Leaf(k, "")], scope, Named(k));
    assert Picked([Leaf(k, "")], Named(k)) == [Leaf(k, "")];
  }

  lemma StepSameAssign(items: seq<Element>, scope: Selector, g: nat, present: set<string>, s: Setting)
    requires g < |items|
    requires s.name in present && !IsBlank(s.value)
    requires |Picked(ScopeChildren(items, scope), Named(s.name))| == 1
    ensures Picked(ScopeChildren(UpsertStep(items, scope, g, present, s), scope), Named(s.name)) ==
      [WithValue(Picked(ScopeChildren(items, scope), Named(s.name))[0], s.value)]
  {
    var k := s.name;
    var found := Picked(ScopeChildren(items, scope), Named(k));
    EditWithin(items, scope, scope, Assign(k, s.value));
    SetValuesSame(ScopeChildren(items, scope), k, s.value);
    assert found[0] in found;
    assert found == [found[0]];
  }

  lemma StepSameAppend(items: seq<Element>, scope: Selector, g: nat, present: set<string>, s: Setting)
    requires g < |items| && Selects(scope, items[g])
    requires s.name !in present
    requires Picked(ScopeChildren(items, scope), Named(s.name)) == []
    ensures Picked(ScopeChildren(UpsertStep(items, scope, g, present, s), scope), Named(s.name)) == [Fresh(s)]
  {
    AppendPicked(items, g, [Fresh(s)], scope, Named(s.name));
    assert Picked([Fresh(s)], Named(s.name)) == [Fresh(s)];
  }

  /**
   * A step leaves exactly one element of its name in the scope: an empty
   * one for a blank value, the old element with the new text when it
   * existed, a new element otherwise.
   */
  lemma StepSame(items: seq<Element>, scope: Selector, g: nat, present: set<string>, s: Setting)
    requires g < |items| && Selects(scope, items[g])
    requires s.name in present <==> Picked(ScopeChildren(items, scope), Named(s.name)) != []
    requires |Picked(ScopeChildren(items, scope), Named(s.name))| <= 1
    ensures Picked(ScopeChildren(UpsertStep(items, scope, g, present, s), scope), Named(s.name)) ==
      [Upserted(s, Picked(ScopeChildren(items, scope), Named(s.name)))]
  {
    if s.name in present {
      if IsBlank(s.value) {
        StepSameBlank(items, scope, g, present, s);
      } else {
        StepSameAssign(items, scope, g, present, s);
      }
    } else {
      StepSameAppend(items, scope, g, present, s);
    }
  }

  /** Within group `g`, where the step writes: in place, or appended after the group's other children. */
  lemma StepGroup(items: seq<Element>, scope: Selector, g: nat, present: set<string>, s: Setting)
    requires g < |items| && Selects(scope, items[g])
    ensures var r := UpsertStep(items, scope, g, present, s);
      if s.name !in present then r[g].children == items[g].children + [Fresh(s)]
      else if IsBlank(s.value) then r[g].children == Unpicked(items[g].children, Named(s.name)) + [Leaf(s.name, "")]
      else r[g].children == SetValues(items[g].children, s.name, s.value)
  {
  }

  /** A step changes nothing a selector disjoint from its scope looks at, outside the target group. */
  lemma StepDisjoint(items: seq<Element>, scope: Selector, g: nat, present: set<string>, s: Setting, other: Selector)
    requires g < |items| && Selects(scope, items[g])
    requires Disjoint(scope, other)
    ensures ScopeChildren(UpsertStep(items, scope, g, present, s), other) == ScopeChildren(items, other)
  {
    DisjointSelects(scope, other, items[g]);
    if s.name in present {
      if IsBlank(s.value) {
        var dropped := EditGroups(items, scope, Drop(Named(s.name)));
        EditDisjoint(items, scope, other, Drop(Named(s.name)));
        assert dropped[g].name == items[g].name && dropped[g].ns == items[g].ns && dropped[g].attrs == items[g].attrs;
        AppendUnselected(dropped, g, [Leaf(s.name, "")], other);
      } else {
        EditDisjoint(items, scope, other, Assign(s.name, s.value));
      }
    } else {
      AppendUnselected(items, g, [Fresh(s)], other);
    }
  }

  // ---------------------------------------------------------------------
  // The whole list

  lemma UpsertAllSelects(items: seq<Element>, scope: Selector, g: nat, present: set<string>, ss: seq<Setting>)
    requires g < |items| && Selects(scope, items[g])
    ensures var r := UpsertAll(items, scope, g, present, ss); g < |r| && Selects(scope, r[g])
  {
  }

  /** Names outside the override list keep their elements, in order. */
  lemma {:induction false} UpsertAllOther(items: seq<Element>, scope: Selector, g: nat, present: set<string>, ss: seq<Setting>, q: Pick)
    requires g < |items| && Selects(scope, items[g])
    requires q.name !in SettingNames(ss)
    ensures Picked(ScopeChildren(UpsertAll(items, scope, g, present, ss), scope), q) == Picked(ScopeChildren(items, scope), q)
  {
    if ss != [] {
      var init := ss[..|ss| - 1];
      assert SettingNames(init) <= SettingNames(ss) by {
        forall n | n in SettingNames(init) ensures n in SettingNames(ss) {
          var i :| 0 <= i < |init| && init[i].name == n;
          assert ss[i] == init[i];
        }
      }
      UpsertAllOther(items, scope, g, present, init, q);
      UpsertAllSelects(items, scope, g, present, init);
      StepOther(UpsertAll(items, scope, g, present, init), scope, g, present, ss[|ss| - 1], q);
    }
  }

  /**
   * Each setting leaves exactly one element of its name in the scope, as
   * `Upserted` describes it, when the names of the list are distinct, the
   * scope held at most one element of each of them and `present` says which.
   */
  lemma {:induction false} UpsertAllSame(items: seq<Element>, scope: Selector, g: nat, present: set<string>, ss: seq<Setting>, i: nat)
    requires g < |items| && Selects(scope, items[g])
    requires DistinctSettings(ss) && i < |ss|
    requires ss[i].name in present <==> Picked(ScopeChildren(items, scope), Named(ss[i].name)) != []
    requires |Picked(ScopeChildren(items, scope), Named(ss[i].name))| <= 1
    ensures Picked(ScopeChildren(UpsertAll(items, scope, g, present, ss), scope), Named(ss[i].name)) ==
      [Upserted(ss[i], Picked(ScopeChildren(items, scope), Named(ss[i].name)))]
  {
    var n := |ss| - 1;
    var init := ss[..n];
    var before := UpsertAll(items, scope, g, present, init);
    UpsertAllSelects(items, scope, g, present, init);
    if i == n {
      assert ss[i].name !in SettingNames(init) by {
        forall j | 0 <= j < |init| ensures init[j].name != ss[i].name {
          assert init[j] == ss[j];
        }
      }
      UpsertAllOther(items, scope, g, present, init, Named(ss[i].name));
      StepSame(before, scope, g, present, ss[i]);
    } else {
      assert init[i] == ss[i];
      assert DistinctSettings(init) by {
        forall a, b | 0 <= a < b < |init| ensures init[a].name != init[b].name {
          assert init[a] == ss[a] && init[b] == ss[b];
        }
      }
      UpsertAllSame(items, scope, g, present, init, i);
      StepOther(before, scope, g, present, ss[n], Named(ss[i].name));
    }
  }

  // ---------------------------------------------------------------------
  // Where the list leaves the target group's children

  /** The names of a list are those of all but its last setting, and the last one's. */
  lemma InitNames(ss: seq<Setting>)
    requires ss != []
    ensures SettingNames(ss) == SettingNames(ss[..|ss| - 1]) + {ss[|ss| - 1].name}
  {
    var init := ss[..|ss| - 1];
    forall n | n in SettingNames(ss) ensures n in SettingNames(init) + {ss[|ss| - 1].name} {
      var i :| 0 <= i < |ss| && ss[i].name == n;
      if i < |ss| - 1 {
        assert init[i] == ss[i];
      }
    }
    forall n | n in SettingNames(init) ensures n in SettingNames(ss) {
      var i :| 0 <= i < |init| && init[i].name == n;
      assert ss[i] == init[i];
    }
  }

  /** In a list of distinct names the last name is new, and the rest is distinct. */
  lemma LastNameNew(ss: seq<Setting>)
    requires ss != [] && DistinctSettings(ss)
    ensures ss[|ss| - 1].name !in SettingNames(ss[..|ss| - 1]) && DistinctSettings(ss[..|ss| - 1])
  {
    var init := ss[..|ss| - 1];
    forall i | 0 <= i < |init| ensures init[i].name != ss[|ss| - 1].name {
      assert init[i] == ss[i];
    }
  }

  /** The last setting of the list with the given name, if any. */
  function SettingFor(ss: seq<Setting>, name: string): (r: Option<Setting>)
    ensures r.Some? ==> r.value.name == name && name in SettingNames(ss)
    ensures name !in SettingNames(ss) ==> r.None?
  {
    if ss == [] then None
    else
      InitNames(ss);
      if ss[|ss| - 1].name == name then Some(ss[|ss| - 1]) else SettingFor(ss[..|ss| - 1], name)
  }

  /**
   * What the list does to one child of the target group: a present name
   * with a blank value removes it, a present name with a value gives it
   * that value in place, and any other child stays as it was.
   */
  function InPlace(c: Element, present: set<string>, ss: seq<Setting>): (r: seq<Element>)
    ensures forall x :: x in r ==> x.name == c.name
  {
    match SettingFor(ss, c.name)
    case None => [c]
    case Some(s) =>
      if s.name !in present then [c]
      else if IsBlank(s.value) then []
      else [WithValue(c, s.value)]
  }

  /** The target group's own children after the list, in their old order. */
  function Overwritten(cs: seq<Element>, present: set<string>, ss: seq<Setting>): seq<Element>
  {
    if cs == [] then [] else InPlace(cs[0], present, ss) + Overwritten(cs[1..], present, ss)
  }

  /** What the list appends to the target group: a fresh element per missing or blank setting, in list order. */
  function Appended(present: set<string>, ss: seq<Setting>): (r: seq<Element>)
    ensures forall c :: c in r ==> c.name in SettingNames(ss)
  {
    if ss == [] then []
    else
      var s := ss[|ss| - 1];
      InitNames(ss);
      Appended(present, ss[..|ss| - 1]) + (if s.name !in present || IsBlank(s.value) then [Fresh(s)] else [])
  }

  /** An empty list leaves every child as it was. */
  lemma {:induction false} OverwrittenNothing(cs: seq<Element>, present: set<string>)
    ensures Overwritten(cs, present, []) == cs
  {
    if cs != [] {
      OverwrittenNothing(cs[1..], present);
    }
  }

  /** A new setting at the end of the list changes the children of its own name, and only those. */
  lemma {:induction false} OverwrittenStep(cs: seq<Element>, present: set<string>, ss: seq<Setting>)
    requires ss != [] && ss[|ss| - 1].name !in SettingNames(ss[..|ss| - 1])
    ensures var s := ss[|ss| - 1];
      var before := Overwritten(cs, present, ss[..|ss| - 1]);
      Overwritten(cs, present, ss) ==
        if s.name !in present then before
        else ApplyEdit(before, if IsBlank(s.value) then Drop(Named(s.name)) else Assign(s.name, s.value))
  {
    var s := ss[|ss| - 1];
    var init := ss[..|ss| - 1];
    var ed := if IsBlank(s.value) then Drop(Named(s.name)) else Assign(s.name, s.value);
    if cs != [] {
      OverwrittenStep(cs[1..], present, ss);
      var c := cs[0];
      var one := InPlace(c, present, init);
      if c.name == s.name {
        assert one == [c];
      } else {
        assert InPlace(c, present, ss) == one;
        assert one == [] || one == [one[0]];
      }
      ApplyEditConcat(one, Overwritten(cs[1..], present, init), ed);
    }
  }

  /**
   * Where the list leaves the target group's children: its own children
   * in place, without those a blank present setting removed and with the
   * new values written, then one element per missing or blank setting, in
   * list order.
   */
  lemma {:induction false} UpsertAllPlacement(items: seq<Element>, scope: Selector, g: nat, present: set<string>, ss: seq<Setting>)
    requires g < |items| && Selects(scope, items[g]) && DistinctSettings(ss)
    ensures UpsertAll(items, scope, g, present, ss)[g].children ==
      Overwritten(items[g].children, present, ss) + Appended(present, ss)
  {
    if ss == [] {
      OverwrittenNothing(items[g].children, present);
    } else {
      var init := ss[..|ss| - 1];
      LastNameNew(ss);
      UpsertAllPlacement(items, scope, g, present, init);
      UpsertAllSelects(items, scope, g, present, init);
      var before := UpsertAll(items, scope, g, present, init);
      PlacementStep(before, scope, g, present, ss, items[g].children);
    }
  }

  /** One more setting, of a new name, keeps the target group in the shape `UpsertAllPlacement` gives. */
  lemma PlacementStep(before: seq<Element>, scope: Selector, g: nat, present: set<string>, ss: seq<Setting>, cs: seq<Element>)
    requires g < |before| && Selects(scope, before[g])
    requires ss != [] && ss[|ss| - 1].name !in SettingNames(ss[..|ss| - 1])
    requires before[g].children == Overwritten(cs, present, ss[..|ss| - 1]) + Appended(present, ss[..|ss| - 1])
    ensures UpsertStep(before, scope, g, present, ss[|ss| - 1])[g].children == Overwritten(cs, present, ss) + Appended(present, ss)
  {
    var s := ss[|ss| - 1];
    if s.name !in present {
      PlacementMissing(before, scope, g, present, ss, cs);
    } else if IsBlank(s.value) {
      PlacementBlank(before, scope, g, present, ss, cs);
    } else {
      PlacementAssign(before, scope, g, present, ss, cs);
    }
  }

  lemma PlacementMissing(before: seq<Element>, scope: Selector, g: nat, present: set<string>, ss: seq<Setting>, cs: seq<Element>)
    requires g < |before| && Selects(scope, before[g])
    requires ss != [] && ss[|ss| - 1].name !in SettingNames(ss[..|ss| - 1])
    requires before[g].children == Overwritten(cs, present, ss[..|ss| - 1]) + Appended(present, ss[..|ss| - 1])
    requires ss[|ss| - 1].name !in present
    ensures UpsertStep(before, scope, g, present, ss[|ss| - 1])[g].children == Overwritten(cs, present, ss) + Appended(present, ss)
  {
    var init := ss[..|ss| - 1];
    var s := ss[|ss| - 1];
    StepMissing(before, scope, g, present, s, Overwritten(cs, present, init), Appended(present, init));
    SpecMissing(cs, present, ss);
  }

  lemma PlacementBlank(before: seq<Element>, scope: Selector, g: nat, present: set<string>, ss: seq<Setting>, cs: seq<Element>)
    requires g < |before| && Selects(scope, before[g])
    requires ss != [] && ss[|ss| - 1].name !in SettingNames(ss[..|ss| - 1])
    requires before[g].children == Overwritten(cs, present, ss[..|ss| - 1]) + Appended(present, ss[..|ss| - 1])
    requires ss[|ss| - 1].name in present && IsBlank(ss[|ss| - 1].value)
    ensures UpsertStep(before, scope, g, present, ss[|ss| - 1])[g].children == Overwritten(cs, present, ss) + Appended(present, ss)
  {
    var init := ss[..|ss| - 1];
    var s := ss[|ss| - 1];
    var own, added := Overwritten(cs, present, init), Appended(present, init);
    StepBlank(before, scope, g, present, s, own, added);
    SpecBlank(cs, present, ss);
  }

  lemma PlacementAssign(before: seq<Element>, scope: Selector, g: nat, present: set<string>, ss: seq<Setting>, cs: seq<Element>)
    requires g < |before| && Selects(scope, before[g])
    requires ss != [] && ss[|ss| - 1].name !in SettingNames(ss[..|ss| - 1])
    requires before[g].children == Overwritten(cs, present, ss[..|ss| - 1]) + Appended(present, ss[..|ss| - 1])
    requires ss[|ss| - 1].name in present && !IsBlank(ss[|ss| - 1].value)
    ensures UpsertStep(before, scope, g, present, ss[|ss| - 1])[g].children == Overwritten(cs, present, ss) + Appended(present, ss)
  {
    var init := ss[..|ss| - 1];
    var s := ss[|ss| - 1];
    var own, added := Overwritten(cs, present, init), Appended(present, init);
    StepAssign(before, scope, g, present, s, own, added);
    SpecAssign(cs, present, ss);
  }

  /** A missing setting: its fresh element goes after the group's children. */
  lemma StepMissing(before: seq<Element>, scope: Selector, g: nat, present: set<string>, s: Setting, own: seq<Element>, added: seq<Element>)
    requires g < |before| && Selects(scope, before[g]) && before[g].children == own + added
    requires s.name !in present
    ensures UpsertStep(before, scope, g, present, s)[g].children == own + (added + [Fresh(s)])
  {
    StepGroup(before, scope, g, present, s);
  }

  /** A present blank setting, on a group holding `own` then `added`: `own` loses the name, `added` stays, the empty element goes last. */
  lemma StepBlank(before: seq<Element>, scope: Selector, g: nat, present: set<string>, s: Setting, own: seq<Element>, added: seq<Element>)
    requires g < |before| && Selects(scope, before[g]) && before[g].children == own + added
    requires s.name in present && IsBlank(s.value)
    requires forall c :: c in added ==> c.name != s.name
    ensures UpsertStep(before, scope, g, present, s)[g].children == Unpicked(own, Named(s.name)) + (added + [Fresh(s)])
  {
    StepGroup(before, scope, g, present, s);
    AppendedUntouched(own, added, s);
  }

  /** A present setting with a value, on a group holding `own` then `added`: `own` gets the value, `added` stays. */
  lemma StepAssign(before: seq<Element>, scope: Selector, g: nat, present: set<string>, s: Setting, own: seq<Element>, added: seq<Element>)
    requires g < |before| && Selects(scope, before[g]) && before[g].children == own + added
    requires s.name in present && !IsBlank(s.value)
    requires forall c :: c in added ==> c.name != s.name
    ensures UpsertStep(before, scope, g, present, s)[g].children == SetValues(own, s.name, s.value) + added
  {
    StepGroup(before, scope, g, present, s);
    AppendedUntouched(own, added, s);
  }

  /** The intended shape after a missing last setting: the same children, then its fresh element. */
  lemma SpecMissing(cs: seq<Element>, present: set<string>, ss: seq<Setting>)
    requires ss != [] && ss[|ss| - 1].name !in SettingNames(ss[..|ss| - 1])
    requires ss[|ss| - 1].name !in present
    ensures Overwritten(cs, present, ss) + Appended(present, ss) ==
      Overwritten(cs, present, ss[..|ss| - 1]) + (Appended(present, ss[..|ss| - 1]) + [Fresh(ss[|ss| - 1])])
  {
    OverwrittenStep(cs, present, ss);
  }

  /** The intended shape after a present blank last setting. */
  lemma SpecBlank(cs: seq<Element>, present: set<string>, ss: seq<Setting>)
    requires ss != [] && ss[|ss| - 1].name !in SettingNames(ss[..|ss| - 1])
    requires ss[|ss| - 1].name in present && IsBlank(ss[|ss| - 1].value)
    ensures var s := ss[|ss| - 1];
      Overwritten(cs, present, ss) + Appended(present, ss) ==
      Unpicked(Overwritten(cs, present, ss[..|ss| - 1]), Named(s.name)) + (Appended(present, ss[..|ss| - 1]) + [Fresh(s)])
  {
    OverwrittenStep(cs, present, ss);
  }

  /** The intended shape after a present last setting with a value. */
  lemma SpecAssign(cs: seq<Element>, present: set<string>, ss: seq<Setting>)
    requires ss != [] && ss[|ss| - 1].name !in SettingNames(ss[..|ss| - 1])
    requires ss[|ss| - 1].name in present && !IsBlank(ss[|ss| - 1].value)
    ensures var s := ss[|ss| - 1];
      Overwritten(cs, present, ss) + Appended(present, ss) ==
      SetValues(Overwritten(cs, present, ss[..|ss| - 1]), s.name, s.value) + Appended(present, ss[..|ss| - 1])
  {
    OverwrittenStep(cs, present, ss);
  }

  /** Elements of other names appended after `own` are untouched by an edit of the children called `s.name`. */
  lemma AppendedUntouched(own: seq<Element>, added: seq<Element>, s: Setting)
    requires forall c :: c in added ==> c.name != s.name
    ensures Unpicked(own + added, Named(s.name)) == Unpicked(own, Named(s.name)) + added
    ensures SetValues(own + added, s.name, s.value) == SetValues(own, s.name, s.value) + added
  {
    forall j | 0 <= j < |added| ensures !Picks(Named(s.name), added[j]) {
      assert added[j] in added;
    }
    UnpickedWhenNone(added, Named(s.name));
    UnpickedConcat(own, added, Named(s.name));
    assert SetValues(added, s.name, s.value) == added;
    ApplyEditConcat(own, added, Assign(s.name, s.value));
  }

  /** The override list changes nothing a disjoint selector looks at. */
  lemma {:induction false} UpsertAllDisjoint(items: seq<Element>, scope: Selector, g: nat, present: set<string>, ss: seq<Setting>, other: Selector)
    requires g < |items| && Selects(scope, items[g])
    requires Disjoint(scope, other)
    ensures ScopeChildren(UpsertAll(items, scope, g, present, ss), other) == ScopeChildren(items, other)
  {
    if ss != [] {
      var init := ss[..|ss| - 1];
      UpsertAllDisjoint(items, scope, g, present, init, other);
      UpsertAllSelects(items, scope, g, present, init);
      StepDisjoint(UpsertAll(items, scope, g, present, init), scope, g, present, ss[|ss| - 1], other);
    }
  }

  // ---------------------------------------------------------------------
  // Against the dictionary the source builds

  /** What the dictionary `d` says the scope holds under `s.name` once `s` is applied. */
  function UpsertedFrom(s: Setting, d: map<string, Element>): (e: Element)
    ensures e.name == s.name || (s.name in d && e.name == d[s.name].name)
    ensures e.children == []
    ensures IsBlank(s.value) ==> !HasNodes(e)
    ensures !IsBlank(s.value) ==> Value(e) == s.value
  {
    if IsBlank(s.value) then Leaf(s.name, "")
    else if s.name in d then WithValue(d[s.name], s.value)
    else Leaf(s.name, s.value)
  }

  /**
   * A property held exactly once, by an element without children, with the
   * value the override list gives it, or with no content for a blank one.
   */
  predicate SettingHeld(cs: seq<Element>, s: Setting)
  {
    |Picked(cs, Named(s.name))| == 1 && Picked(cs, Named(s.name))[0].children == [] &&
    (IsBlank(s.value) ==> !HasNodes(Picked(cs, Named(s.name))[0])) &&
    (!IsBlank(s.value) ==> Value(Picked(cs, Named(s.name))[0]) == s.value)
  }

  /** The name dictionary of the scope holds `k` exactly when the scope has the one element called `k`. */
  lemma DictionaryPicked(cs: seq<Element>, d: map<string, Element>, k: string)
    requires DistinctNames(cs) && IndexesByName(cs, d)
    ensures k in d <==> Picked(cs, Named(k)) != []
    ensures |Picked(cs, Named(k))| <= 1
    ensures k in d ==> Picked(cs, Named(k)) == [d[k]]
  {
    DistinctPicked(cs, k);
    var p := Picked(cs, Named(k));
    if k in d {
      assert d[k] in cs && d[k].name == k;
      assert d[k] in p;
      assert p == [p[0]];
    } else {
      forall i | 0 <= i < |cs| ensures cs[i].name != k {
        assert cs[i].name in d;
      }
      PickedWhenNone(cs, Named(k));
    }
  }

  /**
   * The upsert rule over the whole list, as the source applies it with the
   * dictionary of the scope's children: every listed name ends up with
   * exactly one element, the one `UpsertedFrom` describes, and every other
   * name keeps what it had.
   */
  lemma UpsertDictionary(items: seq<Element>, scope: Selector, g: nat, d: map<string, Element>, ss: seq<Setting>)
    requires g < |items| && Selects(scope, items[g])
    requires NameDictionary(ScopeChildren(items, scope)) == Success(d)
    requires DistinctSettings(ss)
    ensures forall i :: 0 <= i < |ss| ==>
      Picked(ScopeChildren(UpsertAll(items, scope, g, d.Keys, ss), scope), Named(ss[i].name)) == [UpsertedFrom(ss[i], d)]
    ensures forall q: Pick :: q.name !in SettingNames(ss) ==>
      Picked(ScopeChildren(UpsertAll(items, scope, g, d.Keys, ss), scope), q) == Picked(ScopeChildren(items, scope), q)
  {
    var cs := ScopeChildren(items, scope);
    assert DistinctNames(cs) && IndexesByName(cs, d);
    forall i | 0 <= i < |ss|
      ensures Picked(ScopeChildren(UpsertAll(items, scope, g, d.Keys, ss), scope), Named(ss[i].name)) == [UpsertedFrom(ss[i], d)]
    {
      DictionaryPicked(cs, d, ss[i].name);
      UpsertAllSame(items, scope, g, d.Keys, ss, i);
    }
    forall q: Pick | q.name !in SettingNames(ss)
      ensures Picked(ScopeChildren(UpsertAll(items, scope, g, d.Keys, ss), scope), q) == Picked(cs, q)
    {
      UpsertAllOther(items, scope, g, d.Keys, ss, q);
    }
  }
}

=== FILE: nuspec.dfy ===
/**
 * The manifest synchronisation of `CheckAndCreateNuspecFile`: the metadata
 * overrides of `SetMetadataItems`, the file list of `SetAllFiles`, the
 * namespace stripping before the save, and the textual clean-up after it.
 * Each step is a function of the manifest before it, and
 * `ManifestDocument` applies them to a manifest in place.
 *
 * Both `SetMetadataItems` and `SetAllFiles` look up their entries in the
 * attribute-free manifest groups but write into the first group whatever
 * its attributes; `MetadataStepAsWritten` and `FilesStepAsWritten` keep
 * that, and `MetadataStep` and `FilesStep` look up and write the same
 * groups.
 */
module Manifest {
  import opened Wrappers
  import opened Text
  import opened Xml
  import opened Tree
  import opened Lookup
  import opened Merge

  const Id := "id"
  const NuspecVersion := "version"
  const RequireLicenseAcceptance := "requireLicenseAcceptance"
  const PipelineVersion := "$VersionNuGet$"
  const PipelineDirSrc := "$DirSrc$"
  const PipelineConfiguration := "$configuration$"
  const EmptyNamespaceDeclaration := " xmlns=\"\""

  // ---------------------------------------------------------------------
  // SetMetadataItems

  /** The override list of the manifest metadata. */
  function MetadataSettings(asm: string): (ss: seq<Setting>)
    ensures DistinctSettings(ss) && |ss| == 3
    ensures ss[0] == Setting(Id, asm) && ss[1] == Setting(NuspecVersion, PipelineVersion)
    ensures ss[2] == Setting(RequireLicenseAcceptance, "false")
  {
    [Setting(Id, asm), Setting(NuspecVersion, PipelineVersion), Setting(RequireLicenseAcceptance, "false")]
  }

  /**
   * `SetMetadataItems` as written: the target is the first `metadata`
   * element, with or without attributes, but whether a setting exists is
   * decided, and existing elements are edited, among the children of the
   * attribute-free `metadata` elements only. It fails when there is no
   * `metadata` element, or when the attribute-free ones repeat a name.
   */
  function MetadataStepAsWritten(items: seq<Element>, asm: string): (r: Outcome<seq<Element>>)
    ensures r.Success? <==> FirstIndex(items, AnyMetadata).Some? && DistinctNames(ScopeChildren(items, MetadataScope))
    ensures FirstIndex(items, AnyMetadata).None? ==> r == Failure(NoMetadata)
  {
    match FirstIndex(items, AnyMetadata)
    case None => Failure(NoMetadata)
    case Some(g) =>
      match MetadataElements(items)
      case Failure(e) => Failure(e)
      case Success(d) => Success(UpsertAll(items, MetadataScope, g, d.Keys, MetadataSettings(asm)))
  }

  /**
   * A `metadata` element with an attribute (`minClientVersion`, say) and an
   * `id` child comes out of `SetMetadataItems` with two `id` children: the
   * old one is not seen by the lookup, and a new one is appended.
   */
  lemma MetadataAsWrittenDuplicatesId(group: Element, oldId: Element, asm: string)
    requires group.ns == NuspecNamespace && group.name == Metadata && group.attrs != []
    requires group.children == [oldId] && oldId.name == Id && !IsBlank(asm)
    ensures MetadataStepAsWritten([group], asm).Success?
    ensures Picked(ScopeChildren(MetadataStepAsWritten([group], asm).value, AnyMetadata), Named(Id)) == [oldId, Leaf(Id, asm)]
  {
    var ss := MetadataSettings(asm);
    AttributedMetadataUnseen(group, asm);
    UpsertAllMissing([group], MetadataScope, 0, {}, ss);
    var r := UpsertAll([group], MetadataScope, 0, {}, ss);
    assert r[0].children == [oldId] + FreshAll(ss);
    assert ScopeChildren(r, AnyMetadata) == [oldId] + FreshAll(ss);
    IdsAfterAppend(oldId, asm);
  }

  /** The `id` entries once the settings are appended after an existing `id`. */
  lemma IdsAfterAppend(oldId: Element, asm: string)
    requires oldId.name == Id && !IsBlank(asm)
    ensures Picked([oldId] + FreshAll(MetadataSettings(asm)), Named(Id)) == [oldId, Leaf(Id, asm)]
  {
    var added := FreshAll(MetadataSettings(asm));
    MetadataAppended(asm);
    IdsAfter(oldId, Leaf(Id, asm), added[1..], Id);
  }

  /** Two elements of name `n` followed by others: the pick of `n` is the two. */
  lemma IdsAfter(oldId: Element, added: Element, rest: seq<Element>, n: string)
    requires oldId.name == n && added.name == n
    requires forall i :: 0 <= i < |rest| ==> rest[i].name != n
    ensures Picked([oldId] + ([added] + rest), Named(n)) == [oldId, added]
  {
    PickedWhenNone(rest, Named(n));
    PickedCons(added, rest, Named(n));
    PickedCons(oldId, [added] + rest, Named(n));
  }

  /** What is appended when no metadata setting exists yet: one element per setting, all with text. */
  lemma MetadataAppended(asm: string)
    requires !IsBlank(asm)
    ensures var added := FreshAll(MetadataSettings(asm));
      added == [Leaf(Id, asm)] + added[1..] && forall i :: 0 <= i < |added[1..]| ==> added[1..][i].name != Id
  {
    var added := FreshAll(MetadataSettings(asm));
    assert !IsWhiteSpace(PipelineVersion[0]) && !IsWhiteSpace("false"[0]);
    assert added[0] == Leaf(Id, asm);
  }

  /** The lookup of `SetMetadataItems` sees nothing of a `metadata` element with attributes. */
  lemma AttributedMetadataUnseen(group: Element, asm: string)
    requires group.ns == NuspecNamespace && group.name == Metadata && group.attrs != []
    ensures MetadataStepAsWritten([group], asm) == Success(UpsertAll([group], MetadataScope, 0, {}, MetadataSettings(asm)))
  {
    assert FirstIndex([group], AnyMetadata) == Some(0);
    assert ScopeChildren([group], MetadataScope) == [];
    var d := MetadataElements([group]).value;
    assert IndexesByName([], d);
    assert d.Keys == {};
  }

  /**
   * `SetMetadataItems` as intended: existence is decided, and elements are
   * edited, among the children of every `metadata` element, and new ones
   * go to the first. It fails when there is no `metadata` element, or when
   * the `metadata` children repeat a name.
   */
  function MetadataStep(items: seq<Element>, asm: string): (r: Outcome<seq<Element>>)
    ensures FirstIndex(items, AnyMetadata).None? ==> r == Failure(NoMetadata)
    ensures r.Success? <==> FirstIndex(items, AnyMetadata).Some? && DistinctNames(ScopeChildren(items, AnyMetadata))
  {
    match FirstIndex(items, AnyMetadata)
    case None => Failure(NoMetadata)
    case Some(g) =>
      match NameDictionary(ScopeChildren(items, AnyMetadata))
      case Failure(e) => Failure(e)
      case Success(d) => Success(UpsertAll(items, AnyMetadata, g, d.Keys, MetadataSettings(asm)))
  }

  /**
   * What `SetMetadataItems` is for: afterwards the metadata holds exactly
   * one `id` (the assembly name), one `version` (the pipeline placeholder)
   * and one `requireLicenseAcceptance` (`false`), each the old element with
   * the new text where one existed; every other metadata child, and every
   * `files` group, is left as it was.
   */
  lemma MetadataStepEffect(items: seq<Element>, asm: string)
    requires MetadataStep(items, asm).Success?
    ensures var d := NameDictionary(ScopeChildren(items, AnyMetadata)).value;
      var r := MetadataStep(items, asm).value;
      var ss := MetadataSettings(asm);
      (forall i :: 0 <= i < |ss| ==>
        Picked(ScopeChildren(r, AnyMetadata), Named(ss[i].name)) == [UpsertedFrom(ss[i], d)]) &&
      (forall q: Pick :: q.name !in SettingNames(ss) ==>
        Picked(ScopeChildren(r, AnyMetadata), q) == Picked(ScopeChildren(items, AnyMetadata), q)) &&
      ScopeChildren(r, AnyFiles) == ScopeChildren(items, AnyFiles)
  {
    var g := FirstIndex(items, AnyMetadata).value;
    var d := NameDictionary(ScopeChildren(items, AnyMetadata)).value;
    UpsertDictionary(items, AnyMetadata, g, d, MetadataSettings(asm));
    UpsertAllDisjoint(items, AnyMetadata, g, d.Keys, MetadataSettings(asm), AnyFiles);
  }

  /**
   * On a manifest whose `metadata` elements have no attributes, the usual
   * case, the step as written and the corrected step are the same.
   */
  lemma MetadataStepAgrees(items: seq<Element>, asm: string)
    requires forall j :: 0 <= j < |items| && Selects(AnyMetadata, items[j]) ==> items[j].attrs == []
    ensures MetadataStep(items, asm) == MetadataStepAsWritten(items, asm)
  {
    assert SameSelection(items, AnyMetadata, MetadataScope);
    EditSameSelection(items, AnyMetadata, MetadataScope, Clear);
    var g := FirstIndex(items, AnyMetadata);
    if g.Some? {
      var d := MetadataElements(items);
      if d.Success? {
        UpsertAllSameSelection(items, AnyMetadata, MetadataScope, g.value, d.value.Keys, MetadataSettings(asm));
      }
    }
  }

  // ---------------------------------------------------------------------
  // SetAllFiles

  /** A `file` entry, created in no namespace. */
  function FileEntry(src: string, target: string): Element
  {
    Element("", FileElement, [Attr(Src, src), Attr(Target, target)], "", [])
  }

  /** The build output of one target framework, without its extension. */
  function BinaryStem(asm: string, tfm: string): string
  {
    PipelineDirSrc + "\\" + asm + "\\bin\\" + PipelineConfiguration + "\\" + tfm + "\\" + asm
  }

  /** The `.dll`, `.pdb` and `.xml` of one target framework, all packed under `lib\<tfm>`. */
  function FrameworkFiles(asm: string, tfm: string): seq<Element>
  {
    [ FileEntry(BinaryStem(asm, tfm) + ".dll", "lib\\" + tfm),
      FileEntry(BinaryStem(asm, tfm) + ".pdb", "lib\\" + tfm),
      FileEntry(BinaryStem(asm, tfm) + ".xml", "lib\\" + tfm) ]
  }

  /** The sources, packed under `src\<asm>`. */
  function SourceFiles(asm: string): Element
  {
    FileEntry(PipelineDirSrc + "\\" + asm + "\\**\\*.cs", "src\\" + asm)
  }

  /** An entry a later `GetAllFiles` accepts: a `file` element with `src` and `target`. */
  predicate IsFileEntry(c: Element)
  {
    c.name == FileElement && Attribute(c, Src).Some? && Attribute(c, Target).Some?
  }

  lemma FileEntryIsFileEntry(src: string, target: string)
    ensures IsFileEntry(FileEntry(src, target))
    ensures Attribute(FileEntry(src, target), Src) == Some(src) && Attribute(FileEntry(src, target), Target) == Some(target)
  {
  }

  /** The `SelectMany` over the target frameworks: three entries per framework, in framework order. */
  function FrameworkEntries(tfms: seq<string>, asm: string): (r: seq<Element>)
    ensures |r| == 3 * |tfms|
  {
    if tfms == [] then [] else FrameworkFiles(asm, tfms[0]) + FrameworkEntries(tfms[1..], asm)
  }

  /** The entries of the `i`-th framework sit at `3 * i`, `3 * i + 1` and `3 * i + 2`. */
  lemma {:induction false} FrameworkEntriesAt(tfms: seq<string>, asm: string, i: nat)
    requires i < |tfms|
    ensures FrameworkEntries(tfms, asm)[3 * i .. 3 * i + 3] == FrameworkFiles(asm, tfms[i])
  {
    if i > 0 {
      FrameworkEntriesAt(tfms[1..], asm, i - 1);
      var rest := FrameworkEntries(tfms[1..], asm);
      assert FrameworkEntries(tfms, asm)[3 * i .. 3 * i + 3] == rest[3 * (i - 1) .. 3 * (i - 1) + 3];
    }
  }

  /** Every framework entry is a `file` with `src` and `target`, in no namespace and without children. */
  lemma {:induction false} FrameworkEntriesWellFormed(tfms: seq<string>, asm: string)
    ensures forall c :: c in FrameworkEntries(tfms, asm) ==> IsFileEntry(c) && c.ns == "" && c.children == []
  {
    if tfms != [] {
      FrameworkEntriesWellFormed(tfms[1..], asm);
      var stem := BinaryStem(asm, tfms[0]);
      FileEntryIsFileEntry(stem + ".dll", "lib\\" + tfms[0]);
      FileEntryIsFileEntry(stem + ".pdb", "lib\\" + tfms[0]);
      FileEntryIsFileEntry(stem + ".xml", "lib\\" + tfms[0]);
    }
  }

  /** Every entry `SetAllFiles` writes: the framework entries, then the sources; each has `src` and `target`. */
  function FileEntries(tfms: seq<string>, asm: string): (r: seq<Element>)
    ensures |r| == 3 * |tfms| + 1
    ensures forall c :: c in r ==> IsFileEntry(c)
  {
    FrameworkEntriesWellFormed(tfms, asm);
    FileEntryIsFileEntry(PipelineDirSrc + "\\" + asm + "\\**\\*.cs", "src\\" + asm);
    FrameworkEntries(tfms, asm) + [SourceFiles(asm)]
  }

  /** The layout of the entries: three per framework in framework order, the sources last. */
  lemma FileEntriesLayout(tfms: seq<string>, asm: string, i: nat)
    requires i < |tfms|
    ensures FileEntries(tfms, asm)[3 * i .. 3 * i + 3] == FrameworkFiles(asm, tfms[i])
    ensures FileEntries(tfms, asm)[3 * |tfms|] == SourceFiles(asm)
  {
    FrameworkEntriesAt(tfms, asm, i);
    var f := FrameworkEntries(tfms, asm);
    assert FileEntries(tfms, asm)[3 * i .. 3 * i + 3] == f[3 * i .. 3 * i + 3];
  }

  /**
   * `SetAllFiles` as written: every child of the attribute-free `files`
   * elements is removed, then the entries for the migrated project's
   * target frameworks are appended to the first `files` element, with or
   * without attributes. It fails on a listed file without `src` or
   * `target`, when the project has no `TargetFrameworks`, and when the
   * manifest has no `files` element.
   */
  function FilesStepAsWritten(manifest: seq<Element>, csproj: seq<Element>, asm: string): (r: Outcome<seq<Element>>)
    ensures r.Success? <==> AllFiles(manifest).Success? && AllTargetFrameworks(csproj).Success? && FileIndex(manifest).Some?
  {
    var _ :- AllFiles(manifest);
    var cleared := EditGroups(manifest, FilesScope, Clear);
    SameHeadersFirstIndex(cleared, manifest, AnyFiles);
    var tfms :- AllTargetFrameworks(csproj);
    match FileIndex(cleared)
    case None => Failure(NoFilesElement)
    case Some(g) => Success(AppendChildren(cleared, g, FileEntries(tfms, asm)))
  }

  /**
   * A `files` element with an attribute keeps its old entries and gets the
   * new ones after them, so a second run lists every file twice.
   */
  lemma FilesAsWrittenKeepsOldEntries(files: Element, csproj: seq<Element>, asm: string)
    requires files.ns == NuspecNamespace && files.name == Files && files.attrs != []
    requires AllTargetFrameworks(csproj).Success?
    ensures FilesStepAsWritten([files], csproj, asm) ==
      Success([files.(children := files.children + FileEntries(AllTargetFrameworks(csproj).value, asm))])
  {
    var tfms := AllTargetFrameworks(csproj).value;
    assert ScopeChildren([files], FilesScope) == [];
    assert AllFiles([files]).Success?;
    var cleared := EditGroups([files], FilesScope, Clear);
    assert cleared == [files];
    assert FileIndex(cleared) == Some(0);
    var entries := FileEntries(tfms, asm);
    assert AppendChildren(cleared, 0, entries) == [files.(children := files.children + entries)];
  }

  /** So on a `files` element with an attribute, a second run lists every file twice. */
  lemma FilesAsWrittenTwice(files: Element, csproj: seq<Element>, asm: string)
    requires files.ns == NuspecNamespace && files.name == Files && files.attrs != []
    requires AllTargetFrameworks(csproj).Success?
    ensures var entries := FileEntries(AllTargetFrameworks(csproj).value, asm);
      FilesStepAsWritten([files.(children := files.children + entries)], csproj, asm) ==
      Success([files.(children := files.children + entries + entries)])
  {
    var entries := FileEntries(AllTargetFrameworks(csproj).value, asm);
    var once := files.(children := files.children + entries);
    FilesAsWrittenKeepsOldEntries(once, csproj, asm);
  }

  /** Clearing every `files` element: `AnyFiles` sees no entry afterwards. */
  lemma ClearedFiles(manifest: seq<Element>)
    ensures ScopeChildren(EditGroups(manifest, AnyFiles, Clear), AnyFiles) == []
  {
    EditWithin(manifest, AnyFiles, AnyFiles, Clear);
  }

  /**
   * `SetAllFiles` as intended: the old entries of every `files` element are
   * checked and removed, and the new ones go to the first `files` element.
   * It fails on a listed file without `src` or `target`, when the project
   * has no `TargetFrameworks`, and when the manifest has no `files`
   * element, in that order.
   */
  function FilesStep(manifest: seq<Element>, csproj: seq<Element>, asm: string): (r: Outcome<seq<Element>>)
    ensures r.Success? ==> SameHeaders(r.value, manifest)
    ensures FirstWithoutSrcTarget(ScopeChildren(manifest, AnyFiles)).Some? ==> r.Failure? && r.error.MissingKey?
    ensures FirstWithoutSrcTarget(ScopeChildren(manifest, AnyFiles)).None? && AllTargetFrameworks(csproj).Failure? ==>
      r == Failure(AllTargetFrameworks(csproj).error)
    ensures FirstWithoutSrcTarget(ScopeChildren(manifest, AnyFiles)).None? && AllTargetFrameworks(csproj).Success? && FileIndex(manifest).None? ==>
      r == Failure(NoFilesElement)
  {
    var listed := ScopeChildren(manifest, AnyFiles);
    match FirstWithoutSrcTarget(listed)
    case Some(i) => Failure(MissingKey(listed[i].name))
    case None =>
      var cleared := EditGroups(manifest, AnyFiles, Clear);
      SameHeadersFirstIndex(cleared, manifest, AnyFiles);
      match AllTargetFrameworks(csproj)
      case Failure(e) => Failure(e)
      case Success(tfms) =>
        match FileIndex(cleared)
        case None => Failure(NoFilesElement)
        case Some(g) => Success(AppendChildren(cleared, g, FileEntries(tfms, asm)))
  }

  /**
   * On a manifest whose `files` elements have no attributes, the usual
   * case, the step as written and the corrected step are the same.
   */
  lemma FilesStepAgrees(manifest: seq<Element>, csproj: seq<Element>, asm: string)
    requires forall j :: 0 <= j < |manifest| && Selects(AnyFiles, manifest[j]) ==> manifest[j].attrs == []
    ensures FilesStep(manifest, csproj, asm) == FilesStepAsWritten(manifest, csproj, asm)
  {
    assert SameSelection(manifest, AnyFiles, FilesScope);
    EditSameSelection(manifest, AnyFiles, FilesScope, Clear);
  }

  /** No `metadata` or `files` element of the manifest has attributes. */
  predicate PlainSections(manifest: seq<Element>)
  {
    forall j :: 0 <= j < |manifest| && (Selects(AnyMetadata, manifest[j]) || Selects(AnyFiles, manifest[j])) ==>
      manifest[j].attrs == []
  }

  /** The metadata step keeps the attribute lists, so plain sections stay plain. */
  lemma MetadataStepPlain(manifest: seq<Element>, asm: string)
    requires MetadataStep(manifest, asm).Success? && PlainSections(manifest)
    ensures PlainSections(MetadataStep(manifest, asm).value)
  {
    MetadataHeaders(manifest, asm);
  }

  /** When the corrected step succeeds, and that afterwards the manifest lists exactly the new entries. */
  lemma FilesStepEffect(manifest: seq<Element>, csproj: seq<Element>, asm: string)
    ensures FilesStep(manifest, csproj, asm).Success? <==>
      FirstWithoutSrcTarget(ScopeChildren(manifest, AnyFiles)).None? &&
      AllTargetFrameworks(csproj).Success? && FileIndex(manifest).Some?
    ensures FilesStep(manifest, csproj, asm).Success? ==>
      ScopeChildren(FilesStep(manifest, csproj, asm).value, AnyFiles) == FileEntries(AllTargetFrameworks(csproj).value, asm)
  {
    var cleared := EditGroups(manifest, AnyFiles, Clear);
    SameHeadersFirstIndex(cleared, manifest, AnyFiles);
    ClearedFiles(manifest);
    var r := FilesStep(manifest, csproj, asm);
    if r.Success? {
      var g := FileIndex(cleared).value;
      AppendToEmpty(cleared, g, FileEntries(AllTargetFrameworks(csproj).value, asm), AnyFiles);
    }
  }

  /** Entries that all have `src` and `target` pass the check of `GetAllFiles`. */
  lemma EntriesAccepted(cs: seq<Element>)
    requires forall c :: c in cs ==> IsFileEntry(c)
    ensures FirstWithoutSrcTarget(cs).None?
  {
    assert forall j :: 0 <= j < |cs| ==> IsFileEntry(cs[j]);
  }

  /** Running the corrected step a second time changes nothing. */
  lemma FilesStepIdempotent(manifest: seq<Element>, csproj: seq<Element>, asm: string)
    requires FilesStep(manifest, csproj, asm).Success?
    ensures FilesStep(FilesStep(manifest, csproj, asm).value, csproj, asm) == FilesStep(manifest, csproj, asm)
  {
    var tfms := AllTargetFrameworks(csproj).value;
    var entries := FileEntries(tfms, asm);
    var cleared := EditGroups(manifest, AnyFiles, Clear);
    SameHeadersFirstIndex(cleared, manifest, AnyFiles);
    var g := FileIndex(cleared).value;
    var r := AppendChildren(cleared, g, entries);
    assert FilesStep(manifest, csproj, asm) == Success(r);
    ClearedFiles(manifest);
    AppendToEmpty(cleared, g, entries, AnyFiles);
    assert Selects(AnyFiles, manifest[g]);
    ClearAppended(manifest, g, entries, AnyFiles);
    EntriesAccepted(entries);
    FilesStepValue(r, csproj, asm);
  }

  // ---------------------------------------------------------------------
  // Namespaces and the saved text

  /**
   * `element.Name = element.Name.LocalName` on every element except
   * `package`, at every depth: only namespaces change, `package` keeps its
   * own and every other element loses it.
   */
  function StripTree(e: Element): (r: Element)
    ensures EraseTree(r) == EraseTree(e)
    ensures e.name == Package ==> r.ns == e.ns
    ensures e.name != Package ==> r.ns == ""
    decreases e, 1
  {
    e.(ns := if e.name == Package then e.ns else "", children := StripAll(e.children))
  }

  /** The loop over the descendants: each sibling stripped, and nothing but namespaces changes. */
  function StripAll(cs: seq<Element>): (r: seq<Element>)
    ensures |r| == |cs|
    ensures EraseAll(r) == EraseAll(cs)
    decreases cs, 0
  {
    if cs == [] then []
    else
      var r := [StripTree(cs[0])] + StripAll(cs[1..]);
      assert r[1..] == StripAll(cs[1..]);
      r
  }

  /** A tree with every namespace erased, at every depth: everything the strip keeps. */
  function EraseTree(e: Element): Element
    decreases e, 1
  {
    e.(ns := "", children := EraseAll(e.children))
  }

  function EraseAll(cs: seq<Element>): (r: seq<Element>)
    ensures |r| == |cs|
    decreases cs, 0
  {
    if cs == [] then [] else [EraseTree(cs[0])] + EraseAll(cs[1..])
  }

  /** Each `package` element of `before` has the same namespace at the same place in `after`, at every depth. */
  predicate PackagesKeepNamespace(before: seq<Element>, after: seq<Element>)
    decreases before
  {
    |before| == |after| &&
    forall i :: 0 <= i < |before| ==>
      (before[i].name == Package ==> after[i].ns == before[i].ns) &&
      PackagesKeepNamespace(before[i].children, after[i].children)
  }

  /** Only `package` elements keep a namespace, at every depth. */
  predicate Stripped(cs: seq<Element>)
    decreases cs
  {
    forall i :: 0 <= i < |cs| ==> (cs[i].name == Package || cs[i].ns == "") && Stripped(cs[i].children)
  }

  /**
   * After the loop only `package` elements keep a namespace, each `package`
   * keeps its own, and nothing but namespaces changes, at every depth.
   */
  lemma {:induction false} StripAllEffect(cs: seq<Element>)
    ensures Stripped(StripAll(cs))
    ensures PackagesKeepNamespace(cs, StripAll(cs))
    ensures EraseAll(StripAll(cs)) == EraseAll(cs)
    ensures forall i :: 0 <= i < |cs| ==>
      StripAll(cs)[i].name == cs[i].name && StripAll(cs)[i].attrs == cs[i].attrs && StripAll(cs)[i].text == cs[i].text &&
      |StripAll(cs)[i].children| == |cs[i].children|
    ensures Values(StripAll(cs)) == Values(cs)
    decreases cs
  {
    if cs != [] {
      StripAllEffect(cs[0].children);
      StripAllEffect(cs[1..]);
      var r := StripAll(cs);
      assert r == [StripTree(cs[0])] + StripAll(cs[1..]);
      forall i | 0 <= i < |r| ensures (r[i].name == Package || r[i].ns == "") && Stripped(r[i].children) {
        if i > 0 {
          assert r[i] == StripAll(cs[1..])[i - 1];
        }
      }
      forall i | 0 <= i < |cs| ensures (cs[i].name == Package ==> r[i].ns == cs[i].ns) && PackagesKeepNamespace(cs[i].children, r[i].children) {
        if i > 0 {
          assert r[i] == StripAll(cs[1..])[i - 1] && cs[i] == cs[1..][i - 1];
        }
      }
      assert Value(r[0]) == Value(cs[0]);
    }
  }

  /** A stripped tree is left as it is, so stripping twice is stripping once. */
  lemma {:induction false} StripAllStripped(cs: seq<Element>)
    requires Stripped(cs)
    ensures StripAll(cs) == cs
    decreases cs
  {
    if cs != [] {
      StripAllStripped(cs[0].children);
      assert Stripped(cs[1..]) by {
        forall i | 0 <= i < |cs[1..]| ensures (cs[1..][i].name == Package || cs[1..][i].ns == "") && Stripped(cs[1..][i].children) {
          assert cs[1..][i] == cs[i + 1];
        }
      }
      StripAllStripped(cs[1..]);
      assert StripTree(cs[0]) == cs[0];
      assert cs == [cs[0]] + cs[1..];
    }
  }

  lemma StripAllIdempotent(cs: seq<Element>)
    ensures StripAll(StripAll(cs)) == StripAll(cs)
  {
    StripAllEffect(cs);
    StripAllStripped(StripAll(cs));
  }

  /** The children of the `n` elements, found in no namespace after the strip, are those found before it, stripped. */
  lemma {:induction false} StripScope(items: seq<Element>, ns: string, n: string)
    requires n != Package
    requires forall j :: 0 <= j < |items| && items[j].name == n ==> items[j].ns == ns
    ensures ScopeChildren(StripAll(items), Selector("", n, AnyAttributes)) ==
      StripAll(ScopeChildren(items, Selector(ns, n, AnyAttributes)))
  {
    if items != [] {
      var s := Selector(ns, n, AnyAttributes);
      StripScope(items[1..], ns, n);
      assert StripAll(items) == [StripTree(items[0])] + StripAll(items[1..]);
      assert StripAll(items)[1..] == StripAll(items[1..]);
      var head := if Selects(s, items[0]) then items[0].children else [];
      StripAllConcat(head, ScopeChildren(items[1..], s));
    }
  }

  /** A lookup among stripped siblings finds the stripped elements it found before: the strip keeps names, attributes and values. */
  lemma {:induction false} StripPicked(cs: seq<Element>, q: Pick)
    ensures Picked(StripAll(cs), q) == StripAll(Picked(cs, q))
  {
    if cs != [] {
      StripPicked(cs[1..], q);
      StripAllEffect(cs[0].children);
      var t := StripTree(cs[0]);
      assert Value(t) == Value(cs[0]);
      assert Picks(q, t) <==> Picks(q, cs[0]);
      assert StripAll(cs) == [t] + StripAll(cs[1..]);
      assert StripAll(cs)[1..] == StripAll(cs[1..]);
      var head := if Picks(q, cs[0]) then [cs[0]] else [];
      StripAllConcat(head, Picked(cs[1..], q));
      assert StripAll(head) == if Picks(q, cs[0]) then [t] else [];
    }
  }

  /** An override held before the strip is held after it. */
  lemma StrippedSetting(cs: seq<Element>, s: Setting)
    requires SettingHeld(cs, s)
    ensures SettingHeld(StripAll(cs), s)
  {
    StripPicked(cs, Named(s.name));
    var x := Picked(cs, Named(s.name))[0];
    assert Picked(cs, Named(s.name)) == [x];
    assert StripAll([x]) == [StripTree(x)];
  }

  /** The new file entries are left as they are by the strip. */
  lemma FileEntriesStripped(tfms: seq<string>, asm: string)
    ensures StripAll(FileEntries(tfms, asm)) == FileEntries(tfms, asm)
  {
    var f := FrameworkEntries(tfms, asm);
    var r := FileEntries(tfms, asm);
    FrameworkEntriesWellFormed(tfms, asm);
    forall i | 0 <= i < |r| ensures (r[i].name == Package || r[i].ns == "") && Stripped(r[i].children) {
      if i < |f| {
        assert r[i] == f[i] && f[i] in f;
      }
    }
    StripAllStripped(r);
  }

  /** The files step leaves the metadata as it was. */
  lemma FilesKeepMetadata(manifest: seq<Element>, csproj: seq<Element>, asm: string)
    requires FilesStep(manifest, csproj, asm).Success?
    ensures ScopeChildren(FilesStep(manifest, csproj, asm).value, AnyMetadata) == ScopeChildren(manifest, AnyMetadata)
  {
    var cleared := EditGroups(manifest, AnyFiles, Clear);
    EditDisjoint(manifest, AnyFiles, AnyMetadata, Clear);
    var g := FileIndex(cleared).value;
    AppendUnselected(cleared, g, FileEntries(AllTargetFrameworks(csproj).value, asm), AnyMetadata);
  }

  /** The `Replace` on the saved text: every ` xmlns=""` removed, left to right. */
  function CleanSavedText(text: string): (r: string)
    ensures |r| <= |text|
    ensures !Contains(text, EmptyNamespaceDeclaration) ==> r == text
    ensures Contains(text, EmptyNamespaceDeclaration) ==> |r| <= |text| - |EmptyNamespaceDeclaration|
  {
    RemoveAll(text, EmptyNamespaceDeclaration)
  }

  // ---------------------------------------------------------------------
  // The manifest, changed in place

  /** A parsed manifest: the children of its `package` element. */
  class ManifestDocument {
    var items: seq<Element>

    constructor (items: seq<Element>)
      ensures this.items == items
    {
      this.items := items;
    }

    method SetMetadataItems(asm: string) returns (err: Option<Error>)
      modifies this
      ensures Applied(old(items), MetadataStep(old(items), asm), err, items)
    {
      var g := FirstIndex(items, AnyMetadata);
      if g.None? {
        return Some(NoMetadata);
      }
      var d := NameDictionary(ScopeChildren(items, AnyMetadata));
      if d.Failure? {
        return Some(d.error);
      }
      items := ApplySettings(items, AnyMetadata, g.value, d.value.Keys, MetadataSettings(asm));
      return None;
    }

    method SetAllFiles(csproj: seq<Element>, asm: string) returns (err: Option<Error>)
      modifies this
      ensures Applied(old(items), FilesStep(old(items), csproj, asm), err, items)
    {
      var current := items;
      var listed := ScopeChildren(current, AnyFiles);
      var missing := FirstWithoutSrcTarget(listed);
      if missing.Some? {
        return Some(MissingKey(listed[missing.value].name));
      }
      var cleared := EditGroups(current, AnyFiles, Clear);
      var tfms := AllTargetFrameworks(csproj);
      if tfms.Failure? {
        return Some(tfms.error);
      }
      var entries := FileEntries(tfms.value, asm);
      var g := FirstIndex(cleared, AnyFiles);
      if g.None? {
        return Some(NoFilesElement);
      }
      var group := AppendEntries(cleared[g.value], entries);
      FilesStepValue(current, csproj, asm);
      items := cleared[g.value := group];
      return None;
    }

    method StripNamespaces()
      modifies this
      ensures items == StripAll(old(items))
    {
      var current := items;
      var stripped := [];
      var i := 0;
      while i < |current|
        invariant 0 <= i <= |current|
        invariant stripped == StripAll(current[..i])
      {
        StripAllSnoc(current, i);
        stripped := stripped + [StripTree(current[i])];
        i := i + 1;
      }
      assert current[..i] == current;
      items := stripped;
    }
  }

  /** The `foreach` of `SetAllFiles` that adds the entries to the `files` element one by one, in order. */
  method AppendEntries(group: Element, entries: seq<Element>) returns (r: Element)
    ensures r == group.(children := group.children + entries)
  {
    r := group;
    var i := 0;
    while i < |entries|
      invariant 0 <= i <= |entries|
      invariant r == group.(children := group.children + entries[..i])
    {
      assert entries[..i + 1] == entries[..i] + [entries[i]];
      r := r.(children := r.children + [entries[i]]);
      i := i + 1;
    }
    assert entries[..i] == entries;
  }

  /** The `metadata` and `files` elements are in the manifest namespace, as the root's default namespace puts them. */
  predicate InNuspecNamespace(items: seq<Element>)
  {
    forall j :: 0 <= j < |items| && (items[j].name == Metadata || items[j].name == Files) ==> items[j].ns == NuspecNamespace
  }

  /** Steps that keep the top-level elements keep them in the manifest namespace. */
  lemma SameHeadersNamespaces(before: seq<Element>, after: seq<Element>)
    requires SameHeaders(after, before) && InNuspecNamespace(before)
    ensures InNuspecNamespace(after)
  {
  }

  /** After the files step and the strip, the `files` element lists exactly the new entries. */
  lemma StrippedFiles(manifest: seq<Element>, csproj: seq<Element>, asm: string)
    requires FilesStep(manifest, csproj, asm).Success?
    requires InNuspecNamespace(FilesStep(manifest, csproj, asm).value)
    ensures ScopeChildren(StripAll(FilesStep(manifest, csproj, asm).value), Selector("", Files, AnyAttributes)) ==
      FileEntries(AllTargetFrameworks(csproj).value, asm)
  {
    FilesStepEffect(manifest, csproj, asm);
    StripScope(FilesStep(manifest, csproj, asm).value, NuspecNamespace, Files);
    FileEntriesStripped(AllTargetFrameworks(csproj).value, asm);
  }

  /** Overrides applied to `before` giving `after` are still held, and the rest still found, after the strip. */
  lemma StrippedOverrides(before: seq<Element>, after: seq<Element>, ss: seq<Setting>, d: map<string, Element>)
    requires forall i :: 0 <= i < |ss| ==> Picked(after, Named(ss[i].name)) == [UpsertedFrom(ss[i], d)]
    requires forall q: Pick :: q.name !in SettingNames(ss) ==> Picked(after, q) == Picked(before, q)
    ensures forall i :: 0 <= i < |ss| ==> SettingHeld(StripAll(after), ss[i])
    ensures forall q: Pick :: q.name !in SettingNames(ss) ==> Picked(StripAll(after), q) == StripAll(Picked(before, q))
  {
    forall i | 0 <= i < |ss| ensures SettingHeld(StripAll(after), ss[i]) {
      StrippedSetting(after, ss[i]);
    }
    forall q: Pick | q.name !in SettingNames(ss)
      ensures Picked(StripAll(after), q) == StripAll(Picked(before, q))
    {
      StripPicked(after, q);
    }
  }

  /** The metadata step only changes what lies inside the top-level elements. */
  lemma MetadataHeaders(manifest: seq<Element>, asm: string)
    requires MetadataStep(manifest, asm).Success?
    ensures SameHeaders(MetadataStep(manifest, asm).value, manifest)
  {
  }

  /** The files step only changes what lies inside the top-level elements. */
  lemma FilesHeaders(manifest: seq<Element>, csproj: seq<Element>, asm: string)
    requires FilesStep(manifest, csproj, asm).Success?
    ensures SameHeaders(FilesStep(manifest, csproj, asm).value, manifest)
  {
    var cleared := EditGroups(manifest, AnyFiles, Clear);
    assert SameHeaders(cleared, manifest);
  }

  /** The value of a successful files step: the cleared manifest with the new entries appended to its files element. */
  lemma FilesStepValue(manifest: seq<Element>, csproj: seq<Element>, asm: string)
    requires FirstWithoutSrcTarget(ScopeChildren(manifest, AnyFiles)).None?
    requires AllTargetFrameworks(csproj).Success?
    requires FirstIndex(EditGroups(manifest, AnyFiles, Clear), AnyFiles).Some?
    ensures var cleared := EditGroups(manifest, AnyFiles, Clear);
      var g := FirstIndex(cleared, AnyFiles).value;
      g < |cleared| &&
      FilesStep(manifest, csproj, asm) == Success(AppendChildren(cleared, g, FileEntries(AllTargetFrameworks(csproj).value, asm)))
  {
  }

  lemma StripAllSnoc(cs: seq<Element>, i: nat)
    requires i < |cs|
    ensures StripAll(cs[..i + 1]) == StripAll(cs[..i]) + [StripTree(cs[i])]
  {
    StripAllConcat(cs[..i], [cs[i]]);
    assert cs[..i + 1] == cs[..i] + [cs[i]];
  }

  lemma {:induction false} StripAllConcat(a: seq<Element>, b: seq<Element>)
    ensures StripAll(a + b) == StripAll(a) + StripAll(b)
  {
    if a == [] {
      assert a + b == b;
    } else {
      assert (a + b)[0] == a[0];
      assert (a + b)[1..] == a[1..] + b;
      StripAllConcat(a[1..], b);
    }
  }
}

=== FILE: pipeline.dfy ===
/**
 * The batch driver `MigrateButton_Click`: for each selected project
 * directory, the `Properties` check of `SetAssemblyInfo`, then
 * `SetProjectFile`, then `CheckAndCreateNuspecFile` on the project file it
 * saved. One handler wraps the whole loop, so the first failure ends the
 * run; what was written before it stays written.
 *
 * The file system is given as data: each directory comes with its parsed
 * project file, whether `Properties` exists and the parsed manifest when
 * the file exists. A run is described by the documents it writes, in order.
 */
module Pipeline {
  import opened Wrappers
  import opened Text
  import opened Xml
  import opened Lookup
  import opened ProjectFile
  import opened Manifest
  import opened Merge
  import opened Frameworks

  const UnitTests := "UnitTests"

  /** One selected project directory, as the file system presents it. */
  datatype ProjectDirectory = ProjectDirectory(
    csprojPath: string,            // the first `*.csproj` of the directory
    assemblyName: string,          // that file's name without its extension
    propertiesPath: string,
    hasProperties: bool,           // whether the `Properties` directory exists
    csproj: seq<Element>,          // the parsed project file
    nuspecPath: string,            // `<name>.nuspec` next to the project file
    nuspec: Option<seq<Element>>)  // the parsed manifest; None when the file does not exist

  /** A document saved to disk: the children of its root element. */
  datatype Write = Write(path: string, items: seq<Element>)

  /** What a run leaves behind: the saves in order, and the error that ended it, if any. */
  datatype Report = Report(writes: seq<Write>, error: Option<Error>)

  /** Test projects get no manifest: the path is searched ignoring case. */
  predicate SkipsManifest(csprojPath: string)
  {
    ContainsIgnoreCase(csprojPath, UnitTests)
  }

  /**
   * The in-memory part of `CheckAndCreateNuspecFile`: the metadata, then
   * the files from the saved project file, then the namespace strip. No
   * top-level element is added or removed, and afterwards only `package`
   * elements keep a namespace.
   */
  function MigrateManifest(manifest: seq<Element>, csproj: seq<Element>, asm: string): (r: Outcome<seq<Element>>)
    ensures r.Success? ==> Stripped(r.value) && |r.value| == |manifest|
    ensures r.Success? ==> forall i :: 0 <= i < |manifest| ==> r.value[i].name == manifest[i].name
    ensures MetadataStep(manifest, asm).Failure? ==> r == Failure(MetadataStep(manifest, asm).error)
  {
    var m :- MetadataStep(manifest, asm);
    var f :- FilesStep(m, csproj, asm);
    ManifestHeaders(manifest, m, f, csproj, asm);
    StripAllEffect(f);
    Success(StripAll(f))
  }

  /** The in-memory part of `CheckAndCreateNuspecFile` with both lookups as the code has them. */
  function MigrateManifestAsWritten(manifest: seq<Element>, csproj: seq<Element>, asm: string): (r: Outcome<seq<Element>>)
    ensures r.Success? ==> Stripped(r.value)
    ensures MetadataStepAsWritten(manifest, asm).Failure? ==> r == Failure(MetadataStepAsWritten(manifest, asm).error)
    ensures MetadataStepAsWritten(manifest, asm).Success? ==>
      (r.Success? <==> FilesStepAsWritten(MetadataStepAsWritten(manifest, asm).value, csproj, asm).Success?)
  {
    var m :- MetadataStepAsWritten(manifest, asm);
    var f :- FilesStepAsWritten(m, csproj, asm);
    StripAllEffect(f);
    Success(StripAll(f))
  }

  /**
   * On a manifest whose `metadata` and `files` elements have no attributes,
   * the manifest steps as modelled are the steps as written.
   */
  lemma MigrateManifestAgrees(manifest: seq<Element>, csproj: seq<Element>, asm: string)
    requires PlainSections(manifest)
    ensures MigrateManifest(manifest, csproj, asm) == MigrateManifestAsWritten(manifest, csproj, asm)
  {
    MetadataStepAgrees(manifest, asm);
    if MetadataStep(manifest, asm).Success? {
      var m := MetadataStep(manifest, asm).value;
      MetadataStepPlain(manifest, asm);
      FilesStepAgrees(m, csproj, asm);
    }
  }

  /**
   * What `CheckAndCreateNuspecFile` saves, on a manifest whose `metadata`
   * and `files` elements are in the manifest namespace: the files listed
   * are exactly the entries for the project's target frameworks, the
   * metadata holds each override once with its new value, and every other
   * metadata entry is the one from before, stripped.
   */
  lemma MigrateManifestEffect(manifest: seq<Element>, csproj: seq<Element>, asm: string)
    requires MigrateManifest(manifest, csproj, asm).Success?
    requires InNuspecNamespace(manifest)
    ensures var r := MigrateManifest(manifest, csproj, asm).value;
      var ss := MetadataSettings(asm);
      var metadata := ScopeChildren(r, Selector("", Metadata, AnyAttributes));
      AllTargetFrameworks(csproj).Success? &&
      ScopeChildren(r, Selector("", Files, AnyAttributes)) == FileEntries(AllTargetFrameworks(csproj).value, asm) &&
      (forall i :: 0 <= i < |ss| ==> SettingHeld(metadata, ss[i])) &&
      (forall q: Pick :: q.name !in SettingNames(ss) ==>
        Picked(metadata, q) == StripAll(Picked(ScopeChildren(manifest, AnyMetadata), q)))
  {
    var ss := MetadataSettings(asm);
    var m := MetadataStep(manifest, asm).value;
    var f := FilesStep(m, csproj, asm).value;
    ManifestHeaders(manifest, m, f, csproj, asm);
    SameHeadersNamespaces(manifest, f);
    StrippedFiles(m, csproj, asm);
    MetadataStepEffect(manifest, asm);
    FilesKeepMetadata(m, csproj, asm);
    StripScope(f, NuspecNamespace, Metadata);
    var d := NameDictionary(ScopeChildren(manifest, AnyMetadata)).value;
    StrippedOverrides(ScopeChildren(manifest, AnyMetadata), ScopeChildren(f, AnyMetadata), ss, d);
  }

  /** Neither manifest step adds, removes or renames a top-level element. */
  lemma ManifestHeaders(manifest: seq<Element>, m: seq<Element>, f: seq<Element>, csproj: seq<Element>, asm: string)
    requires MetadataStep(manifest, asm) == Success(m) && FilesStep(m, csproj, asm) == Success(f)
    ensures SameHeaders(f, manifest)
  {
    MetadataHeaders(manifest, asm);
    FilesHeaders(m, csproj, asm);
  }

  /**
   * One directory. Nothing is saved when the `Properties` check or the
   * project merge fails; once the project file is saved, a failing
   * manifest step leaves it saved and saves no manifest.
   */
  function MigrateOne(p: ProjectDirectory): (r: Report)
    ensures !p.hasProperties ==> r == Report([], Some(MissingPropertiesDirectory(p.propertiesPath)))
    ensures |r.writes| <= 2
    ensures r.writes != [] ==>
      p.hasProperties && MigrateProject(p.csproj, p.assemblyName).Success? &&
      r.writes[0] == Write(p.csprojPath, MigrateProject(p.csproj, p.assemblyName).value)
  {
    if !p.hasProperties then Report([], Some(MissingPropertiesDirectory(p.propertiesPath)))
    else AfterMerge(p, MigrateProject(p.csproj, p.assemblyName))
  }

  /** What follows the merge of the project file, given its outcome. */
  function AfterMerge(p: ProjectDirectory, merged: Outcome<seq<Element>>): (r: Report)
    ensures merged.Failure? ==> r == Report([], Some(merged.error))
    ensures merged.Success? ==> 1 <= |r.writes| <= 2 && r.writes[0] == Write(p.csprojPath, merged.value)
    ensures merged.Success? && SkipsManifest(p.csprojPath) ==> r == Report([Write(p.csprojPath, merged.value)], None)
    ensures merged.Success? && !SkipsManifest(p.csprojPath) && p.nuspec.None? ==>
      r == Report([Write(p.csprojPath, merged.value)], Some(MissingNuspec(p.nuspecPath)))
  {
    match merged
    case Failure(e) => Report([], Some(e))
    case Success(csproj) =>
      var saved := [Write(p.csprojPath, csproj)];
      if SkipsManifest(p.csprojPath) then Report(saved, None)
      else
        match p.nuspec
        case None => Report(saved, Some(MissingNuspec(p.nuspecPath)))
        case Some(m) => AfterManifest(p, saved, MigrateManifest(m, csproj, p.assemblyName))
  }

  /** After the manifest step: its error, or the stripped manifest saved after the project file. */
  function AfterManifest(p: ProjectDirectory, saved: seq<Write>, migrated: Outcome<seq<Element>>): (r: Report)
    ensures r.writes == saved + (if migrated.Success? then [Write(p.nuspecPath, migrated.value)] else [])
    ensures r.error.None? <==> migrated.Success?
    ensures r.error.Some? ==> r.error.value == migrated.error
  {
    match migrated
    case Failure(e) => Report(saved, Some(e))
    case Success(n) => Report(saved + [Write(p.nuspecPath, n)], None)
  }

  /** After the merge, the project file is saved first, and exactly when the merge succeeded. */
  lemma AfterMergeSavesProject(p: ProjectDirectory, merged: Outcome<seq<Element>>)
    ensures var r := AfterMerge(p, merged);
      (r.writes != [] <==> merged.Success?) &&
      (r.writes != [] ==> r.writes[0] == Write(p.csprojPath, merged.value))
  {
    if merged.Success? && !SkipsManifest(p.csprojPath) && p.nuspec.Some? {
      var saved := [Write(p.csprojPath, merged.value)];
      var m := MigrateManifest(p.nuspec.value, merged.value, p.assemblyName);
      assert AfterMerge(p, merged) == AfterManifest(p, saved, m);
    }
  }

  /**
   * After the merge, a second save, the stripped manifest, happens exactly
   * when the manifest step runs and succeeds; there is never a third.
   */
  lemma AfterMergeSavesManifest(p: ProjectDirectory, merged: Outcome<seq<Element>>)
    ensures var r := AfterMerge(p, merged);
      |r.writes| <= 2 &&
      (|r.writes| == 2 <==>
        merged.Success? && !SkipsManifest(p.csprojPath) && p.nuspec.Some? &&
        MigrateManifest(p.nuspec.value, merged.value, p.assemblyName).Success?)
  {
    if merged.Success? && !SkipsManifest(p.csprojPath) && p.nuspec.Some? {
      var saved := [Write(p.csprojPath, merged.value)];
      var m := MigrateManifest(p.nuspec.value, merged.value, p.assemblyName);
      assert AfterMerge(p, merged) == AfterManifest(p, saved, m);
    }
  }

  /** The second file saved is the migrated manifest, without namespaces except on `package`. */
  lemma AfterMergeStripped(p: ProjectDirectory, merged: Outcome<seq<Element>>)
    ensures var r := AfterMerge(p, merged);
      |r.writes| == 2 ==>
        merged.Success? && p.nuspec.Some? && MigrateManifest(p.nuspec.value, merged.value, p.assemblyName).Success? &&
        r.writes[1] == Write(p.nuspecPath, MigrateManifest(p.nuspec.value, merged.value, p.assemblyName).value) &&
        Stripped(r.writes[1].items)
  {
    if merged.Success? && !SkipsManifest(p.csprojPath) && p.nuspec.Some? {
      var saved := [Write(p.csprojPath, merged.value)];
      var m := MigrateManifest(p.nuspec.value, merged.value, p.assemblyName);
      assert m.Success? ==> Stripped(m.value);
      assert AfterMerge(p, merged) == AfterManifest(p, saved, m);
    }
  }

  /** After the merge, the directory succeeds exactly when everything it was to save is saved. */
  lemma AfterMergeSucceeds(p: ProjectDirectory, merged: Outcome<seq<Element>>)
    ensures var r := AfterMerge(p, merged);
      r.error.None? <==> r.writes != [] && (SkipsManifest(p.csprojPath) || |r.writes| == 2)
  {
    if merged.Failure? {
      assert AfterMerge(p, merged) == Report([], Some(merged.error));
    } else {
      var saved := [Write(p.csprojPath, merged.value)];
      if SkipsManifest(p.csprojPath) {
        assert AfterMerge(p, merged) == Report(saved, None);
      } else if p.nuspec.None? {
        assert AfterMerge(p, merged) == Report(saved, Some(MissingNuspec(p.nuspecPath)));
      } else {
        var m := MigrateManifest(p.nuspec.value, merged.value, p.assemblyName);
        assert AfterMerge(p, merged) == AfterManifest(p, saved, m);
      }
    }
  }

  /**
   * The migrated project file is saved first, and exactly when the
   * `Properties` check and the merge succeed.
   */
  lemma ProjectSavedFirst(p: ProjectDirectory)
    ensures MigrateOne(p).writes != [] <==> p.hasProperties && MigrateProject(p.csproj, p.assemblyName).Success?
    ensures MigrateOne(p).writes != [] ==>
      MigrateOne(p).writes[0] == Write(p.csprojPath, MigrateProject(p.csproj, p.assemblyName).value)
  {
    AfterMergeSavesProject(p, MigrateProject(p.csproj, p.assemblyName));
  }

  /**
   * A second save, the stripped manifest, happens exactly when the
   * manifest step runs and succeeds; there is never a third.
   */
  lemma ManifestSavedSecond(p: ProjectDirectory)
    ensures |MigrateOne(p).writes| <= 2
    ensures |MigrateOne(p).writes| == 2 <==>
      p.hasProperties && MigrateProject(p.csproj, p.assemblyName).Success? &&
      !SkipsManifest(p.csprojPath) && p.nuspec.Some? &&
      MigrateManifest(p.nuspec.value, MigrateProject(p.csproj, p.assemblyName).value, p.assemblyName).Success?
    ensures |MigrateOne(p).writes| == 2 ==>
      MigrateOne(p).writes[1].path == p.nuspecPath && Stripped(MigrateOne(p).writes[1].items)
  {
    AfterMergeSavesManifest(p, MigrateProject(p.csproj, p.assemblyName));
    AfterMergeStripped(p, MigrateProject(p.csproj, p.assemblyName));
  }

  /**
   * The manifest saved after the project file lists the entries for the
   * frameworks of the saved project file, the merge of the frameworks read
   * before, and holds the assembly's metadata overrides.
   */
  lemma SavedManifestContents(p: ProjectDirectory)
    requires |MigrateOne(p).writes| == 2
    requires p.nuspec.Some? && InNuspecNamespace(p.nuspec.value)
    ensures AllTargetFrameworks(p.csproj).Success?
    ensures var saved := MigrateOne(p).writes[1].items;
      ScopeChildren(saved, Selector("", Files, AnyAttributes)) ==
        FileEntries(MergeFrameworks(AllTargetFrameworks(p.csproj).value), p.assemblyName) &&
      forall i :: 0 <= i < |MetadataSettings(p.assemblyName)| ==>
        SettingHeld(ScopeChildren(saved, Selector("", Metadata, AnyAttributes)), MetadataSettings(p.assemblyName)[i])
  {
    var merged := MigrateProject(p.csproj, p.assemblyName);
    AfterMergeSavesProject(p, merged);
    AfterMergeStripped(p, merged);
    MigrateProjectEffect(p.csproj, p.assemblyName);
    MigrateManifestEffect(p.nuspec.value, merged.value, p.assemblyName);
  }

  /**
   * Where neither correction changes anything, every file a directory
   * saves is what the code as written saves: the project file is
   * `SetProjectFile` as written, and the manifest is
   * `CheckAndCreateNuspecFile` as written on that project file.
   */
  lemma SavedAsWritten(p: ProjectDirectory)
    requires NcrunchExcludesOnly(p.csproj)
    requires p.nuspec.Some? ==> PlainSections(p.nuspec.value)
    ensures var w := MigrateOne(p).writes;
      var project := MigrateProjectAsWritten(p.csproj, p.assemblyName);
      |w| >= 1 ==> (project.Success? && w[0] == Write(p.csprojPath, project.value))
    ensures var w := MigrateOne(p).writes;
      var project := MigrateProjectAsWritten(p.csproj, p.assemblyName);
      |w| == 2 ==> (project.Success? && p.nuspec.Some? &&
        MigrateManifestAsWritten(p.nuspec.value, project.value, p.assemblyName).Success? &&
        w[1] == Write(p.nuspecPath, MigrateManifestAsWritten(p.nuspec.value, project.value, p.assemblyName).value))
  {
    var merged := MigrateProject(p.csproj, p.assemblyName);
    MigrateProjectAgrees(p.csproj, p.assemblyName);
    AfterMergeSavesProject(p, merged);
    AfterMergeStripped(p, merged);
    if |MigrateOne(p).writes| == 2 {
      MigrateManifestAgrees(p.nuspec.value, merged.value, p.assemblyName);
    }
  }

  /**
   * The contents of `SavedManifestContents`, stated of the code as written:
   * where neither correction changes anything, the manifest
   * `CheckAndCreateNuspecFile` saves after `SetProjectFile` as written
   * lists the entries for the merged frameworks and holds the overrides.
   */
  lemma SavedManifestAsWritten(p: ProjectDirectory)
    requires |MigrateOne(p).writes| == 2
    requires p.nuspec.Some? && InNuspecNamespace(p.nuspec.value) && PlainSections(p.nuspec.value)
    requires NcrunchExcludesOnly(p.csproj)
    ensures AllTargetFrameworks(p.csproj).Success?
    ensures MigrateProjectAsWritten(p.csproj, p.assemblyName).Success?
    ensures var project := MigrateProjectAsWritten(p.csproj, p.assemblyName).value;
      var migrated := MigrateManifestAsWritten(p.nuspec.value, project, p.assemblyName);
      migrated.Success? &&
      ScopeChildren(migrated.value, Selector("", Files, AnyAttributes)) ==
        FileEntries(MergeFrameworks(AllTargetFrameworks(p.csproj).value), p.assemblyName) &&
      forall i :: 0 <= i < |MetadataSettings(p.assemblyName)| ==>
        SettingHeld(ScopeChildren(migrated.value, Selector("", Metadata, AnyAttributes)), MetadataSettings(p.assemblyName)[i])
  {
    SavedAsWritten(p);
    SavedManifestContents(p);
  }

  /** A directory succeeds exactly when everything it was to save is saved. */
  lemma SucceedsWhenAllSaved(p: ProjectDirectory)
    ensures MigrateOne(p).error.None? <==>
      MigrateOne(p).writes != [] && (SkipsManifest(p.csprojPath) || |MigrateOne(p).writes| == 2)
  {
    AfterMergeSucceeds(p, MigrateProject(p.csproj, p.assemblyName));
  }

  /** A test project never fails for want of a manifest, whatever the case of its path. */
  lemma TestProjectsNeedNoManifest(p: ProjectDirectory)
    requires SkipsManifest(p.csprojPath)
    ensures MigrateOne(p).error.Some? ==> MigrateOne(p).writes == []
    ensures |MigrateOne(p).writes| <= 1
  {
    if p.hasProperties {
      AfterMergeSkips(p, MigrateProject(p.csproj, p.assemblyName));
    }
  }

  lemma AfterMergeSkips(p: ProjectDirectory, merged: Outcome<seq<Element>>)
    requires SkipsManifest(p.csprojPath)
    ensures AfterMerge(p, merged) == if merged.Success? then Report([Write(p.csprojPath, merged.value)], None) else Report([], Some(merged.error))
  {
  }

  /** The reports of the directories one by one, as if each were run on its own. */
  function Reports(ps: seq<ProjectDirectory>): (r: seq<Report>)
    ensures |r| == |ps|
  {
    if ps == [] then [] else [MigrateOne(ps[0])] + Reports(ps[1..])
  }

  lemma {:induction false} ReportsAt(ps: seq<ProjectDirectory>, i: nat)
    requires i < |ps|
    ensures Reports(ps)[i] == MigrateOne(ps[i])
  {
    if i > 0 {
      ReportsAt(ps[1..], i - 1);
    }
  }

  /** Runs combined in order, the first failing one ending the whole. */
  function Combine(rs: seq<Report>): (r: Report)
    ensures r.error.None? <==> forall j :: 0 <= j < |rs| ==> rs[j].error.None?
    ensures r.error.Some? ==> exists j :: 0 <= j < |rs| && r.error == rs[j].error
  {
    if rs == [] then Report([], None)
    else if rs[0].error.Some? then rs[0]
    else
      var rest := Combine(rs[1..]);
      assert forall j :: 0 <= j < |rs[1..]| ==> rs[1..][j] == rs[j + 1];
      Report(rs[0].writes + rest.writes, rest.error)
  }

  /** The whole selection: each directory in turn, until the first that fails. */
  function MigrateAll(ps: seq<ProjectDirectory>): Report
  {
    Combine(Reports(ps))
  }

  /** Everything the given runs save, all of them. */
  function WritesOf(rs: seq<Report>): seq<Write>
  {
    if rs == [] then [] else rs[0].writes + WritesOf(rs[1..])
  }

  lemma {:induction false} WritesOfSnoc(rs: seq<Report>, i: nat)
    requires i < |rs|
    ensures WritesOf(rs[..i + 1]) == WritesOf(rs[..i]) + rs[i].writes
  {
    if i == 0 {
      assert rs[..1] == [rs[0]];
      assert rs[..1][1..] == [];
    } else {
      WritesOfSnoc(rs[1..], i - 1);
      assert rs[..i + 1][1..] == rs[1..][..i];
      assert rs[..i][1..] == rs[1..][..i - 1];
      assert rs[..i + 1][0] == rs[..i][0] == rs[0];
    }
  }

  /** When every run succeeds, the whole saves what each saves, in order, and succeeds. */
  lemma {:induction false} CombineSucceeds(rs: seq<Report>)
    requires forall j :: 0 <= j < |rs| ==> rs[j].error.None?
    ensures Combine(rs) == Report(WritesOf(rs), None)
  {
    if rs != [] {
      assert forall j :: 0 <= j < |rs[1..]| ==> rs[1..][j] == rs[j + 1];
      CombineSucceeds(rs[1..]);
    }
  }

  /**
   * When run `k` is the first to fail, the whole ends with its error: the
   * earlier runs are saved, then whatever `k` saved before failing, and
   * nothing of any later run.
   */
  lemma {:induction false} CombineStopsAt(rs: seq<Report>, k: nat)
    requires k < |rs|
    requires forall j :: 0 <= j < k ==> rs[j].error.None?
    requires rs[k].error.Some?
    ensures Combine(rs) == Report(WritesOf(rs[..k]) + rs[k].writes, rs[k].error)
  {
    if k == 0 {
      assert rs[..0] == [];
    } else {
      var tail := rs[1..];
      assert forall j :: 0 <= j < k - 1 ==> tail[j] == rs[j + 1];
      CombineStopsAt(tail, k - 1);
      assert rs[..k][0] == rs[0] && rs[..k][1..] == tail[..k - 1];
      assert WritesOf(rs[..k]) == rs[0].writes + WritesOf(tail[..k - 1]);
      assert Combine(rs) == Report(rs[0].writes + Combine(tail).writes, Combine(tail).error);
      assert tail[k - 1] == rs[k];
      assert rs[0].writes + (WritesOf(tail[..k - 1]) + rs[k].writes) == WritesOf(rs[..k]) + rs[k].writes;
    }
  }

  /** `SetAssemblyInfo`'s check, `SetProjectFile` and `CheckAndCreateNuspecFile` on the two documents. */
  method MigrateDirectory(p: ProjectDirectory) returns (r: Report)
    ensures r == MigrateOne(p)
  {
    if !p.hasProperties {
      return Report([], Some(MissingPropertiesDirectory(p.propertiesPath)));
    }
    var project := new ProjectDocument(p.csproj);
    var err := project.SetProjectFile(p.assemblyName);
    if err.Some? {
      return Report([], err);
    }
    var csproj := project.items;
    var saved := [Write(p.csprojPath, csproj)];
    if SkipsManifest(p.csprojPath) {
      return Report(saved, None);
    }
    if p.nuspec.None? {
      return Report(saved, Some(MissingNuspec(p.nuspecPath)));
    }
    var manifest := new ManifestDocument(p.nuspec.value);
    err := manifest.SetMetadataItems(p.assemblyName);
    if err.Some? {
      return Report(saved, err);
    }
    err := manifest.SetAllFiles(csproj, p.assemblyName);
    if err.Some? {
      return Report(saved, err);
    }
    manifest.StripNamespaces();
    return Report(saved + [Write(p.nuspecPath, manifest.items)], None);
  }

  /** One more run taken in: either the prefix grows or the whole is decided. */
  lemma CombineAdvance(rs: seq<Report>, i: nat, writes: seq<Write>, one: Report)
    requires i < |rs| && one == rs[i]
    requires writes == WritesOf(rs[..i]) && forall j :: 0 <= j < i ==> rs[j].error.None?
    ensures one.error.None? ==>
      writes + one.writes == WritesOf(rs[..i + 1]) && forall j :: 0 <= j < i + 1 ==> rs[j].error.None?
    ensures one.error.Some? ==> Report(writes + one.writes, one.error) == Combine(rs)
  {
    WritesOfSnoc(rs, i);
    if one.error.Some? {
      CombineStopsAt(rs, i);
    }
  }

  /**
   * `MigrateButton_Click` over the selected directories: each directory is
   * migrated in turn and the loop ends at the first failure.
   */
  method MigrateSelected(ps: seq<ProjectDirectory>) returns (r: Report)
    ensures r == MigrateAll(ps)
  {
    ghost var rs := Reports(ps);
    forall j | 0 <= j < |ps| ensures rs[j] == MigrateOne(ps[j]) {
      ReportsAt(ps, j);
    }
    r := MigrateEach(ps, rs);
  }

  /** The loop of `MigrateButton_Click`, given what each directory's run reports. */
  method MigrateEach(ps: seq<ProjectDirectory>, ghost rs: seq<Report>) returns (r: Report)
    requires |rs| == |ps| && forall j {:trigger MigrateOne(ps[j])} :: 0 <= j < |ps| ==> rs[j] == MigrateOne(ps[j])
    ensures r == Combine(rs)
  {
    var writes := [];
    var err := None;
    var i := 0;
    while i < |ps| && err.None?
      invariant 0 <= i <= |ps|
      invariant err.None? ==> writes == WritesOf(rs[..i]) && forall j :: 0 <= j < i ==> rs[j].error.None?
      invariant err.Some? ==> Report(writes, err) == Combine(rs)
    {
      writes, err := MigrateNext(ps, rs, i, writes);
      i := i + 1;
    }
    if err.None? {
      assert rs[..i] == rs;
      CombineSucceeds(rs);
    }
    return Report(writes, err);
  }

  /** One turn of the loop: directory `i` is migrated and what it saves is added to what was saved before. */
  method MigrateNext(ps: seq<ProjectDirectory>, ghost rs: seq<Report>, i: nat, writes: seq<Write>)
    returns (writes': seq<Write>, err: Option<Error>)
    requires |rs| == |ps| && forall j {:trigger MigrateOne(ps[j])} :: 0 <= j < |ps| ==> rs[j] == MigrateOne(ps[j])
    requires i < |ps| && writes == WritesOf(rs[..i]) && forall j :: 0 <= j < i ==> rs[j].error.None?
    ensures err.None? ==> writes' == WritesOf(rs[..i + 1]) && forall j :: 0 <= j < i + 1 ==> rs[j].error.None?
    ensures err.Some? ==> Report(writes', err) == Combine(rs)
  {
    var one := MigrateDirectory(ps[i]);
    CombineAdvance(rs, i, writes, one);
    writes' := writes + one.writes;
    err := one.error;
  }
}

=== FILE: project.dfy ===
/**
 * The project-file merge of `SetProjectFile`: the property-group steps of
 * `SetPropertyGroups`, the package references of `AddCodeAnalysisPackages`,
 * the StyleCop item of `AddStyleCop`, and the prune, each as a function of
 * the document before it (the specification), and `ProjectDocument`, whose
 * methods apply them to the document in place.
 */
module ProjectFile {
  import opened Wrappers
  import opened Text
  import opened Xml
  import opened Tree
  import opened Lookup
  import opened Merge
  import opened Frameworks
  import opened Prune

  const DebugCondition := "'$(Configuration)|$(Platform)'=='Debug|AnyCPU'"
  const ReleaseCondition := "'$(Configuration)|$(Platform)'=='Release|AnyCPU'"
  const NcrunchSuffix := ";*.ncrunchproject"
  const NcrunchExclude := "$(DefaultItemExcludes)" + NcrunchSuffix
  const StyleCopJson := "stylecop.json"
  const StyleCopInclude := "..\\..\\stylecop.json"

  // ---------------------------------------------------------------------
  // SetTargetFrameworks

  /**
   * `SetTargetFrameworks`: the `TargetFrameworks` property of the global
   * groups gets the merged list. It fails, as `GetAllTargetFrameworks`
   * does, when the global groups' children repeat a name or hold no
   * `TargetFrameworks`.
   */
  function TargetFrameworksStep(items: seq<Element>): (r: Outcome<seq<Element>>)
    ensures r.Success? <==> AllTargetFrameworks(items).Success?
    ensures r.Failure? ==> r == Failure(AllTargetFrameworks(items).error)
  {
    match PropertyGroupsElements(items, "", "")
    case Failure(e) => Failure(e)
    case Success(d) =>
      if TargetFrameworks !in d then Failure(NoTargetFrameworks)
      else Success(EditGroups(items, GlobalGroups, Assign(TargetFrameworks, Join(MergeFrameworks(Split(Value(d[TargetFrameworks])))))))
  }

  lemma GlobalFilter()
    ensures PropertyGroups(GroupFilter("", "")) == GlobalGroups
  {
  }

  /** Two name indexes of sequences with the same names, position by position, have the same keys. */
  lemma IndexesSameKeys(cs: seq<Element>, cs2: seq<Element>, d: map<string, Element>, d2: map<string, Element>)
    requires |cs| == |cs2| && forall i :: 0 <= i < |cs| ==> cs2[i].name == cs[i].name
    requires IndexesByName(cs, d) && IndexesByName(cs2, d2)
    ensures d2.Keys == d.Keys
  {
    forall n | n in d2 ensures n in d {
      var i :| 0 <= i < |cs2| && cs2[i] == d2[n];
      assert cs[i].name == n;
    }
    forall n | n in d ensures n in d2 {
      var i :| 0 <= i < |cs| && cs[i] == d[n];
      assert cs2[i].name == n;
    }
  }

  /** Setting values keeps every name. */
  lemma SetValuesNames(cs: seq<Element>, k: string, v: string)
    ensures forall i :: 0 <= i < |cs| ==> SetValues(cs, k, v)[i].name == cs[i].name
    ensures DistinctNames(cs) ==> DistinctNames(SetValues(cs, k, v))
  {
  }

  /** After the values of the children called `k` are set to `v`, the name index has the same keys and reads `v` under `k`. */
  lemma SetValuesIndexed(cs: seq<Element>, d: map<string, Element>, k: string, v: string, d2: map<string, Element>)
    requires IndexesByName(cs, d) && IndexesByName(SetValues(cs, k, v), d2)
    ensures d2.Keys == d.Keys
    ensures k in d2 ==> Value(d2[k]) == v
  {
    var cs2 := SetValues(cs, k, v);
    SetValuesNames(cs, k, v);
    IndexesSameKeys(cs, cs2, d, d2);
    if k in d2 {
      var i :| 0 <= i < |cs2| && cs2[i] == d2[k];
      assert cs[i].name == k;
    }
  }

  /** Writing a list of segments into the global `TargetFrameworks` makes `GetAllTargetFrameworks` read that list back. */
  lemma WrittenFrameworks(items: seq<Element>, d: map<string, Element>, fs: seq<string>)
    requires PropertyGroupsElements(items, "", "") == Success(d) && TargetFrameworks in d
    requires |fs| >= 1 && forall i :: 0 <= i < |fs| ==> Separator !in fs[i]
    ensures AllTargetFrameworks(EditGroups(items, GlobalGroups, Assign(TargetFrameworks, Join(fs)))) == Success(fs)
  {
    GlobalFilter();
    var ed := Assign(TargetFrameworks, Join(fs));
    var r := EditGroups(items, GlobalGroups, ed);
    var cs := ScopeChildren(items, GlobalGroups);
    EditWithin(items, GlobalGroups, GlobalGroups, ed);
    assert ScopeChildren(r, GlobalGroups) == SetValues(cs, TargetFrameworks, Join(fs));
    SetValuesNames(cs, TargetFrameworks, Join(fs));
    var d2 := PropertyGroupsElements(r, "", "").value;
    SetValuesIndexed(cs, d, TargetFrameworks, Join(fs), d2);
    SplitJoin(fs);
  }

  /**
   * What `SetTargetFrameworks` promises: afterwards `GetAllTargetFrameworks`
   * reads back the merged list of what it read before.
   */
  lemma TargetFrameworksStepEffect(items: seq<Element>)
    requires TargetFrameworksStep(items).Success?
    ensures AllTargetFrameworks(TargetFrameworksStep(items).value) == Success(MergeFrameworks(AllTargetFrameworks(items).value))
  {
    var d := PropertyGroupsElements(items, "", "").value;
    var before := AllTargetFrameworks(items).value;
    assert before == Split(Value(d[TargetFrameworks]));
    MergeSegments(before);
    WrittenFrameworks(items, d, MergeFrameworks(before));
  }

  // ---------------------------------------------------------------------
  // SetGlobalPropertyGroupItems

  /** The override list of the global property group. */
  function GlobalSettings(asm: string): (ss: seq<Setting>)
    ensures DistinctSettings(ss)
  {
    [ Setting("AssemblyName", asm), Setting("RootNamespace", asm),
      Setting("GenerateAssemblyInfo", "false"), Setting("GenerateDocumentationFile", "true"),
      Setting("LangVersion", "10"), Setting("TreatWarningsAsErrors", "true"),
      Setting("NoWarn", ""), Setting("WarningsAsErrors", "") ]
  }

  /**
   * `SetGlobalPropertyGroupItems`: the override list applied to the global
   * groups, appending to the first of them. It fails when there is no
   * global group, or when the global groups' children repeat a name.
   */
  function GlobalStep(items: seq<Element>, asm: string): (r: Outcome<seq<Element>>)
    ensures r.Success? <==> FirstIndex(items, GlobalGroups).Some? && DistinctNames(ScopeChildren(items, GlobalGroups))
    ensures FirstIndex(items, GlobalGroups).None? ==> r == Failure(NoGlobalPropertyGroup)
  {
    match PropertyGroupIndex(items, "", "")
    case None => Failure(NoGlobalPropertyGroup)
    case Some(g) =>
      match PropertyGroupsElements(items, "", "")
      case Failure(e) => Failure(e)
      case Success(d) => Success(UpsertAll(items, GlobalGroups, g, d.Keys, GlobalSettings(asm)))
  }

  /**
   * What `SetGlobalPropertyGroupItems` promises: each listed property ends
   * up as exactly one element of the global groups (an empty one for the
   * blank `NoWarn` and `WarningsAsErrors`, the old element with the new
   * text where one existed, a new one otherwise), every other property of
   * the global groups is kept as it was, and the item groups are untouched.
   */
  lemma GlobalStepEffect(items: seq<Element>, asm: string)
    requires GlobalStep(items, asm).Success?
    ensures var d := PropertyGroupsElements(items, "", "").value;
      var r := GlobalStep(items, asm).value;
      var ss := GlobalSettings(asm);
      (forall i :: 0 <= i < |ss| ==>
        Picked(ScopeChildren(r, GlobalGroups), Named(ss[i].name)) == [UpsertedFrom(ss[i], d)]) &&
      (forall q: Pick :: q.name !in SettingNames(ss) ==>
        Picked(ScopeChildren(r, GlobalGroups), q) == Picked(ScopeChildren(items, GlobalGroups), q)) &&
      ScopeChildren(r, ItemGroups) == ScopeChildren(items, ItemGroups)
  {
    var g := PropertyGroupIndex(items, "", "").value;
    var d := PropertyGroupsElements(items, "", "").value;
    UpsertDictionary(items, GlobalGroups, g, d, GlobalSettings(asm));
    UpsertAllDisjoint(items, GlobalGroups, g, d.Keys, GlobalSettings(asm), ItemGroups);
  }

  /**
   * Where `SetGlobalPropertyGroupItems` writes in the first global group:
   * its own children stay in place, with the new values written and the
   * blank `NoWarn` and `WarningsAsErrors` removed, and after them come the
   * elements for the missing and blank properties, in list order.
   */
  lemma GlobalStepPlacement(items: seq<Element>, asm: string)
    requires GlobalStep(items, asm).Success?
    ensures var g := FirstIndex(items, GlobalGroups).value;
      var present := PropertyGroupsElements(items, "", "").value.Keys;
      var r := GlobalStep(items, asm).value;
      g < |r| && r[g].children ==
        Overwritten(items[g].children, present, GlobalSettings(asm)) + Appended(present, GlobalSettings(asm))
  {
    var g := PropertyGroupIndex(items, "", "").value;
    UpsertAllPlacement(items, GlobalGroups, g, PropertyGroupsElements(items, "", "").value.Keys, GlobalSettings(asm));
  }

  // ---------------------------------------------------------------------
  // SetDebugPropertyGroupItems and SetReleasePropertyGroupItems

  datatype Configuration = Debug | Release

  function ConditionOf(cfg: Configuration): string
  {
    match cfg
    case Debug => DebugCondition
    case Release => ReleaseCondition
  }

  /** The property groups of one configuration: those whose `Condition` is exactly its condition string. */
  function ConfigurationGroups(cfg: Configuration): Selector
  {
    PropertyGroups(WithAttribute(Condition, ConditionOf(cfg)))
  }

  /** The value of `DefineConstants` for a configuration, with or without the code-contracts symbol. */
  function DefineValue(cfg: Configuration, codeContracts: bool): string
  {
    match cfg
    case Debug => if codeContracts then "TRACE;DEBUG;VISTA_CODE_CONTRACTS" else "TRACE;DEBUG"
    case Release => if codeContracts then "TRACE;VISTA_CODE_CONTRACTS" else "TRACE"
  }

  /** The properties a configuration's group is given. */
  function ConfigurationSettings(cfg: Configuration, codeContracts: bool): (ss: seq<Setting>)
    ensures DistinctSettings(ss) && |ss| >= 1 && ss[0] == Setting(DefineConstants, DefineValue(cfg, codeContracts))
    ensures forall i :: 0 <= i < |ss| ==> !IsBlank(ss[i].value)
  {
    assert !IsWhiteSpace(DefineValue(cfg, codeContracts)[0]);
    match cfg
    case Debug => [Setting(DefineConstants, DefineValue(cfg, codeContracts))]
    case Release =>
      assert !IsWhiteSpace("pdbonly"[0]) && !IsWhiteSpace("true"[0]);
      [Setting(DefineConstants, DefineValue(cfg, codeContracts)), Setting(DebugType, "pdbonly"), Setting(DebugSymbols, "true")]
  }

  lemma ConditionFilter(cfg: Configuration)
    ensures GroupFilter(Condition, ConditionOf(cfg)) == WithAttribute(Condition, ConditionOf(cfg))
    ensures PropertyGroups(GroupFilter(Condition, ConditionOf(cfg))) == ConfigurationGroups(cfg)
  {
    assert !IsWhiteSpace(Condition[0]);
  }

  /** The group a new configuration group starts as. */
  function NewConfigurationGroup(cfg: Configuration): Element
  {
    Element("", PropertyGroup, [Attr(Condition, ConditionOf(cfg))], "", [])
  }

  /**
   * Find or create: the first group of the configuration, or a new one
   * appended to `Project` when there is none. Either way the returned
   * group is the first of its configuration, and the document holds one
   * such group more only when it held none.
   */
  function ConfiguredGroup(items: seq<Element>, cfg: Configuration): (r: (seq<Element>, nat))
    ensures r.1 < |r.0| && FirstIndex(r.0, ConfigurationGroups(cfg)) == Some(r.1)
    ensures SelectedCount(r.0, ConfigurationGroups(cfg)) ==
      if SelectedCount(items, ConfigurationGroups(cfg)) == 0 then 1 else SelectedCount(items, ConfigurationGroups(cfg))
    ensures FirstIndex(items, ConfigurationGroups(cfg)).Some? ==> r == (items, FirstIndex(items, ConfigurationGroups(cfg)).value)
    ensures FirstIndex(items, ConfigurationGroups(cfg)).None? ==> r.0 == items + [NewConfigurationGroup(cfg)]
  {
    var s := ConfigurationGroups(cfg);
    match FirstIndex(items, s)
    case Some(g) =>
      SelectedCountPositive(items, s, g);
      (items, g)
    case None =>
      var grown := items + [NewConfigurationGroup(cfg)];
      SelectedCountSnoc(items, NewConfigurationGroup(cfg), s);
      SelectedCountZero(items, s);
      FirstIndexSnoc(items, NewConfigurationGroup(cfg), s);
      (grown, |items|)
  }

  /** How many of the root's children a selector selects. */
  function SelectedCount(items: seq<Element>, s: Selector): nat
  {
    if items == [] then 0 else (if Selects(s, items[0]) then 1 else 0) + SelectedCount(items[1..], s)
  }

  lemma {:induction false} SelectedCountSnoc(items: seq<Element>, e: Element, s: Selector)
    ensures SelectedCount(items + [e], s) == SelectedCount(items, s) + (if Selects(s, e) then 1 else 0)
  {
    if items == [] {
      assert items + [e] == [e];
    } else {
      assert (items + [e])[1..] == items[1..] + [e];
      SelectedCountSnoc(items[1..], e, s);
    }
  }

  lemma {:induction false} SelectedCountPositive(items: seq<Element>, s: Selector, g: nat)
    requires g < |items| && Selects(s, items[g])
    ensures SelectedCount(items, s) > 0
  {
    if g > 0 {
      SelectedCountPositive(items[1..], s, g - 1);
    }
  }

  lemma {:induction false} SelectedCountZero(items: seq<Element>, s: Selector)
    requires FirstIndex(items, s).None?
    ensures SelectedCount(items, s) == 0
  {
    if items != [] {
      SelectedCountZero(items[1..], s);
    }
  }

  lemma FirstIndexSnoc(items: seq<Element>, e: Element, s: Selector)
    requires FirstIndex(items, s).None? && Selects(s, e)
    ensures FirstIndex(items + [e], s) == Some(|items|)
  {
    var r := FirstIndex(items + [e], s);
    assert (items + [e])[|items|] == e;
    assert forall j :: 0 <= j < |items| ==> (items + [e])[j] == items[j];
  }

  /**
   * `SetDebugPropertyGroupItems` / `SetReleasePropertyGroupItems`: find or
   * create the configuration's group, then set its properties, with the
   * code-contracts symbol when the package references hold
   * `Vista.CodeContracts`. It fails when the configuration's groups repeat
   * a child name or the package references cannot be keyed.
   */
  function ConfigurationStep(items: seq<Element>, cfg: Configuration): (r: Outcome<seq<Element>>)
    ensures r.Success? <==>
      DistinctNames(ScopeChildren(ConfiguredGroup(items, cfg).0, ConfigurationGroups(cfg))) &&
      UniqueAttr(References(items), Include)
  {
    ConditionFilter(cfg);
    GrownReferences(items, cfg);
    var (grown, g) := ConfiguredGroup(items, cfg);
    match PropertyGroupsElements(grown, Condition, ConditionOf(cfg))
    case Failure(e) => Failure(e)
    case Success(d) =>
      match ShouldIncludeCodeOfConduct(grown)
      case Failure(e) => Failure(e)
      case Success(contracts) =>
        Success(UpsertAll(grown, ConfigurationGroups(cfg), g, d.Keys, ConfigurationSettings(cfg, contracts)))
  }

  /** Appending a property group changes no item-group lookup. */
  lemma GrownReferences(items: seq<Element>, cfg: Configuration)
    ensures ScopeChildren(ConfiguredGroup(items, cfg).0, ItemGroups) == ScopeChildren(items, ItemGroups)
    ensures References(ConfiguredGroup(items, cfg).0) == References(items)
  {
    if FirstIndex(items, ConfigurationGroups(cfg)).None? {
      AppendGroupScope(items, NewConfigurationGroup(cfg), ItemGroups);
    }
  }

  /**
   * What the configuration steps promise: the configuration's groups hold
   * exactly one `DefineConstants`, whose value carries the code-contracts
   * symbol exactly when a package reference of the input includes
   * `Vista.CodeContracts`; for Release also exactly one `DebugType` with
   * `pdbonly` and one `DebugSymbols` with `true`. Every other property of
   * the configuration's groups, and every item group, is left as it was.
   */
  lemma ConfigurationStepEffect(items: seq<Element>, cfg: Configuration)
    requires ConfigurationStep(items, cfg).Success?
    ensures var r := ConfigurationStep(items, cfg).value;
      var s := ConfigurationGroups(cfg);
      var ss := ConfigurationSettings(cfg, ReferencesCodeContracts(items));
      (forall i :: 0 <= i < |ss| ==>
        |Picked(ScopeChildren(r, s), Named(ss[i].name))| == 1 &&
        Value(Picked(ScopeChildren(r, s), Named(ss[i].name))[0]) == ss[i].value) &&
      (forall q: Pick :: q.name !in SettingNames(ss) ==>
        Picked(ScopeChildren(r, s), q) == Picked(ScopeChildren(ConfiguredGroup(items, cfg).0, s), q)) &&
      ScopeChildren(r, ItemGroups) == ScopeChildren(items, ItemGroups)
  {
    var (grown, g) := ConfiguredGroup(items, cfg);
    var s := ConfigurationGroups(cfg);
    ConditionFilter(cfg);
    GrownReferences(items, cfg);
    var d := PropertyGroupsElements(grown, Condition, ConditionOf(cfg)).value;
    assert NameDictionary(ScopeChildren(grown, s)) == Success(d);
    var contracts := ShouldIncludeCodeOfConduct(grown).value;
    assert contracts == ReferencesCodeContracts(items);
    var ss := ConfigurationSettings(cfg, contracts);
    var r := UpsertAll(grown, s, g, d.Keys, ss);
    assert ConfigurationStep(items, cfg) == Success(r);
    UpsertDictionary(grown, s, g, d, ss);
    UpsertedValues(ScopeChildren(r, s), ss, d);
    UpsertAllDisjoint(grown, s, g, d.Keys, ss, ItemGroups);
  }

  /** Settings without a blank value, each upserted once, are each held once with their value. */
  lemma UpsertedValues(after: seq<Element>, ss: seq<Setting>, d: map<string, Element>)
    requires forall i :: 0 <= i < |ss| ==> !IsBlank(ss[i].value)
    requires forall i :: 0 <= i < |ss| ==> Picked(after, Named(ss[i].name)) == [UpsertedFrom(ss[i], d)]
    ensures forall i :: 0 <= i < |ss| ==>
      |Picked(after, Named(ss[i].name))| == 1 && Value(Picked(after, Named(ss[i].name))[0]) == ss[i].value
  {
    forall i | 0 <= i < |ss|
      ensures |Picked(after, Named(ss[i].name))| == 1 && Value(Picked(after, Named(ss[i].name))[0]) == ss[i].value
    {
      assert Picked(after, Named(ss[i].name)) == [UpsertedFrom(ss[i], d)];
    }
  }

  /**
   * Where the configuration steps write in the configuration's first
   * group: its own children stay in place, with the new values written,
   * and after them come the elements for the missing properties, in list
   * order.
   */
  lemma ConfigurationStepPlacement(items: seq<Element>, cfg: Configuration)
    requires ConfigurationStep(items, cfg).Success?
    ensures var (grown, g) := ConfiguredGroup(items, cfg);
      var present := PropertyGroupsElements(grown, Condition, ConditionOf(cfg)).value.Keys;
      var ss := ConfigurationSettings(cfg, ReferencesCodeContracts(items));
      var r := ConfigurationStep(items, cfg).value;
      g < |r| && r[g].children == Overwritten(grown[g].children, present, ss) + Appended(present, ss)
  {
    var (grown, g) := ConfiguredGroup(items, cfg);
    GrownReferences(items, cfg);
    var present := PropertyGroupsElements(grown, Condition, ConditionOf(cfg)).value.Keys;
    var contracts := ShouldIncludeCodeOfConduct(grown).value;
    assert contracts == ReferencesCodeContracts(items);
    UpsertAllPlacement(grown, ConfigurationGroups(cfg), g, present, ConfigurationSettings(cfg, contracts));
  }

  // ---------------------------------------------------------------------
  // Replace by key: remove the old entries, append a group with the new ones

  /**
   * Removing the entries `p` picks from every group `s` selects and then
   * appending a group `s` selects: the entries of name `n` are the old
   * ones `p` does not pick, in order, then the new group's.
   */
  lemma DropAndAppend(items: seq<Element>, s: Selector, p: Pick, grp: Element, n: string)
    requires Selects(s, grp)
    ensures Picked(ScopeChildren(EditGroups(items, s, Drop(p)) + [grp], s), Named(n)) ==
      Unpicked(Picked(ScopeChildren(items, s), Named(n)), p) + Picked(grp.children, Named(n))
  {
    var dropped := EditGroups(items, s, Drop(p));
    EditWithin(items, s, s, Drop(p));
    AppendGroupScope(dropped, grp, s);
    PickedConcat(Unpicked(ScopeChildren(items, s), p), grp.children, Named(n));
    PickedUnpicked(ScopeChildren(items, s), p, Named(n));
  }

  /** Nor does the appended group change what a disjoint selector looks at. */
  lemma DropAndAppendDisjoint(items: seq<Element>, s: Selector, p: Pick, grp: Element, other: Selector)
    requires Disjoint(s, other) && Selects(s, grp)
    ensures ScopeChildren(EditGroups(items, s, Drop(p)) + [grp], other) == ScopeChildren(items, other)
  {
    EditDisjoint(items, s, other, Drop(p));
    AppendGroupScope(EditGroups(items, s, Drop(p)), grp, other);
    DisjointSelects(s, other, grp);
  }

  /** After the replacement, what `p` picks among the entries of its name is exactly what the new group brings. */
  lemma ReplacedPicked(before: seq<Element>, added: seq<Element>, p: Pick)
    ensures Picked(Unpicked(before, p) + added, p) == Picked(added, p)
  {
    UnpickedNone(before, p);
    PickedConcat(Unpicked(before, p), added, p);
  }

  // ---------------------------------------------------------------------
  // AddDefaultItemExcludes

  const ExcludeEntry := Leaf(DefaultItemExcludes, NcrunchExclude)
  const ExcludePick := ValueIs(DefaultItemExcludes, NcrunchExclude)

  /**
   * `AddDefaultItemExcludes` as the code has it: every `DefaultItemExcludes`
   * of any property group whose value is the NCrunch exclusion is removed,
   * and a new global group holding one such entry is appended. It fails
   * when two entries of the property groups share a value.
   */
  function ExcludesStepAsWritten(items: seq<Element>): (r: Outcome<seq<Element>>)
    ensures r.Success? <==> DefaultItemExcludesByValue(items).Success?
    ensures r.Failure? ==> r.error.DuplicateKey?
    ensures r.Success? ==> |r.value| == |items| + 1 && SameHeaders(r.value[..|items|], items)
  {
    match DefaultItemExcludesByValue(items)
    case Failure(e) => Failure(e)
    case Success(_) =>
      var dropped := EditGroups(items, AllPropertyGroups, Drop(ExcludePick));
      Success(dropped + [Element("", PropertyGroup, [], "", [ExcludeEntry])])
  }

  /**
   * Replace by key: the entries of the property groups are the old ones
   * without the NCrunch exclusion, then exactly one new NCrunch exclusion;
   * the item groups are untouched.
   */
  lemma ExcludesAsWrittenEffect(items: seq<Element>)
    requires ExcludesStepAsWritten(items).Success?
    ensures var r := ExcludesStepAsWritten(items).value;
      ExcludeEntries(r) == Unpicked(ExcludeEntries(items), ExcludePick) + [ExcludeEntry] &&
      Picked(ExcludeEntries(r), ExcludePick) == [ExcludeEntry] &&
      ScopeChildren(r, ItemGroups) == ScopeChildren(items, ItemGroups)
  {
    var grp := Element("", PropertyGroup, [], "", [ExcludeEntry]);
    var r := EditGroups(items, AllPropertyGroups, Drop(ExcludePick)) + [grp];
    assert ExcludesStepAsWritten(items).value == r;
    ExcludeEntriesReplaced(items, grp);
    DropAndAppendDisjoint(items, AllPropertyGroups, ExcludePick, grp, ItemGroups);
  }

  lemma ExcludeEntriesReplaced(items: seq<Element>, grp: Element)
    requires grp == Element("", PropertyGroup, [], "", [ExcludeEntry])
    ensures var r := EditGroups(items, AllPropertyGroups, Drop(ExcludePick)) + [grp];
      ExcludeEntries(r) == Unpicked(ExcludeEntries(items), ExcludePick) + [ExcludeEntry] &&
      Picked(ExcludeEntries(r), ExcludePick) == [ExcludeEntry]
  {
    DropAndAppend(items, AllPropertyGroups, ExcludePick, grp, DefaultItemExcludes);
    assert Picked([ExcludeEntry], Named(DefaultItemExcludes)) == [ExcludeEntry];
    ReplacedPicked(ExcludeEntries(items), [ExcludeEntry], ExcludePick);
    assert Value(ExcludeEntry) == NcrunchExclude + "";
    assert Picked([ExcludeEntry], ExcludePick) == [ExcludeEntry];
  }

  /** The global children after dropping the NCrunch exclusion from every property group. */
  lemma DroppedGlobals(items: seq<Element>)
    ensures var dropped := EditGroups(items, AllPropertyGroups, Drop(ExcludePick));
      ScopeChildren(dropped, GlobalGroups) == Unpicked(ScopeChildren(items, GlobalGroups), ExcludePick) &&
      ScopeChildren(dropped, ItemGroups) == ScopeChildren(items, ItemGroups)
  {
    EditWithin(items, AllPropertyGroups, GlobalGroups, Drop(ExcludePick));
    EditDisjoint(items, AllPropertyGroups, ItemGroups, Drop(ExcludePick));
  }

  /**
   * When the global groups already hold a `DefaultItemExcludes` other than
   * the NCrunch exclusion, the group the code appends gives them a second
   * one, so `GetPropertyGroupsElements`, and with it
   * `GetAllTargetFrameworks`, fails on the document the step leaves.
   */
  lemma ExcludesAsWrittenClash(items: seq<Element>, x: Element)
    requires ExcludesStepAsWritten(items).Success?
    requires x in ScopeChildren(items, GlobalGroups) && x.name == DefaultItemExcludes && Value(x) != NcrunchExclude
    ensures AllTargetFrameworks(ExcludesStepAsWritten(items).value).Failure?
  {
    var grp := Element("", PropertyGroup, [], "", [ExcludeEntry]);
    var dropped := EditGroups(items, AllPropertyGroups, Drop(ExcludePick));
    var r := dropped + [grp];
    assert ExcludesStepAsWritten(items).value == r;
    DroppedGlobals(items);
    AppendGroupScope(dropped, grp, GlobalGroups);
    var kept := Unpicked(ScopeChildren(items, GlobalGroups), ExcludePick);
    assert ScopeChildren(r, GlobalGroups) == kept + [ExcludeEntry];
    assert x in kept;
    NameRepeated(kept, x, ExcludeEntry);
    FrameworksRead(r);
  }

  /** An element named like one already present repeats a name. */
  lemma NameRepeated(kept: seq<Element>, x: Element, e: Element)
    requires x in kept && x.name == e.name
    ensures !DistinctNames(kept + [e])
  {
    var i :| 0 <= i < |kept| && kept[i] == x;
    assert (kept + [e])[i] == x && (kept + [e])[|kept|] == e;
  }

  /** One concrete project: a global group with its frameworks and an exclusion of its own. */
  lemma ExcludesAsWrittenExample()
    ensures var g := Element("", PropertyGroup, [], "", [Leaf(TargetFrameworks, "net48"), Leaf(DefaultItemExcludes, "bin")]);
      AllTargetFrameworks([g]).Success? &&
      ExcludesStepAsWritten([g]).Success? && AllTargetFrameworks(ExcludesStepAsWritten([g]).value).Failure?
  {
    var tf := Leaf(TargetFrameworks, "net48");
    var x := Leaf(DefaultItemExcludes, "bin");
    var g := Element("", PropertyGroup, [], "", [tf, x]);
    assert ScopeChildren([g], GlobalGroups) == [tf, x] by {
      assert ScopeChildren([g], GlobalGroups) == g.children + ScopeChildren([], GlobalGroups);
    }
    GlobalFilter();
    assert DistinctNames([tf, x]);
    var es := ExcludeEntries([g]);
    assert ScopeChildren([g], AllPropertyGroups) == [tf, x] by {
      assert ScopeChildren([g], AllPropertyGroups) == g.children + ScopeChildren([], AllPropertyGroups);
    }
    assert es == [x] by {
      assert TargetFrameworks[0] != DefaultItemExcludes[0];
      assert !Picks(Named(DefaultItemExcludes), tf);
      assert [tf, x][1..] == [x] && [x][1..] == [];
      assert Picked([x], Named(DefaultItemExcludes)) == [x] + Picked([], Named(DefaultItemExcludes));
      assert Picked([tf, x], Named(DefaultItemExcludes)) == [] + Picked([x], Named(DefaultItemExcludes));
    }
    assert Value(x) == "bin";
    assert Value(x) != NcrunchExclude by {
      assert |Value(x)| != |NcrunchExclude|;
    }
    ExcludesAsWrittenClash([g], x);
  }

  /**
   * `AddDefaultItemExcludes` as intended: the NCrunch exclusion is removed
   * from every property group as before; when the global groups still hold
   * another `DefaultItemExcludes`, the NCrunch pattern is appended to its
   * value unless that value already ends with it, and only when there is
   * no such entry is a new global group with the NCrunch exclusion
   * appended. It fails when two entries of the property groups share a
   * value.
   */
  function ExcludesStep(items: seq<Element>): (r: Outcome<seq<Element>>)
    ensures r.Success? <==> DefaultItemExcludesByValue(items).Success?
    ensures r.Failure? ==> r.error.DuplicateKey?
  {
    match DefaultItemExcludesByValue(items)
    case Failure(e) => Failure(e)
    case Success(_) =>
      var dropped := EditGroups(items, AllPropertyGroups, Drop(ExcludePick));
      var others := Picked(ScopeChildren(dropped, GlobalGroups), Named(DefaultItemExcludes));
      if others == [] then Success(dropped + [Element("", PropertyGroup, [], "", [ExcludeEntry])])
      else if EndsWith(Value(others[0]), NcrunchSuffix) then Success(dropped)
      else Success(EditGroups(dropped, GlobalGroups, Assign(DefaultItemExcludes, Value(others[0]) + NcrunchSuffix)))
  }

  /** The global groups hold one `DefaultItemExcludes`, and it excludes NCrunch files. */
  predicate ExclusionHeld(cs: seq<Element>)
  {
    |Picked(cs, Named(DefaultItemExcludes))| == 1 && EndsWith(Value(Picked(cs, Named(DefaultItemExcludes))[0]), NcrunchSuffix)
  }

  /**
   * What the intended step promises: every other global property is left
   * as it was, the item groups are untouched, and global children with
   * distinct names keep distinct names and end up with exactly one
   * `DefaultItemExcludes`, which excludes NCrunch files.
   */
  lemma ExcludesStepEffect(items: seq<Element>)
    requires ExcludesStep(items).Success?
    ensures var r := ExcludesStep(items).value;
      var before := ScopeChildren(items, GlobalGroups);
      var after := ScopeChildren(r, GlobalGroups);
      (forall q: Pick :: q.name != DefaultItemExcludes ==> Picked(after, q) == Picked(before, q)) &&
      (DistinctNames(before) ==> DistinctNames(after) && ExclusionHeld(after)) &&
      ScopeChildren(r, ItemGroups) == ScopeChildren(items, ItemGroups)
  {
    var before := ScopeChildren(items, GlobalGroups);
    var dropped := EditGroups(items, AllPropertyGroups, Drop(ExcludePick));
    var kept := Unpicked(before, ExcludePick);
    DroppedGlobals(items);
    var others := Picked(kept, Named(DefaultItemExcludes));
    PickedUnpicked(before, ExcludePick, Named(DefaultItemExcludes));
    if others == [] {
      ExcludesAppended(items);
    } else if EndsWith(Value(others[0]), NcrunchSuffix) {
      ExcludesKept(items);
    } else {
      ExcludesAssigned(items);
    }
  }

  lemma ExcludesAppended(items: seq<Element>)
    requires ExcludesStep(items).Success?
    requires Picked(ScopeChildren(EditGroups(items, AllPropertyGroups, Drop(ExcludePick)), GlobalGroups), Named(DefaultItemExcludes)) == []
    ensures var r := ExcludesStep(items).value;
      var before := ScopeChildren(items, GlobalGroups);
      var after := ScopeChildren(r, GlobalGroups);
      (forall q: Pick :: q.name != DefaultItemExcludes ==> Picked(after, q) == Picked(before, q)) &&
      (DistinctNames(before) ==> DistinctNames(after) && ExclusionHeld(after)) &&
      ScopeChildren(r, ItemGroups) == ScopeChildren(items, ItemGroups)
  {
    var before := ScopeChildren(items, GlobalGroups);
    var grp := Element("", PropertyGroup, [], "", [ExcludeEntry]);
    var dropped := EditGroups(items, AllPropertyGroups, Drop(ExcludePick));
    var r := dropped + [grp];
    assert ExcludesStep(items).value == r;
    DroppedGlobals(items);
    AppendGroupScope(dropped, grp, GlobalGroups);
    AppendGroupScope(dropped, grp, ItemGroups);
    AppendedExclusion(before);
  }

  /** The global children once the NCrunch exclusion has been dropped and appended again in a group of its own. */
  lemma AppendedExclusion(before: seq<Element>)
    requires Picked(Unpicked(before, ExcludePick), Named(DefaultItemExcludes)) == []
    ensures var after := Unpicked(before, ExcludePick) + [ExcludeEntry];
      (forall q: Pick :: q.name != DefaultItemExcludes ==> Picked(after, q) == Picked(before, q)) &&
      (DistinctNames(before) ==> DistinctNames(after) && ExclusionHeld(after))
  {
    var kept := Unpicked(before, ExcludePick);
    var after := kept + [ExcludeEntry];
    forall q: Pick | q.name != DefaultItemExcludes ensures Picked(after, q) == Picked(before, q) {
      PickedConcat(kept, [ExcludeEntry], q);
      PickedOneOther(ExcludeEntry, q);
      UnpickedOther(before, ExcludePick, q);
    }
    AppendedHeld(kept);
    if DistinctNames(before) {
      OthersDistinct(before, after);
    }
  }

  lemma AppendedHeld(kept: seq<Element>)
    requires Picked(kept, Named(DefaultItemExcludes)) == []
    ensures Picked(kept + [ExcludeEntry], Named(DefaultItemExcludes)) == [ExcludeEntry]
    ensures ExclusionHeld(kept + [ExcludeEntry])
  {
    PickedAppendedOne(kept, ExcludeEntry, DefaultItemExcludes);
    ExcludeEntryExcludes();
  }

  /** One element of the picked name, appended where there was none, is all the pick finds. */
  lemma PickedAppendedOne(kept: seq<Element>, e: Element, n: string)
    requires Picked(kept, Named(n)) == [] && e.name == n
    ensures Picked(kept + [e], Named(n)) == [e]
  {
    PickedConcat(kept, [e], Named(n));
    assert Picked([e], Named(n)) == [e] + Picked([], Named(n));
  }

  /** The NCrunch entry's own value ends with the NCrunch pattern. */
  lemma ExcludeEntryExcludes()
    ensures EndsWith(Value(ExcludeEntry), NcrunchSuffix)
  {
    assert Value(ExcludeEntry) == "$(DefaultItemExcludes)" + NcrunchSuffix;
    EndsWithAppended("$(DefaultItemExcludes)", NcrunchSuffix);
  }

  /** A pick of another name finds nothing in a single element. */
  lemma PickedOneOther(e: Element, q: Pick)
    requires q.name != e.name
    ensures Picked([e], q) == []
  {
  }

  /** Global children that agree with distinct ones on every other name, and hold one exclusion, are distinct. */
  lemma OthersDistinct(before: seq<Element>, after: seq<Element>)
    requires DistinctNames(before)
    requires forall q: Pick :: q.name != DefaultItemExcludes ==> Picked(after, q) == Picked(before, q)
    requires |Picked(after, Named(DefaultItemExcludes))| == 1
    ensures DistinctNames(after)
  {
    forall n ensures |Picked(after, Named(n))| <= 1 {
      if n != DefaultItemExcludes {
        assert Picked(after, Named(n)) == Picked(before, Named(n));
        DistinctPicked(before, n);
      }
    }
    PickedDistinct(after);
  }

  lemma ExcludesKept(items: seq<Element>)
    requires ExcludesStep(items).Success?
    requires var others := Picked(ScopeChildren(EditGroups(items, AllPropertyGroups, Drop(ExcludePick)), GlobalGroups), Named(DefaultItemExcludes));
      others != [] && EndsWith(Value(others[0]), NcrunchSuffix)
    ensures var r := ExcludesStep(items).value;
      var before := ScopeChildren(items, GlobalGroups);
      var after := ScopeChildren(r, GlobalGroups);
      (forall q: Pick :: q.name != DefaultItemExcludes ==> Picked(after, q) == Picked(before, q)) &&
      (DistinctNames(before) ==> DistinctNames(after) && ExclusionHeld(after)) &&
      ScopeChildren(r, ItemGroups) == ScopeChildren(items, ItemGroups)
  {
    var before := ScopeChildren(items, GlobalGroups);
    var dropped := EditGroups(items, AllPropertyGroups, Drop(ExcludePick));
    assert ExcludesStep(items).value == dropped;
    DroppedGlobals(items);
    KeptExclusion(before);
  }

  /** The global children once the NCrunch exclusion has been dropped, when the remaining one already excludes NCrunch files. */
  lemma KeptExclusion(before: seq<Element>)
    requires var others := Picked(Unpicked(before, ExcludePick), Named(DefaultItemExcludes));
      others != [] && EndsWith(Value(others[0]), NcrunchSuffix)
    ensures var after := Unpicked(before, ExcludePick);
      (forall q: Pick :: q.name != DefaultItemExcludes ==> Picked(after, q) == Picked(before, q)) &&
      (DistinctNames(before) ==> DistinctNames(after) && ExclusionHeld(after))
  {
    var after := Unpicked(before, ExcludePick);
    forall q: Pick | q.name != DefaultItemExcludes ensures Picked(after, q) == Picked(before, q) {
      UnpickedOther(before, ExcludePick, q);
    }
    if DistinctNames(before) {
      PickedUnpicked(before, ExcludePick, Named(DefaultItemExcludes));
      DistinctPicked(before, DefaultItemExcludes);
      OthersDistinct(before, after);
    }
  }

  lemma ExcludesAssigned(items: seq<Element>)
    requires ExcludesStep(items).Success?
    requires var others := Picked(ScopeChildren(EditGroups(items, AllPropertyGroups, Drop(ExcludePick)), GlobalGroups), Named(DefaultItemExcludes));
      others != [] && !EndsWith(Value(others[0]), NcrunchSuffix)
    ensures var r := ExcludesStep(items).value;
      var before := ScopeChildren(items, GlobalGroups);
      var after := ScopeChildren(r, GlobalGroups);
      (forall q: Pick :: q.name != DefaultItemExcludes ==> Picked(after, q) == Picked(before, q)) &&
      (DistinctNames(before) ==> DistinctNames(after) && ExclusionHeld(after)) &&
      ScopeChildren(r, ItemGroups) == ScopeChildren(items, ItemGroups)
  {
    var before := ScopeChildren(items, GlobalGroups);
    var dropped := EditGroups(items, AllPropertyGroups, Drop(ExcludePick));
    var kept := Unpicked(before, ExcludePick);
    DroppedGlobals(items);
    var others := Picked(kept, Named(DefaultItemExcludes));
    var v := Value(others[0]) + NcrunchSuffix;
    var r := EditGroups(dropped, GlobalGroups, Assign(DefaultItemExcludes, v));
    assert ExcludesStep(items).value == r;
    EditWithin(dropped, GlobalGroups, GlobalGroups, Assign(DefaultItemExcludes, v));
    EditDisjoint(dropped, GlobalGroups, ItemGroups, Assign(DefaultItemExcludes, v));
    assert ScopeChildren(r, GlobalGroups) == SetValues(kept, DefaultItemExcludes, v);
    AssignedExclusion(before);
  }

  /** The global children once the NCrunch exclusion has been dropped and appended to the value of the remaining one. */
  lemma AssignedExclusion(before: seq<Element>)
    requires Picked(Unpicked(before, ExcludePick), Named(DefaultItemExcludes)) != []
    ensures var kept := Unpicked(before, ExcludePick);
      var others := Picked(kept, Named(DefaultItemExcludes));
      var after := SetValues(kept, DefaultItemExcludes, Value(others[0]) + NcrunchSuffix);
      (forall q: Pick :: q.name != DefaultItemExcludes ==> Picked(after, q) == Picked(before, q)) &&
      (DistinctNames(before) ==> DistinctNames(after) && ExclusionHeld(after))
  {
    var kept := Unpicked(before, ExcludePick);
    var others := Picked(kept, Named(DefaultItemExcludes));
    var v := Value(others[0]) + NcrunchSuffix;
    var after := SetValues(kept, DefaultItemExcludes, v);
    forall q: Pick | q.name != DefaultItemExcludes ensures Picked(after, q) == Picked(before, q) {
      SetValuesOther(kept, DefaultItemExcludes, v, q);
      UnpickedOther(before, ExcludePick, q);
    }
    SetValuesSame(kept, DefaultItemExcludes, v);
    if DistinctNames(before) {
      PickedUnpicked(before, ExcludePick, Named(DefaultItemExcludes));
      DistinctPicked(before, DefaultItemExcludes);
      assert |others| == 1;
      assert others == [others[0]];
      assert SetValues(others, DefaultItemExcludes, v) == [WithValue(others[0], v)];
      assert Picked(after, Named(DefaultItemExcludes)) == [WithValue(others[0], v)];
      EndsWithAppended(Value(others[0]), NcrunchSuffix);
      OthersDistinct(before, after);
    }
  }

  /** The value of the first `DefaultItemExcludes` among global children. */
  function ExclusionValue(cs: seq<Element>): string
    requires ExclusionHeld(cs)
  {
    Value(Picked(cs, Named(DefaultItemExcludes))[0])
  }

  /**
   * On global groups that already exclude NCrunch files, the step keeps
   * the single exclusion and its value: an entry that ends with the
   * NCrunch pattern gets no second one.
   */
  lemma ExcludesStepKeepsHeld(items: seq<Element>)
    requires ExcludesStep(items).Success?
    requires ExclusionHeld(ScopeChildren(items, GlobalGroups))
    ensures var after := ScopeChildren(ExcludesStep(items).value, GlobalGroups);
      ExclusionHeld(after) && ExclusionValue(after) == ExclusionValue(ScopeChildren(items, GlobalGroups))
  {
    var before := ScopeChildren(items, GlobalGroups);
    var dropped := EditGroups(items, AllPropertyGroups, Drop(ExcludePick));
    var kept := Unpicked(before, ExcludePick);
    DroppedGlobals(items);
    HeldOthers(before);
    if ExclusionValue(before) == NcrunchExclude {
      var grp := Element("", PropertyGroup, [], "", [ExcludeEntry]);
      assert ExcludesStep(items).value == dropped + [grp];
      AppendGroupScope(dropped, grp, GlobalGroups);
      AppendedHeld(kept);
      assert Value(ExcludeEntry) == NcrunchExclude + "";
    } else {
      assert ExcludesStep(items).value == dropped;
    }
  }

  /** Dropping the NCrunch exclusion from children that hold one `DefaultItemExcludes` leaves it, or nothing when it is that exclusion. */
  lemma HeldOthers(before: seq<Element>)
    requires ExclusionHeld(before)
    ensures var others := Picked(Unpicked(before, ExcludePick), Named(DefaultItemExcludes));
      var e := Picked(before, Named(DefaultItemExcludes))[0];
      (Value(e) == NcrunchExclude ==> others == []) &&
      (Value(e) != NcrunchExclude ==> others == [e])
  {
    var named := Picked(before, Named(DefaultItemExcludes));
    var e := named[0];
    assert e in named;
    assert named == [e];
    PickedUnpicked(before, ExcludePick, Named(DefaultItemExcludes));
    assert Unpicked([e], ExcludePick) == (if Picks(ExcludePick, e) then [] else [e]) + Unpicked([], ExcludePick);
  }

  /**
   * Running the step a second time leaves the value it wrote as it is:
   * on global children with distinct names, a rerun that succeeds keeps
   * one `DefaultItemExcludes`, with the value of the first run.
   */
  lemma ExcludesStepStable(items: seq<Element>)
    requires ExcludesStep(items).Success?
    requires DistinctNames(ScopeChildren(items, GlobalGroups))
    ensures var r := ExcludesStep(items).value;
      ExclusionHeld(ScopeChildren(r, GlobalGroups)) &&
      (ExcludesStep(r).Success? ==>
        var again := ScopeChildren(ExcludesStep(r).value, GlobalGroups);
        ExclusionHeld(again) && ExclusionValue(again) == ExclusionValue(ScopeChildren(r, GlobalGroups)))
  {
    ExcludesStepEffect(items);
    var r := ExcludesStep(items).value;
    if ExcludesStep(r).Success? {
      ExcludesStepKeepsHeld(r);
    }
  }

  /** Every `DefaultItemExcludes` of the global groups is the NCrunch exclusion. */
  predicate NcrunchExcludesOnly(items: seq<Element>)
  {
    forall c :: c in ScopeChildren(items, GlobalGroups) && c.name == DefaultItemExcludes ==> Value(c) == NcrunchExclude
  }

  /** Global groups with the same `DefaultItemExcludes` entries agree on `NcrunchExcludesOnly`. */
  lemma NcrunchExcludesSame(a: seq<Element>, b: seq<Element>)
    requires Picked(ScopeChildren(b, GlobalGroups), Named(DefaultItemExcludes)) == Picked(ScopeChildren(a, GlobalGroups), Named(DefaultItemExcludes))
    ensures NcrunchExcludesOnly(b) <==> NcrunchExcludesOnly(a)
  {
    var pa := Picked(ScopeChildren(a, GlobalGroups), Named(DefaultItemExcludes));
    assert forall c :: c in ScopeChildren(a, GlobalGroups) && c.name == DefaultItemExcludes <==> c in pa;
    assert forall c :: c in ScopeChildren(b, GlobalGroups) && c.name == DefaultItemExcludes <==> c in pa;
  }

  /**
   * Where the global groups hold no `DefaultItemExcludes` but the NCrunch
   * exclusion, the intended step does exactly what the code does.
   */
  lemma ExcludesStepAgrees(items: seq<Element>)
    requires NcrunchExcludesOnly(items)
    ensures ExcludesStep(items) == ExcludesStepAsWritten(items)
  {
    var before := ScopeChildren(items, GlobalGroups);
    DroppedGlobals(items);
    PickedUnpicked(before, ExcludePick, Named(DefaultItemExcludes));
    var named := Picked(before, Named(DefaultItemExcludes));
    forall j | 0 <= j < |named| ensures Picks(ExcludePick, named[j]) {
      assert named[j] in named;
    }
    UnpickedWhenAll(named, ExcludePick);
  }

  // ---------------------------------------------------------------------
  // AddCodeAnalysisPackages

  /** One analyzer package: its `Include`, `Version`, `PrivateAssets` and `IncludeAssets`. */
  datatype AnalyzerPackage = AnalyzerPackage(name: string, version: string, privateAssets: string, includeAssets: string)

  const ClassicAssets := "runtime; build; native; contentfiles; analyzers"
  const TransitiveAssets := "runtime; build; native; contentfiles; analyzers; buildtransitive"

  const Analyzers: seq<AnalyzerPackage> := [
    AnalyzerPackage("Microsoft.CodeAnalysis.FxCopAnalyzers", "2.9.8", "all", ClassicAssets),
    AnalyzerPackage("StyleCop.Analyzers", "1.1.118", "all", ClassicAssets),
    AnalyzerPackage("Vista.CodeAnalysisRuleSet.FxCop", "2.1.0", "all", TransitiveAssets),
    AnalyzerPackage("Vista.CodeAnalysisRuleSet.Global", "2.1.0", "all", TransitiveAssets),
    AnalyzerPackage("Vista.CodeAnalysisRuleSet.StyleCop", "2.1.0", "all", TransitiveAssets)
  ]

  function PackageNames(ps: seq<AnalyzerPackage>): set<string>
  {
    set i | 0 <= i < |ps| :: ps[i].name
  }

  predicate DistinctPackages(ps: seq<AnalyzerPackage>)
  {
    forall i, j :: 0 <= i < j < |ps| ==> ps[i].name != ps[j].name
  }

  /** The `PackageReference` written for a package. */
  function ReferenceFor(p: AnalyzerPackage): (e: Element)
    ensures e.name == PackageReference && Attribute(e, Include) == Some(p.name)
  {
    Element("", PackageReference, [Attr(Include, p.name), Attr(VersionAttribute, p.version)], "",
      [Leaf(PrivateAssets, p.privateAssets), Leaf(IncludeAssets, p.includeAssets)])
  }

  /** The references written for a list of packages, in list order. */
  function ReferencesFor(ps: seq<AnalyzerPackage>): (r: seq<Element>)
    ensures |r| == |ps| && forall i :: 0 <= i < |ps| ==> r[i] == ReferenceFor(ps[i])
  {
    if ps == [] then [] else [ReferenceFor(ps[0])] + ReferencesFor(ps[1..])
  }

  /** Among the references for packages with distinct names, the key of package `i` picks reference `i` alone. */
  lemma {:induction false} ReferencesForKey(ps: seq<AnalyzerPackage>, i: nat)
    requires DistinctPackages(ps) && i < |ps|
    ensures Picked(ReferencesFor(ps), KeyIn(PackageReference, Include, {ps[i].name})) == [ReferenceFor(ps[i])]
  {
    var q := KeyIn(PackageReference, Include, {ps[i].name});
    var rs := ReferencesFor(ps);
    assert rs == [ReferenceFor(ps[0])] + ReferencesFor(ps[1..]);
    PickedConcat([ReferenceFor(ps[0])], ReferencesFor(ps[1..]), q);
    if i == 0 {
      var tail := ReferencesFor(ps[1..]);
      forall j | 0 <= j < |tail| ensures !Picks(q, tail[j]) {
        assert tail[j] == ReferenceFor(ps[j + 1]);
      }
      PickedWhenNone(tail, q);
    } else {
      assert DistinctPackages(ps[1..]) by {
        forall a, b | 0 <= a < b < |ps[1..]| ensures ps[1..][a].name != ps[1..][b].name {
          assert ps[1..][a] == ps[a + 1] && ps[1..][b] == ps[b + 1];
        }
      }
      assert ps[1..][i - 1] == ps[i];
      ReferencesForKey(ps[1..], i - 1);
      assert !Picks(q, ReferenceFor(ps[0]));
    }
  }

  /** A key set that meets no package name picks none of their references. */
  lemma ReferencesForOther(ps: seq<AnalyzerPackage>, keys: set<string>)
    requires keys !! PackageNames(ps)
    ensures Picked(ReferencesFor(ps), KeyIn(PackageReference, Include, keys)) == []
  {
    var rs := ReferencesFor(ps);
    forall j | 0 <= j < |rs| ensures !Picks(KeyIn(PackageReference, Include, keys), rs[j]) {
      assert ps[j].name in PackageNames(ps);
    }
    PickedWhenNone(rs, KeyIn(PackageReference, Include, keys));
  }

  /**
   * `AddCodeAnalysisPackages` for a package list: every package reference
   * whose `Include` names a listed package is removed, and a new item group
   * holding a fresh reference for each listed package, in list order, is
   * appended to `Project`. It fails when a package reference has no
   * `Include` or two share one.
   */
  function PackagesStep(items: seq<Element>, ps: seq<AnalyzerPackage>): (r: Outcome<seq<Element>>)
    ensures r.Success? <==> UniqueAttr(References(items), Include)
    ensures r.Failure? ==> r.error == MissingKey(PackageReference) || r.error.DuplicateKey?
  {
    match PackageReferences(items)
    case Failure(e) => Failure(e)
    case Success(_) =>
      var dropped := EditGroups(items, ItemGroups, Drop(KeyIn(PackageReference, Include, PackageNames(ps))));
      Success(dropped + [Element("", ItemGroup, [], "", ReferencesFor(ps))])
  }

  /** `AddCodeAnalysisPackages` itself, with its five analyzers. */
  function AnalyzersStep(items: seq<Element>): (r: Outcome<seq<Element>>)
    ensures r.Success? <==> UniqueAttr(References(items), Include)
    ensures r.Failure? ==> r.error == MissingKey(PackageReference) || r.error.DuplicateKey?
    ensures r.Success? ==> |r.value| == |items| + 1 && SameHeaders(r.value[..|items|], items)
  {
    PackagesStep(items, Analyzers)
  }

  /**
   * Replace by key: the package references are the old ones not naming a
   * listed package, then the fresh ones in list order, in a new item group
   * that is the last child of `Project`.
   */
  lemma PackagesStepEffect(items: seq<Element>, ps: seq<AnalyzerPackage>)
    requires PackagesStep(items, ps).Success?
    ensures var r := PackagesStep(items, ps).value;
      References(r) == Unpicked(References(items), KeyIn(PackageReference, Include, PackageNames(ps))) + ReferencesFor(ps) &&
      r[|r| - 1] == Element("", ItemGroup, [], "", ReferencesFor(ps))
  {
    var grp := Element("", ItemGroup, [], "", ReferencesFor(ps));
    DropAndAppend(items, ItemGroups, KeyIn(PackageReference, Include, PackageNames(ps)), grp, PackageReference);
    PickedWhenAll(ReferencesFor(ps), Named(PackageReference));
  }

  /** Each listed package has exactly one package reference afterwards: the fresh one. */
  lemma PackagesExactlyOnce(items: seq<Element>, ps: seq<AnalyzerPackage>, i: nat)
    requires PackagesStep(items, ps).Success? && DistinctPackages(ps) && i < |ps|
    ensures Picked(References(PackagesStep(items, ps).value), KeyIn(PackageReference, Include, {ps[i].name})) ==
      [ReferenceFor(ps[i])]
  {
    PackagesStepEffect(items, ps);
    ReplacedOnce(References(items), ps, i);
  }

  lemma ReplacedOnce(refs: seq<Element>, ps: seq<AnalyzerPackage>, i: nat)
    requires DistinctPackages(ps) && i < |ps|
    ensures Picked(Unpicked(refs, KeyIn(PackageReference, Include, PackageNames(ps))) + ReferencesFor(ps),
      KeyIn(PackageReference, Include, {ps[i].name})) == [ReferenceFor(ps[i])]
  {
    var q := KeyIn(PackageReference, Include, {ps[i].name});
    var kept := Unpicked(refs, KeyIn(PackageReference, Include, PackageNames(ps)));
    forall j | 0 <= j < |kept| ensures !Picks(q, kept[j]) {
      assert kept[j] in kept;
      assert ps[i].name in PackageNames(ps);
    }
    PickedWhenNone(kept, q);
    PickedConcat(kept, ReferencesFor(ps), q);
    ReferencesForKey(ps, i);
  }

  /** References to other packages are left as they were, in order. */
  lemma PackagesKeepOthers(items: seq<Element>, ps: seq<AnalyzerPackage>, keys: set<string>)
    requires PackagesStep(items, ps).Success?
    requires keys !! PackageNames(ps)
    ensures Picked(References(PackagesStep(items, ps).value), KeyIn(PackageReference, Include, keys)) ==
      Picked(References(items), KeyIn(PackageReference, Include, keys))
  {
    PackagesStepEffect(items, ps);
    ReplacedKeepsOthers(References(items), ps, keys);
  }

  lemma ReplacedKeepsOthers(refs: seq<Element>, ps: seq<AnalyzerPackage>, keys: set<string>)
    requires keys !! PackageNames(ps)
    ensures Picked(Unpicked(refs, KeyIn(PackageReference, Include, PackageNames(ps))) + ReferencesFor(ps),
      KeyIn(PackageReference, Include, keys)) == Picked(refs, KeyIn(PackageReference, Include, keys))
  {
    var q := KeyIn(PackageReference, Include, keys);
    var drop := KeyIn(PackageReference, Include, PackageNames(ps));
    PickedConcat(Unpicked(refs, drop), ReferencesFor(ps), q);
    ReferencesForOther(ps, keys);
    PickedUnpicked(refs, drop, q);
    var picked := Picked(refs, q);
    forall j | 0 <= j < |picked| ensures !Picks(drop, picked[j]) {
      assert picked[j] in picked;
    }
    UnpickedWhenNone(picked, drop);
  }

  /** A `Vista.CodeContracts` reference exists exactly when its key picks one. */
  lemma CodeContractsPicked(items: seq<Element>)
    ensures ReferencesCodeContracts(items) <==>
      Picked(References(items), KeyIn(PackageReference, Include, {CodeContractsPackage})) != []
  {
    var q := KeyIn(PackageReference, Include, {CodeContractsPackage});
    var ps := Picked(References(items), q);
    if ReferencesCodeContracts(items) {
      var c :| c in References(items) && Attribute(c, Include) == Some(CodeContractsPackage);
      assert c.name == PackageReference;
      assert c in ps;
    }
    if ps != [] {
      assert ps[0] in ps;
    }
  }

  /**
   * A package list without `Vista.CodeContracts` keeps the `Vista.CodeContracts`
   * references as they were, in order, and so cannot change the define decision.
   */
  lemma PackagesKeepCodeContracts(items: seq<Element>, ps: seq<AnalyzerPackage>)
    requires PackagesStep(items, ps).Success? && CodeContractsPackage !in PackageNames(ps)
    ensures Picked(References(PackagesStep(items, ps).value), KeyIn(PackageReference, Include, {CodeContractsPackage})) ==
      Picked(References(items), KeyIn(PackageReference, Include, {CodeContractsPackage}))
    ensures ReferencesCodeContracts(PackagesStep(items, ps).value) <==> ReferencesCodeContracts(items)
  {
    PackagesKeepOthers(items, ps, {CodeContractsPackage});
    CodeContractsPicked(items);
    CodeContractsPicked(PackagesStep(items, ps).value);
  }

  /** The five analyzers have distinct names, none of them `Vista.CodeContracts`. */
  lemma AnalyzersNames()
    ensures DistinctPackages(Analyzers) && CodeContractsPackage !in PackageNames(Analyzers)
  {
  }

  // ---------------------------------------------------------------------
  // AddStyleCop

  const StyleCopEntry := Element("", AdditionalFiles, [Attr(Include, StyleCopInclude), Attr(Link, StyleCopJson)], "", [])
  const StyleCopPick := KeyContaining(AdditionalFiles, Include, StyleCopJson)

  /**
   * `AddStyleCop`: every `AdditionalFiles` of any item group whose
   * `Include` contains `stylecop.json` is removed, and a new item group
   * holding the one StyleCop entry is appended. It fails when an
   * additional-files entry has no `Include` or two share one.
   */
  function StyleCopStep(items: seq<Element>): (r: Outcome<seq<Element>>)
    ensures r.Success? <==> UniqueAttr(AdditionalFileEntries(items), Include)
    ensures r.Failure? ==> r.error == MissingKey(AdditionalFiles) || r.error.DuplicateKey?
  {
    match AdditionalFilesByInclude(items)
    case Failure(e) => Failure(e)
    case Success(_) =>
      var dropped := EditGroups(items, ItemGroups, Drop(StyleCopPick));
      Success(dropped + [Element("", ItemGroup, [], "", [StyleCopEntry])])
  }

  /**
   * Replace by key: the additional-files entries are the old ones not
   * about `stylecop.json`, then exactly one StyleCop entry.
   */
  lemma StyleCopStepEffect(items: seq<Element>)
    requires StyleCopStep(items).Success?
    ensures var r := StyleCopStep(items).value;
      AdditionalFileEntries(r) == Unpicked(AdditionalFileEntries(items), StyleCopPick) + [StyleCopEntry] &&
      Picked(AdditionalFileEntries(r), StyleCopPick) == [StyleCopEntry]
  {
    var grp := Element("", ItemGroup, [], "", [StyleCopEntry]);
    DropAndAppend(items, ItemGroups, StyleCopPick, grp, AdditionalFiles);
    assert Picked([StyleCopEntry], Named(AdditionalFiles)) == [StyleCopEntry];
    ReplacedPicked(AdditionalFileEntries(items), [StyleCopEntry], StyleCopPick);
    StyleCopEntryPicked();
    PickedWhenAll([StyleCopEntry], StyleCopPick);
  }

  /** The new entry is itself one the step removes on a later run. */
  lemma StyleCopEntryPicked()
    ensures Picks(StyleCopPick, StyleCopEntry)
  {
    assert Attribute(StyleCopEntry, Include) == Some(StyleCopInclude);
    assert StyleCopInclude[6..6 + |StyleCopJson|] == StyleCopJson;
    assert OccursAt(StyleCopInclude, StyleCopJson, 6);
  }

  // ---------------------------------------------------------------------
  // SetProjectFile

  /**
   * The steps of `SetProjectFile` ahead of the prune, in source order: the
   * property-group steps, then the package references, then the StyleCop
   * item. The first failing step fails them all.
   */
  function MergeSteps(items: seq<Element>, asm: string): Outcome<seq<Element>>
  {
    var d :- PropertySteps(items, asm);
    var e :- ExcludesStep(d);
    ItemSteps(e)
  }

  /** The property-group steps ahead of the exclusion, in source order. */
  function PropertySteps(items: seq<Element>, asm: string): Outcome<seq<Element>>
  {
    var a :- TargetFrameworksStep(items);
    var b :- GlobalStep(a, asm);
    var c :- ConfigurationStep(b, Debug);
    ConfigurationStep(c, Release)
  }

  /** The item steps after the exclusion: the analyzer references, then the StyleCop entry. */
  function ItemSteps(e: seq<Element>): Outcome<seq<Element>>
  {
    var f :- AnalyzersStep(e);
    StyleCopStep(f)
  }

  /** `SetProjectFile` on a parsed document: the steps, then the prune. */
  function MigrateProject(items: seq<Element>, asm: string): (r: Outcome<seq<Element>>)
    ensures r.Success? <==> MergeSteps(items, asm).Success?
    ensures r.Failure? ==> r.error == MergeSteps(items, asm).error
    ensures r.Success? ==> |r.value| <= |MergeSteps(items, asm).value|
  {
    var h :- MergeSteps(items, asm);
    Success(PruneAll(h))
  }

  /** The steps as the code has them, with `AddDefaultItemExcludes` as written. */
  function MergeStepsAsWritten(items: seq<Element>, asm: string): (r: Outcome<seq<Element>>)
    ensures PropertySteps(items, asm).Failure? ==> r == Failure(PropertySteps(items, asm).error)
    ensures PropertySteps(items, asm).Success? && ExcludesStepAsWritten(PropertySteps(items, asm).value).Failure? ==>
      r.Failure? && r.error.DuplicateKey?
  {
    var d :- PropertySteps(items, asm);
    var e :- ExcludesStepAsWritten(d);
    ItemSteps(e)
  }

  /** `SetProjectFile` as the code has it: the steps as written, then the prune. */
  function MigrateProjectAsWritten(items: seq<Element>, asm: string): (r: Outcome<seq<Element>>)
    ensures r.Success? <==> MergeStepsAsWritten(items, asm).Success?
    ensures r.Failure? ==> r.error == MergeStepsAsWritten(items, asm).error
    ensures r.Success? ==> |r.value| <= |MergeStepsAsWritten(items, asm).value|
  {
    var h :- MergeStepsAsWritten(items, asm);
    Success(PruneAll(h))
  }

  /** Writing the merged frameworks touches no global `DefaultItemExcludes`. */
  lemma TargetFrameworksStepExcludes(items: seq<Element>)
    requires TargetFrameworksStep(items).Success?
    ensures NcrunchExcludesOnly(TargetFrameworksStep(items).value) <==> NcrunchExcludesOnly(items)
  {
    var d := PropertyGroupsElements(items, "", "").value;
    var ed := Assign(TargetFrameworks, Join(MergeFrameworks(Split(Value(d[TargetFrameworks])))));
    EditWithin(items, GlobalGroups, GlobalGroups, ed);
    assert TargetFrameworks != DefaultItemExcludes by {
      assert TargetFrameworks[0] != DefaultItemExcludes[0];
    }
    SetValuesOther(ScopeChildren(items, GlobalGroups), ed.name, ed.value, Named(DefaultItemExcludes));
    NcrunchExcludesSame(items, TargetFrameworksStep(items).value);
  }

  /** The global overrides touch no global `DefaultItemExcludes`. */
  lemma GlobalStepExcludes(items: seq<Element>, asm: string)
    requires GlobalStep(items, asm).Success?
    ensures NcrunchExcludesOnly(GlobalStep(items, asm).value) <==> NcrunchExcludesOnly(items)
  {
    GlobalStepEffect(items, asm);
    GlobalSettingsNames(asm);
    assert DefaultItemExcludes !in SettingNames(GlobalSettings(asm));
    NcrunchExcludesSame(items, GlobalStep(items, asm).value);
  }

  /**
   * Where the input's global groups hold no `DefaultItemExcludes` but the
   * NCrunch exclusion, the merge with the corrected exclusion step is the
   * merge as written: the steps ahead of it leave those entries alone.
   */
  lemma MergeStepsAgrees(items: seq<Element>, asm: string)
    requires NcrunchExcludesOnly(items)
    ensures MergeSteps(items, asm) == MergeStepsAsWritten(items, asm)
  {
    if PropertySteps(items, asm).Success? {
      PropertyStepsExcludes(items, asm);
      ExcludesStepAgrees(PropertySteps(items, asm).value);
    }
  }

  /** The property-group steps touch no global `DefaultItemExcludes`. */
  lemma PropertyStepsExcludes(items: seq<Element>, asm: string)
    requires PropertySteps(items, asm).Success?
    ensures NcrunchExcludesOnly(PropertySteps(items, asm).value) <==> NcrunchExcludesOnly(items)
  {
    var a := TargetFrameworksStep(items).value;
    var b := GlobalStep(a, asm).value;
    var c := ConfigurationStep(b, Debug).value;
    TargetFrameworksStepExcludes(items);
    GlobalStepExcludes(a, asm);
    ConfigurationStepGlobals(b, Debug);
    ConfigurationStepGlobals(c, Release);
  }

  /** On the same inputs, `SetProjectFile` as modelled is `SetProjectFile` as written. */
  lemma MigrateProjectAgrees(items: seq<Element>, asm: string)
    requires NcrunchExcludesOnly(items)
    ensures MigrateProject(items, asm) == MigrateProjectAsWritten(items, asm)
  {
    MergeStepsAgrees(items, asm);
  }

  // ---------------------------------------------------------------------
  // What the merge as a whole leaves

  /**
   * `GetAllTargetFrameworks` succeeds exactly when the global children have
   * distinct names and one of them is `TargetFrameworks`, and then reads
   * the segments of that one.
   */
  lemma FrameworksRead(items: seq<Element>)
    ensures var cs := ScopeChildren(items, GlobalGroups);
      AllTargetFrameworks(items).Success? <==> DistinctNames(cs) && Picked(cs, Named(TargetFrameworks)) != []
    ensures var cs := ScopeChildren(items, GlobalGroups);
      AllTargetFrameworks(items).Success? ==>
        |Picked(cs, Named(TargetFrameworks))| == 1 &&
        AllTargetFrameworks(items).value == Split(Value(Picked(cs, Named(TargetFrameworks))[0]))
  {
    var cs := ScopeChildren(items, GlobalGroups);
    GlobalFilter();
    if DistinctNames(cs) {
      var d := PropertyGroupsElements(items, "", "").value;
      DictionaryPicked(cs, d, TargetFrameworks);
    }
  }

  /** After `SetGlobalPropertyGroupItems` the global children still have distinct names. */
  lemma GlobalStepDistinct(items: seq<Element>, asm: string)
    requires GlobalStep(items, asm).Success?
    ensures DistinctNames(ScopeChildren(GlobalStep(items, asm).value, GlobalGroups))
  {
    GlobalStepEffect(items, asm);
    var d := PropertyGroupsElements(items, "", "").value;
    UpsertKeepsDistinct(ScopeChildren(items, GlobalGroups), ScopeChildren(GlobalStep(items, asm).value, GlobalGroups), GlobalSettings(asm), d);
  }

  /** Children with distinct names keep them when each setting's name ends up held once and every other name is untouched. */
  lemma UpsertKeepsDistinct(before: seq<Element>, after: seq<Element>, ss: seq<Setting>, d: map<string, Element>)
    requires DistinctNames(before)
    requires forall i :: 0 <= i < |ss| ==> Picked(after, Named(ss[i].name)) == [UpsertedFrom(ss[i], d)]
    requires forall q: Pick :: q.name !in SettingNames(ss) ==> Picked(after, q) == Picked(before, q)
    ensures DistinctNames(after)
  {
    forall n ensures |Picked(after, Named(n))| <= 1 {
      if n in SettingNames(ss) {
        var i :| 0 <= i < |ss| && ss[i].name == n;
      } else {
        assert Picked(after, Named(n)) == Picked(before, Named(n));
        DistinctPicked(before, n);
      }
    }
    PickedDistinct(after);
  }

  /** The configuration steps leave the global groups as they were. */
  lemma ConfigurationStepGlobals(items: seq<Element>, cfg: Configuration)
    requires ConfigurationStep(items, cfg).Success?
    ensures ScopeChildren(ConfigurationStep(items, cfg).value, GlobalGroups) == ScopeChildren(items, GlobalGroups)
  {
    var (grown, g) := ConfiguredGroup(items, cfg);
    var s := ConfigurationGroups(cfg);
    ConditionFilter(cfg);
    var d := PropertyGroupsElements(grown, Condition, ConditionOf(cfg)).value;
    var contracts := ShouldIncludeCodeOfConduct(grown).value;
    var ss := ConfigurationSettings(cfg, contracts);
    assert ConfigurationStep(items, cfg) == Success(UpsertAll(grown, s, g, d.Keys, ss));
    UpsertAllDisjoint(grown, s, g, d.Keys, ss, GlobalGroups);
    if FirstIndex(items, s).None? {
      AppendGroupScope(items, NewConfigurationGroup(cfg), GlobalGroups);
    }
  }

  /** The analyzer step leaves the global groups as they were. */
  lemma AnalyzersStepGlobals(items: seq<Element>)
    requires AnalyzersStep(items).Success?
    ensures ScopeChildren(AnalyzersStep(items).value, GlobalGroups) == ScopeChildren(items, GlobalGroups)
  {
    var grp := Element("", ItemGroup, [], "", ReferencesFor(Analyzers));
    DropAndAppendDisjoint(items, ItemGroups, KeyIn(PackageReference, Include, PackageNames(Analyzers)), grp, GlobalGroups);
  }

  /** The StyleCop step leaves the global groups and the package references as they were. */
  lemma StyleCopStepKeeps(items: seq<Element>)
    requires StyleCopStep(items).Success?
    ensures ScopeChildren(StyleCopStep(items).value, GlobalGroups) == ScopeChildren(items, GlobalGroups)
    ensures References(StyleCopStep(items).value) == References(items)
  {
    var grp := Element("", ItemGroup, [], "", [StyleCopEntry]);
    DropAndAppendDisjoint(items, ItemGroups, StyleCopPick, grp, GlobalGroups);
    DropAndAppend(items, ItemGroups, StyleCopPick, grp, PackageReference);
    var refs := References(items);
    forall j | 0 <= j < |refs| ensures !Picks(StyleCopPick, refs[j]) {
      assert refs[j] in refs;
    }
    UnpickedWhenNone(refs, StyleCopPick);
    PickedOneOther(StyleCopEntry, Named(PackageReference));
  }

  /**
   * What the steps ahead of the prune leave, against the input: the global
   * children have distinct names; `TargetFrameworks` is held once, with
   * the merged list; each global override is held as the list says; one
   * `DefaultItemExcludes` excludes NCrunch files; each analyzer has exactly
   * its fresh reference; and the StyleCop entry is the one entry about
   * `stylecop.json`.
   */
  lemma MergeStepsEffect(items: seq<Element>, asm: string)
    requires MergeSteps(items, asm).Success?
    ensures var h := MergeSteps(items, asm).value;
      var globals := ScopeChildren(h, GlobalGroups);
      AllTargetFrameworks(items).Success? &&
      DistinctNames(globals) &&
      |Picked(globals, Named(TargetFrameworks))| == 1 &&
      Split(Value(Picked(globals, Named(TargetFrameworks))[0])) == MergeFrameworks(AllTargetFrameworks(items).value) &&
      (forall i :: 0 <= i < |GlobalSettings(asm)| ==> SettingHeld(globals, GlobalSettings(asm)[i])) &&
      ExclusionHeld(globals) &&
      (forall i :: 0 <= i < |Analyzers| ==>
        Picked(References(h), KeyIn(PackageReference, Include, {Analyzers[i].name})) == [ReferenceFor(Analyzers[i])]) &&
      Picked(AdditionalFileEntries(h), StyleCopPick) == [StyleCopEntry]
  {
    var a := TargetFrameworksStep(items).value;
    var b := GlobalStep(a, asm).value;
    var c := ConfigurationStep(b, Debug).value;
    var d := ConfigurationStep(c, Release).value;
    assert PropertySteps(items, asm) == Success(d);
    var e := ExcludesStep(d).value;
    var f := AnalyzersStep(e).value;
    var h := StyleCopStep(f).value;
    assert ItemSteps(e) == Success(h);
    TargetFrameworksStepEffect(items);
    FrameworksRead(a);
    GlobalStepEffect(a, asm);
    GlobalStepDistinct(a, asm);
    ConfigurationStepGlobals(b, Debug);
    ConfigurationStepGlobals(c, Release);
    ExcludesStepEffect(d);
    AnalyzersStepGlobals(e);
    StyleCopStepKeeps(f);
    GlobalSettingsNames(asm);
    MergedGlobals(ScopeChildren(a, GlobalGroups), ScopeChildren(b, GlobalGroups), ScopeChildren(h, GlobalGroups),
      GlobalSettings(asm), PropertyGroupsElements(a, "", "").value);
    AnalyzersNames();
    forall i | 0 <= i < |Analyzers|
      ensures Picked(References(h), KeyIn(PackageReference, Include, {Analyzers[i].name})) == [ReferenceFor(Analyzers[i])]
    {
      PackagesExactlyOnce(e, Analyzers, i);
    }
    StyleCopStepEffect(f);
  }

  /** The global children through the steps, from what each step keeps. */
  lemma MergedGlobals(ga: seq<Element>, gb: seq<Element>, gh: seq<Element>, ss: seq<Setting>, dict: map<string, Element>)
    requires TargetFrameworks !in SettingNames(ss)
    requires forall i :: 0 <= i < |ss| ==> ss[i].name != DefaultItemExcludes
    requires forall i :: 0 <= i < |ss| ==> Picked(gb, Named(ss[i].name)) == [UpsertedFrom(ss[i], dict)]
    requires forall q: Pick :: q.name !in SettingNames(ss) ==> Picked(gb, q) == Picked(ga, q)
    requires forall q: Pick :: q.name != DefaultItemExcludes ==> Picked(gh, q) == Picked(gb, q)
    ensures Picked(gh, Named(TargetFrameworks)) == Picked(ga, Named(TargetFrameworks))
    ensures forall i :: 0 <= i < |ss| ==> SettingHeld(gh, ss[i])
  {
    assert Picked(gh, Named(TargetFrameworks)) == Picked(gb, Named(TargetFrameworks));
    forall i | 0 <= i < |ss| ensures SettingHeld(gh, ss[i]) {
      assert Picked(gh, Named(ss[i].name)) == [UpsertedFrom(ss[i], dict)];
    }
  }

  /** The global overrides are neither `TargetFrameworks`, nor `DefaultItemExcludes`, nor a group. */
  lemma GlobalSettingsNames(asm: string)
    ensures TargetFrameworks !in SettingNames(GlobalSettings(asm))
    ensures forall i :: 0 <= i < |GlobalSettings(asm)| ==>
      GlobalSettings(asm)[i].name != DefaultItemExcludes && !IsGroupName(GlobalSettings(asm)[i].name)
  {
    var ss := GlobalSettings(asm);
    forall i | 0 <= i < |ss| ensures ss[i].name != TargetFrameworks {
      assert ss[i].name[0] != 'T' || |ss[i].name| != |TargetFrameworks|;
    }
  }

  /** A held override is still held after the prune. */
  lemma PrunedSetting(cs: seq<Element>, s: Setting)
    requires SettingHeld(cs, s) && !IsGroupName(s.name)
    ensures SettingHeld(PruneAll(cs), s)
  {
    var x := Picked(cs, Named(s.name))[0];
    assert x in Picked(cs, Named(s.name));
    PrunedPick(cs, Named(s.name), x);
  }

  /** The one NCrunch-excluding `DefaultItemExcludes` is still there after the prune. */
  lemma PrunedExclusion(cs: seq<Element>)
    requires ExclusionHeld(cs)
    ensures ExclusionHeld(PruneAll(cs))
  {
    var x := Picked(cs, Named(DefaultItemExcludes))[0];
    assert x in Picked(cs, Named(DefaultItemExcludes));
    assert Picked(cs, Named(DefaultItemExcludes)) == [x];
    PrunedPick(cs, Named(DefaultItemExcludes), x);
  }

  /** A fresh package reference holds only plain properties, so the prune leaves it as it is. */
  lemma ReferencePruned(refs: seq<Element>, p: AnalyzerPackage, q: Pick)
    requires Picked(refs, q) == [ReferenceFor(p)]
    ensures Picked(PruneAll(refs), q) == [ReferenceFor(p)]
  {
    var e := ReferenceFor(p);
    PrunePicked(refs, q);
    PruneSingle(e);
  }

  /** The global `TargetFrameworks` is read the same after the prune. */
  lemma PrunedFrameworks(h: seq<Element>)
    requires var gh := ScopeChildren(h, GlobalGroups);
      DistinctNames(gh) && |Picked(gh, Named(TargetFrameworks))| == 1
    ensures var gh := ScopeChildren(h, GlobalGroups);
      AllTargetFrameworks(PruneAll(h)) == Success(Split(Value(Picked(gh, Named(TargetFrameworks))[0])))
  {
    var gh := ScopeChildren(h, GlobalGroups);
    var t := Picked(gh, Named(TargetFrameworks))[0];
    assert t in Picked(gh, Named(TargetFrameworks));
    assert Picked(gh, Named(TargetFrameworks)) == [t];
    PruneScope(h, GlobalGroups);
    PruneDistinct(gh);
    PrunedPick(gh, Named(TargetFrameworks), t);
    FrameworksRead(PruneAll(h));
  }

  /**
   * What `SetProjectFile` promises for the file it saves: `GetAllTargetFrameworks`
   * reads back the merged list of the input's frameworks; each global
   * override is held exactly once as the list says; the global groups hold
   * one `DefaultItemExcludes`, which excludes NCrunch files; each analyzer
   * package has exactly its fresh reference; and the one entry about
   * `stylecop.json` is the new StyleCop entry.
   */
  lemma MigrateProjectEffect(items: seq<Element>, asm: string)
    requires MigrateProject(items, asm).Success?
    ensures var r := MigrateProject(items, asm).value;
      var globals := ScopeChildren(r, GlobalGroups);
      AllTargetFrameworks(items).Success? &&
      AllTargetFrameworks(r) == Success(MergeFrameworks(AllTargetFrameworks(items).value)) &&
      (forall i :: 0 <= i < |GlobalSettings(asm)| ==> SettingHeld(globals, GlobalSettings(asm)[i])) &&
      ExclusionHeld(globals) &&
      (forall i :: 0 <= i < |Analyzers| ==>
        Picked(References(r), KeyIn(PackageReference, Include, {Analyzers[i].name})) == [ReferenceFor(Analyzers[i])]) &&
      Picked(AdditionalFileEntries(r), StyleCopPick) == [StyleCopEntry]
  {
    var h := MergeSteps(items, asm).value;
    assert MigrateProject(items, asm) == Success(PruneAll(h));
    MergeStepsEffect(items, asm);
    PrunedFrameworks(h);
    GlobalSettingsNames(asm);
    PrunedGlobals(h, GlobalSettings(asm));
    PrunedItems(h);
  }

  /** The overrides and the exclusion of the global groups, through the prune. */
  lemma PrunedGlobals(h: seq<Element>, ss: seq<Setting>)
    requires forall i :: 0 <= i < |ss| ==> !IsGroupName(ss[i].name)
    requires forall i :: 0 <= i < |ss| ==> SettingHeld(ScopeChildren(h, GlobalGroups), ss[i])
    requires ExclusionHeld(ScopeChildren(h, GlobalGroups))
    ensures forall i :: 0 <= i < |ss| ==> SettingHeld(ScopeChildren(PruneAll(h), GlobalGroups), ss[i])
    ensures ExclusionHeld(ScopeChildren(PruneAll(h), GlobalGroups))
  {
    var gh := ScopeChildren(h, GlobalGroups);
    PruneScope(h, GlobalGroups);
    forall i | 0 <= i < |ss| ensures SettingHeld(PruneAll(gh), ss[i]) {
      PrunedSetting(gh, ss[i]);
    }
    PrunedExclusion(gh);
  }

  /** The analyzer references and the StyleCop entry, through the prune. */
  lemma PrunedItems(h: seq<Element>)
    requires forall i :: 0 <= i < |Analyzers| ==>
      Picked(References(h), KeyIn(PackageReference, Include, {Analyzers[i].name})) == [ReferenceFor(Analyzers[i])]
    requires Picked(AdditionalFileEntries(h), StyleCopPick) == [StyleCopEntry]
    ensures forall i :: 0 <= i < |Analyzers| ==>
      Picked(References(PruneAll(h)), KeyIn(PackageReference, Include, {Analyzers[i].name})) == [ReferenceFor(Analyzers[i])]
    ensures Picked(AdditionalFileEntries(PruneAll(h)), StyleCopPick) == [StyleCopEntry]
  {
    ItemPicksPruned(h);
    AnalyzersPruned(References(h));
    PrunedPick(AdditionalFileEntries(h), StyleCopPick, StyleCopEntry);
  }

  /** The references and additional files of the pruned document are those of the input, pruned. */
  lemma ItemPicksPruned(h: seq<Element>)
    ensures References(PruneAll(h)) == PruneAll(References(h))
    ensures AdditionalFileEntries(PruneAll(h)) == PruneAll(AdditionalFileEntries(h))
  {
    PruneScope(h, ItemGroups);
    PrunePicked(ScopeChildren(h, ItemGroups), Named(PackageReference));
    PrunePicked(ScopeChildren(h, ItemGroups), Named(AdditionalFiles));
  }

  /** Pruning a reference list keeps every analyzer's single reference. */
  lemma AnalyzersPruned(refs: seq<Element>)
    requires forall i :: 0 <= i < |Analyzers| ==>
      Picked(refs, KeyIn(PackageReference, Include, {Analyzers[i].name})) == [ReferenceFor(Analyzers[i])]
    ensures forall i :: 0 <= i < |Analyzers| ==>
      Picked(PruneAll(refs), KeyIn(PackageReference, Include, {Analyzers[i].name})) == [ReferenceFor(Analyzers[i])]
  {
    forall i | 0 <= i < |Analyzers|
      ensures Picked(PruneAll(refs), KeyIn(PackageReference, Include, {Analyzers[i].name})) == [ReferenceFor(Analyzers[i])]
    {
      ReferencePruned(refs, Analyzers[i], KeyIn(PackageReference, Include, {Analyzers[i].name}));
    }
  }

  /**
   * The define decision uses the document as it was before this run: the
   * steps ahead of `SetDebugPropertyGroupItems` leave every item group as
   * it was, so the Debug group is given the code-contracts symbol exactly
   * when the input references `Vista.CodeContracts`.
   */
  lemma DefineDecisionUsesInput(items: seq<Element>, asm: string)
    requires TargetFrameworksStep(items).Success?
    requires GlobalStep(TargetFrameworksStep(items).value, asm).Success?
    ensures References(GlobalStep(TargetFrameworksStep(items).value, asm).value) == References(items)
  {
    var a := TargetFrameworksStep(items).value;
    var d := PropertyGroupsElements(items, "", "").value;
    var merged := MergeFrameworks(Split(Value(d[TargetFrameworks])));
    EditDisjoint(items, GlobalGroups, ItemGroups, Assign(TargetFrameworks, Join(merged)));
    GlobalStepEffect(a, asm);
  }

  /** The `Select` over the package list, one fresh reference per package in list order. */
  method BuildReferences(packages: seq<AnalyzerPackage>) returns (references: seq<Element>)
    ensures references == ReferencesFor(packages)
  {
    references := [];
    var i := 0;
    while i < |packages|
      invariant 0 <= i <= |packages|
      invariant |references| == i && forall k :: 0 <= k < i ==> references[k] == ReferenceFor(packages[k])
    {
      references := references + [ReferenceFor(packages[i])];
      i := i + 1;
    }
    var all := ReferencesFor(packages);
    assert |all| == |references| && forall k :: 0 <= k < |all| ==> all[k] == references[k];
  }

  // ---------------------------------------------------------------------
  // The document, changed in place

  /** A parsed project file: the children of its `Project` element. */
  class ProjectDocument {
    var items: seq<Element>

    constructor (items: seq<Element>)
      ensures this.items == items
    {
      this.items := items;
    }

    method SetTargetFrameworks() returns (err: Option<Error>)
      modifies this
      ensures Applied(old(items), TargetFrameworksStep(old(items)), err, items)
    {
      var d := PropertyGroupsElements(items, "", "");
      if d.Failure? {
        return Some(d.error);
      }
      if TargetFrameworks !in d.value {
        return Some(NoTargetFrameworks);
      }
      var merged := MergeTargetFrameworks(Split(Value(d.value[TargetFrameworks])));
      items := EditGroups(items, GlobalGroups, Assign(TargetFrameworks, Join(merged)));
      return None;
    }

    method SetGlobalPropertyGroupItems(asm: string) returns (err: Option<Error>)
      modifies this
      ensures Applied(old(items), GlobalStep(old(items), asm), err, items)
    {
      var g := PropertyGroupIndex(items, "", "");
      if g.None? {
        return Some(NoGlobalPropertyGroup);
      }
      var d := PropertyGroupsElements(items, "", "");
      if d.Failure? {
        return Some(d.error);
      }
      items := ApplySettings(items, GlobalGroups, g.value, d.value.Keys, GlobalSettings(asm));
      return None;
    }

    method SetConfigurationPropertyGroupItems(cfg: Configuration) returns (err: Option<Error>)
      modifies this
      ensures Applied(old(items), ConfigurationStep(old(items), cfg), err, items)
    {
      var (grown, g) := ConfiguredGroup(items, cfg);
      var d := PropertyGroupsElements(grown, Condition, ConditionOf(cfg));
      if d.Failure? {
        return Some(d.error);
      }
      var contracts := ShouldIncludeCodeOfConduct(grown);
      if contracts.Failure? {
        return Some(contracts.error);
      }
      items := ApplySettings(grown, ConfigurationGroups(cfg), g, d.value.Keys, ConfigurationSettings(cfg, contracts.value));
      return None;
    }

    method AddDefaultItemExcludes() returns (err: Option<Error>)
      modifies this
      ensures Applied(old(items), ExcludesStep(old(items)), err, items)
    {
      var d := DefaultItemExcludesByValue(items);
      if d.Failure? {
        return Some(d.error);
      }
      items := EditGroups(items, AllPropertyGroups, Drop(ExcludePick));
      var others := Picked(ScopeChildren(items, GlobalGroups), Named(DefaultItemExcludes));
      if others == [] {
        items := items + [Element("", PropertyGroup, [], "", [ExcludeEntry])];
      } else if !EndsWith(Value(others[0]), NcrunchSuffix) {
        items := EditGroups(items, GlobalGroups, Assign(DefaultItemExcludes, Value(others[0]) + NcrunchSuffix));
      }
      return None;
    }

    /** `AddCodeAnalysisPackages` for a package list. */
    method AddPackages(packages: seq<AnalyzerPackage>) returns (err: Option<Error>)
      modifies this
      ensures Applied(old(items), PackagesStep(old(items), packages), err, items)
    {
      var d := PackageReferences(items);
      if d.Failure? {
        return Some(d.error);
      }
      var dropped := EditGroups(items, ItemGroups, Drop(KeyIn(PackageReference, Include, PackageNames(packages))));
      var references := BuildReferences(packages);
      items := dropped + [Element("", ItemGroup, [], "", references)];
      return None;
    }

    method AddCodeAnalysisPackages() returns (err: Option<Error>)
      modifies this
      ensures Applied(old(items), AnalyzersStep(old(items)), err, items)
    {
      err := AddPackages(Analyzers);
    }

    method AddStyleCop() returns (err: Option<Error>)
      modifies this
      ensures Applied(old(items), StyleCopStep(old(items)), err, items)
    {
      var d := AdditionalFilesByInclude(items);
      if d.Failure? {
        return Some(d.error);
      }
      items := EditGroups(items, ItemGroups, Drop(StyleCopPick));
      items := items + [Element("", ItemGroup, [], "", [StyleCopEntry])];
      return None;
    }

    method PruneEmptyGroups()
      modifies this
      ensures items == PruneAll(old(items))
    {
      items := PruneAll(items);
    }

    /**
     * `SetProjectFile`: the steps in source order. On a failure the
     * document is given back as it was loaded, since the source never
     * saves it.
     */
    method SetProjectFile(asm: string) returns (err: Option<Error>)
      modifies this
      ensures Applied(old(items), MigrateProject(old(items), asm), err, items)
    {
      var loaded := items;
      err := SetTargetFrameworks();
      if err.None? { err := SetGlobalPropertyGroupItems(asm); }
      if err.None? { err := SetConfigurationPropertyGroupItems(Debug); }
      if err.None? { err := SetConfigurationPropertyGroupItems(Release); }
      if err.None? { err := AddDefaultItemExcludes(); }
      if err.None? { err := AddCodeAnalysisPackages(); }
      if err.None? { err := AddStyleCop(); }
      if err.Some? {
        items := loaded;
        return;
      }
      PruneEmptyGroups();
    }
  }
}

=== FILE: prune.dfy ===
/**
 * The clean-up at the end of `SetProjectFile`: every `PropertyGroup` and
 * every `ItemGroup`, at any depth, that has no child node is removed. The
 * candidates are collected on the tree as it is before the first removal,
 * so a group that only held removed groups is not itself removed.
 */
module Prune {
  import opened Xml
  import opened Lookup

  predicate IsGroupName(name: string)
  {
    name == PropertyGroup || name == ItemGroup
  }

  /**
   * A group with no child node. The source also asks for an empty or blank
   * value, which every element without nodes has.
   */
  predicate Removable(e: Element)
  {
    IsGroupName(e.name) && !HasNodes(e)
  }

  /** An element with its removable descendants taken out. */
  function PruneTree(e: Element): Element
    decreases e, 1
  {
    e.(children := PruneAll(e.children))
  }

  /** The removable elements taken out of a sequence of siblings, the others pruned in turn. */
  function PruneAll(cs: seq<Element>): (r: seq<Element>)
    ensures |r| <= |cs|
    decreases cs, 0
  {
    if cs == [] then []
    else (if Removable(cs[0]) then [] else [PruneTree(cs[0])]) + PruneAll(cs[1..])
  }

  /** The siblings that are not removable, in their order. */
  function Kept(cs: seq<Element>): (r: seq<Element>)
    ensures |r| <= |cs|
    ensures forall x :: x in r <==> x in cs && !Removable(x)
  {
    if cs == [] then [] else (if Removable(cs[0]) then [] else [cs[0]]) + Kept(cs[1..])
  }

  /**
   * The pass on a list of siblings: exactly the siblings that are not
   * removable remain, in their order, each pruned in turn.
   */
  lemma {:induction false} PruneAllKept(cs: seq<Element>)
    ensures |PruneAll(cs)| == |Kept(cs)|
    ensures forall j :: 0 <= j < |Kept(cs)| ==> PruneAll(cs)[j] == PruneTree(Kept(cs)[j])
  {
    if cs != [] {
      PruneAllKept(cs[1..]);
      if !Removable(cs[0]) {
        assert PruneAll(cs) == [PruneTree(cs[0])] + PruneAll(cs[1..]);
        assert Kept(cs) == [cs[0]] + Kept(cs[1..]);
      }
    }
  }

  /** Pruning works sibling by sibling, keeping their order. */
  lemma {:induction false} PruneAllConcat(a: seq<Element>, b: seq<Element>)
    ensures PruneAll(a + b) == PruneAll(a) + PruneAll(b)
  {
    if a == [] {
      assert a + b == b;
    } else {
      assert (a + b)[0] == a[0];
      assert (a + b)[1..] == a[1..] + b;
      PruneAllConcat(a[1..], b);
    }
  }

  /** Pruning keeps an element's name, attributes and value, so every pick sees a pruned element as it saw the original. */
  lemma PruneTreePicks(c: Element, q: Pick)
    ensures PruneTree(c).name == c.name && PruneTree(c).attrs == c.attrs
    ensures Picks(q, PruneTree(c)) <==> Picks(q, c)
  {
    PruneTreeValue(c);
    assert Attribute(PruneTree(c), q.name) == Attribute(c, q.name);
  }

  /** Looking up children after the pass is the same as pruning the looked-up children. */
  lemma {:induction false} PrunePicked(cs: seq<Element>, q: Pick)
    ensures Picked(PruneAll(cs), q) == PruneAll(Picked(cs, q))
  {
    if cs != [] {
      var c := cs[0];
      var head := if Removable(c) then [] else [PruneTree(c)];
      var picked := if Picks(q, c) then [c] else [];
      PrunePicked(cs[1..], q);
      PickedConcat(head, PruneAll(cs[1..]), q);
      PruneAllConcat(picked, Picked(cs[1..], q));
      PruneTreePicks(c, q);
      assert [c][1..] == [];
      assert PruneAll(picked) == if Picks(q, c) then head else [];
    }
  }

  /** The children of the groups a selector selects, after the pass, are those children pruned. */
  lemma {:induction false} PruneScope(items: seq<Element>, s: Selector)
    ensures ScopeChildren(PruneAll(items), s) == PruneAll(ScopeChildren(items, s))
  {
    if items != [] {
      var c := items[0];
      var head := if Removable(c) then [] else [PruneTree(c)];
      var own := if Selects(s, c) then c.children else [];
      PruneScope(items[1..], s);
      ScopeChildrenConcat(head, PruneAll(items[1..]), s);
      ScopeChildrenConcat([c], items[1..], s);
      assert items == [c] + items[1..];
      PruneAllConcat(own, ScopeChildren(items[1..], s));
      assert [c][1..] == [] && [PruneTree(c)][1..] == [];
      assert ScopeChildren([c], s) == own + ScopeChildren([], s);
      if !Removable(c) {
        assert ScopeChildren(head, s) == (if Selects(s, PruneTree(c)) then PruneTree(c).children else []) + ScopeChildren([], s);
      }
    }
  }

  /** Elements with distinct names still have distinct names after the pass. */
  lemma PruneDistinct(cs: seq<Element>)
    requires DistinctNames(cs)
    ensures DistinctNames(PruneAll(cs))
  {
    forall n ensures |Picked(PruneAll(cs), Named(n))| <= 1 {
      PrunePicked(cs, Named(n));
      DistinctPicked(cs, n);
    }
    PickedDistinct(PruneAll(cs));
  }

  /** A single element that is not removable and holds no group is left as it is. */
  lemma PruneSingle(e: Element)
    requires !IsGroupName(e.name)
    requires forall j :: 0 <= j < |e.children| ==> !IsGroupName(e.children[j].name) && e.children[j].children == []
    ensures PruneAll([e]) == [e]
  {
    assert Clean([e]) by {
      assert Clean(e.children) by {
        forall j | 0 <= j < |e.children| ensures Clean(e.children[j].children) {
          assert e.children[j].children == [];
        }
      }
    }
    PruneClean([e]);
  }

  /** A lookup that found one element that is not a group finds it pruned after the pass, with its value. */
  lemma PrunedPick(cs: seq<Element>, q: Pick, e: Element)
    requires Picked(cs, q) == [e] && !IsGroupName(e.name)
    ensures Picked(PruneAll(cs), q) == [PruneTree(e)]
    ensures Value(PruneTree(e)) == Value(e)
    ensures e.children == [] ==> PruneTree(e) == e
  {
    PrunePicked(cs, q);
    assert [e][1..] == [];
    assert PruneAll([e]) == [PruneTree(e)] + PruneAll([]);
    PruneTreeValue(e);
  }

  /** No group without child nodes, at any depth. */
  predicate Clean(cs: seq<Element>)
    decreases cs
  {
    forall i :: 0 <= i < |cs| ==> !Removable(cs[i]) && Clean(cs[i].children)
  }

  /** No group holds another group directly, at any depth: the shape of a real project file. */
  predicate GroupsFlat(cs: seq<Element>)
    decreases cs
  {
    forall i :: 0 <= i < |cs| ==>
      (IsGroupName(cs[i].name) ==> forall j :: 0 <= j < |cs[i].children| ==> !IsGroupName(cs[i].children[j].name)) &&
      GroupsFlat(cs[i].children)
  }

  /** Pruning never loses text: every removed element has an empty value. */
  lemma {:induction false} PruneTreeValue(e: Element)
    ensures Value(PruneTree(e)) == Value(e)
    decreases e, 1
  {
    PruneAllValues(e.children);
  }

  lemma {:induction false} PruneAllValues(cs: seq<Element>)
    ensures Values(PruneAll(cs)) == Values(cs)
    decreases cs, 0
  {
    if cs != [] {
      PruneAllValues(cs[1..]);
      var head := if Removable(cs[0]) then [] else [PruneTree(cs[0])];
      ValuesConcat(head, PruneAll(cs[1..]));
      if !Removable(cs[0]) {
        PruneTreeValue(cs[0]);
        assert Values(head) == Value(PruneTree(cs[0])) + Values([]);
      }
    }
  }

  lemma {:induction false} ValuesConcat(a: seq<Element>, b: seq<Element>)
    ensures Values(a + b) == Values(a) + Values(b)
  {
    if a == [] {
      assert a + b == b;
    } else {
      assert (a + b)[0] == a[0];
      assert (a + b)[1..] == a[1..] + b;
      ValuesConcat(a[1..], b);
    }
  }

  /** A tree without empty groups is left exactly as it is. */
  lemma {:induction false} PruneClean(cs: seq<Element>)
    requires Clean(cs)
    ensures PruneAll(cs) == cs
    decreases cs
  {
    if cs != [] {
      assert Clean(cs[0].children);
      PruneClean(cs[0].children);
      assert PruneTree(cs[0]) == cs[0];
      assert Clean(cs[1..]) by {
        forall i | 0 <= i < |cs[1..]| ensures !Removable(cs[1..][i]) && Clean(cs[1..][i].children) {
          assert cs[1..][i] == cs[i + 1];
        }
      }
      PruneClean(cs[1..]);
      assert cs == [cs[0]] + cs[1..];
    }
  }

  /** In a tree whose groups hold no groups, pruning leaves no group without child nodes. */
  lemma {:induction false} PruneFlat(cs: seq<Element>)
    requires GroupsFlat(cs)
    ensures Clean(PruneAll(cs))
    decreases cs
  {
    if cs != [] {
      var c := cs[0];
      assert GroupsFlat(cs[1..]) by {
        forall i | 0 <= i < |cs[1..]| ensures cs[1..][i] == cs[i + 1] {}
      }
      PruneFlat(cs[1..]);
      var rest := PruneAll(cs[1..]);
      if Removable(c) {
        assert PruneAll(cs) == rest;
      } else {
        PruneFlat(c.children);
        var t := PruneTree(c);
        if IsGroupName(c.name) {
          forall j | 0 <= j < |c.children| ensures !Removable(c.children[j]) {}
          PruneKeepsAll(c.children);
          assert |t.children| == |c.children|;
        }
        assert !Removable(t);
        assert PruneAll(cs) == [t] + rest;
        forall i | 0 <= i < |PruneAll(cs)| ensures !Removable(PruneAll(cs)[i]) && Clean(PruneAll(cs)[i].children) {
          if i > 0 {
            assert PruneAll(cs)[i] == rest[i - 1];
          }
        }
      }
    }
  }

  /** Siblings none of which is removable are all kept, in order, each pruned. */
  lemma {:induction false} PruneKeepsAll(cs: seq<Element>)
    requires forall j :: 0 <= j < |cs| ==> !Removable(cs[j])
    ensures |PruneAll(cs)| == |cs|
    ensures forall j :: 0 <= j < |cs| ==> PruneAll(cs)[j] == PruneTree(cs[j])
  {
    if cs != [] {
      PruneKeepsAll(cs[1..]);
      assert PruneAll(cs) == [PruneTree(cs[0])] + PruneAll(cs[1..]);
    }
  }

  /** In a tree whose groups hold no groups, pruning a second time changes nothing. */
  lemma PruneFlatIdempotent(cs: seq<Element>)
    requires GroupsFlat(cs)
    ensures PruneAll(PruneAll(cs)) == PruneAll(cs)
  {
    PruneFlat(cs);
    PruneClean(PruneAll(cs));
  }

  /**
   * A group that only held an empty group survives the pass, now empty
   * itself: the candidates are chosen before anything is removed.
   */
  lemma NestedEmptyGroupSurvives()
    ensures var inner := Element("", PropertyGroup, [], "", []);
      var outer := Element("", ItemGroup, [], "", [inner]);
      PruneAll([outer]) == [Element("", ItemGroup, [], "", [])] && !Clean(PruneAll([outer]))
  {
    var inner := Element("", PropertyGroup, [], "", []);
    var outer := Element("", ItemGroup, [], "", [inner]);
    assert [inner][1..] == [] && [outer][1..] == [];
    assert PruneAll([inner]) == [];
    assert PruneTree(outer) == Element("", ItemGroup, [], "", []);
    assert PruneAll([outer]) == [PruneTree(outer)] + PruneAll([]);
    assert Removable(PruneAll([outer])[0]);
  }
}

=== FILE: text.dfy ===
/**
 * String helpers the migration engine relies on: substring tests, the
 * case-insensitive path test, splitting and joining on ';', the ordinal
 * string order used to sort the target-framework list, and the textual
 * removal used on the serialised manifest.
 */
module Text {

  /** The separator of a `TargetFrameworks` value. */
  const Separator: char := ';'

  // ---------------------------------------------------------------------
  // Substrings

  predicate StartsWith(s: string, prefix: string)
  {
    |prefix| <= |s| && s[..|prefix|] == prefix
  }

  predicate EndsWith(s: string, suffix: string)
  {
    |suffix| <= |s| && s[|s| - |suffix|..] == suffix
  }

  lemma EndsWithAppended(s: string, suffix: string)
    ensures EndsWith(s + suffix, suffix)
  {
    assert (s + suffix)[|s|..] == suffix;
  }

  /** `part` occurs in `s` starting at index `i`. */
  predicate OccursAt(s: string, part: string, i: int)
  {
    0 <= i <= |s| - |part| && s[i..i + |part|] == part
  }

  /** Ordinal substring test, as `string.Contains(string)`. */
  predicate Contains(s: string, part: string)
    ensures Contains(s, part) <==> exists i :: OccursAt(s, part, i)
  {
    assert StartsWith(s, part) <==> OccursAt(s, part, 0);
    OccursShift(s, part);
    StartsWith(s, part) || (|s| > 0 && Contains(s[1..], part))
  }

  /** An occurrence in the tail is an occurrence one place later in the whole. */
  lemma OccursShift(s: string, part: string)
    ensures |s| > 0 ==>
      ((exists i :: OccursAt(s[1..], part, i)) <==> (exists i :: 1 <= i && OccursAt(s, part, i)))
  {
    if |s| == 0 { return; }
    forall i | OccursAt(s[1..], part, i) ensures OccursAt(s, part, i + 1) {
      assert s[1..][i..i + |part|] == s[i + 1..i + 1 + |part|];
    }
    forall i | 1 <= i && OccursAt(s, part, i) ensures OccursAt(s[1..], part, i - 1) {
      assert s[1..][i - 1..i - 1 + |part|] == s[i..i + |part|];
    }
  }

  /** ASCII case folding of one character. */
  function LowerChar(c: char): char
  {
    if 'A' <= c <= 'Z' then (c as int + 32) as char else c
  }

  function Lower(s: string): (r: string)
    ensures |r| == |s|
    ensures forall i :: 0 <= i < |s| ==> r[i] == LowerChar(s[i])
  {
    if s == [] then [] else [LowerChar(s[0])] + Lower(s[1..])
  }

  /** Case-insensitive substring test (ASCII letters folded); an exact occurrence is one. */
  predicate ContainsIgnoreCase(s: string, part: string)
    ensures Contains(s, part) ==> ContainsIgnoreCase(s, part)
    ensures Lower(s) == s && Lower(part) == part ==> (ContainsIgnoreCase(s, part) <==> Contains(s, part))
  {
    ContainsLowered(s, part);
    Contains(Lower(s), Lower(part))
  }

  /** Folding both strings keeps every occurrence. */
  lemma ContainsLowered(s: string, part: string)
    ensures Contains(s, part) ==> Contains(Lower(s), Lower(part))
  {
    if Contains(s, part) {
      var i :| OccursAt(s, part, i);
      forall k | 0 <= k < |part| ensures Lower(s)[i..i + |part|][k] == Lower(part)[k] {
        assert s[i..i + |part|][k] == part[k];
      }
      assert OccursAt(Lower(s), Lower(part), i);
    }
  }

  // ---------------------------------------------------------------------
  // Splitting and joining on ';'

  /** Joins the segments with ';' between them, as `string.Join(';', parts)`. */
  function Join(parts: seq<string>): string
  {
    if |parts| == 0 then ""
    else if |parts| == 1 then parts[0]
    else parts[0] + [Separator] + Join(parts[1..])
  }

  /**
   * Splits on every ';', keeping empty segments, as `s.Split(";")`: there is
   * always one more segment than there are separators, no segment holds a
   * separator, and joining the segments gives the input back.
   */
  function Split(s: string): (r: seq<string>)
    ensures |r| >= 1
    ensures forall i :: 0 <= i < |r| ==> Separator !in r[i]
    ensures Join(r) == s
  {
    if s == [] then [""]
    else
      var rest := Split(s[1..]);
      if s[0] == Separator then
        assert s == [s[0]] + s[1..];
        [""] + rest
      else
        var r := [[s[0]] + rest[0]] + rest[1..];
        assert r[1..] == rest[1..];
        assert s == [s[0]] + s[1..];
        r
  }

  /** Splitting a segment-free prefix off the front of a string. */
  lemma {:induction false} SplitPrefix(a: string, rest: string)
    requires Separator !in a
    ensures Split(a + rest) == [a + Split(rest)[0]] + Split(rest)[1..]
  {
    if a != [] {
      assert (a + rest)[1..] == a[1..] + rest;
      assert (a + rest)[0] == a[0];
      SplitPrefix(a[1..], rest);
      assert [a[0]] + (a[1..] + Split(rest)[0]) == a + Split(rest)[0];
    } else {
      assert a + rest == rest;
      assert a + Split(rest)[0] == Split(rest)[0];
      assert Split(rest) == [Split(rest)[0]] + Split(rest)[1..];
    }
  }

  /** Splitting what was joined gives the segments back, when none holds a ';'. */
  lemma {:induction false} SplitJoin(parts: seq<string>)
    requires |parts| >= 1
    requires forall i :: 0 <= i < |parts| ==> Separator !in parts[i]
    ensures Split(Join(parts)) == parts
  {
    if |parts| == 1 {
      SplitPrefix(parts[0], "");
      assert parts[0] + "" == parts[0];
    } else {
      var tail := Join(parts[1..]);
      SplitJoin(parts[1..]);
      var rest := [Separator] + tail;
      assert parts[0] + [Separator] + tail == parts[0] + rest;
      SplitPrefix(parts[0], rest);
      assert rest[1..] == tail;
      assert Split(rest) == [""] + Split(tail);
      assert parts[0] + "" == parts[0];
      assert parts == [parts[0]] + parts[1..];
    }
  }

  // ---------------------------------------------------------------------
  // Ordinal order and sorting

  /** `a` comes no later than `b` in ordinal (character by character) order. */
  predicate Below(a: string, b: string)
  {
    |a| == 0 || (|b| > 0 && (a[0] < b[0] || (a[0] == b[0] && Below(a[1..], b[1..]))))
  }

  lemma {:induction false} BelowTotal(a: string, b: string)
    ensures Below(a, b) || Below(b, a)
  {
    if |a| > 0 && |b| > 0 && a[0] == b[0] {
      BelowTotal(a[1..], b[1..]);
    }
  }

  lemma {:induction false} BelowTransitive(a: string, b: string, c: string)
    requires Below(a, b) && Below(b, c)
    ensures Below(a, c)
  {
    if |a| > 0 && a[0] == b[0] && b[0] == c[0] {
      BelowTransitive(a[1..], b[1..], c[1..]);
    }
  }

  lemma {:induction false} BelowAntisymmetric(a: string, b: string)
    requires Below(a, b) && Below(b, a)
    ensures a == b
  {
    if |a| > 0 {
      BelowAntisymmetric(a[1..], b[1..]);
      assert a == [a[0]] + a[1..];
      assert b == [b[0]] + b[1..];
    }
  }

  predicate Sorted(s: seq<string>)
  {
    forall i, j :: 0 <= i < j < |s| ==> Below(s[i], s[j])
  }

  /** Inserts `x` into a sorted sequence before the first element it is below. */
  function Insert(x: string, s: seq<string>): (r: seq<string>)
    requires Sorted(s)
    ensures Sorted(r)
    ensures multiset(r) == multiset(s) + multiset{x}
  {
    if s == [] then [x]
    else if Below(x, s[0]) then
      BelowHead(x, s);
      SortedCons(x, s);
      [x] + s
    else
      BelowTotal(x, s[0]);
      var t := Insert(x, s[1..]);
      assert s == [s[0]] + s[1..];
      BelowInserted(s, x, t);
      SortedCons(s[0], t);
      [s[0]] + t
  }

  /** Below the head of a sorted sequence is below all of it. */
  lemma BelowHead(x: string, s: seq<string>)
    requires Sorted(s) && |s| > 0 && Below(x, s[0])
    ensures forall j :: 0 <= j < |s| ==> Below(x, s[j])
  {
    forall j | 0 <= j < |s| ensures Below(x, s[j]) {
      if j > 0 { BelowTransitive(x, s[0], s[j]); }
    }
  }

  /** The head of a sorted sequence is below every element of its tail with `x` added, when it is below `x`. */
  lemma BelowInserted(s: seq<string>, x: string, t: seq<string>)
    requires Sorted(s) && |s| > 0 && Below(s[0], x)
    requires multiset(t) == multiset(s[1..]) + multiset{x}
    ensures forall j :: 0 <= j < |t| ==> Below(s[0], t[j])
  {
    forall j | 0 <= j < |t| ensures Below(s[0], t[j]) {
      assert t[j] in multiset(t);
      if t[j] != x {
        assert t[j] in s[1..];
        var k :| 0 <= k < |s[1..]| && s[1..][k] == t[j];
        assert s[k + 1] == t[j];
      }
    }
  }

  /** A sorted sequence stays sorted behind an element below all of it. */
  lemma SortedCons(y: string, t: seq<string>)
    requires Sorted(t) && forall j :: 0 <= j < |t| ==> Below(y, t[j])
    ensures Sorted([y] + t)
  {
    forall i, j | 0 <= i < j < |[y] + t| ensures Below(([y] + t)[i], ([y] + t)[j]) {
      if i > 0 {
        assert ([y] + t)[i] == t[i - 1] && ([y] + t)[j] == t[j - 1];
      }
    }
  }

  /**
   * Sorts in ordinal order. The result is sorted and is a permutation of the
   * input: every segment is kept, duplicates included.
   */
  function Sort(s: seq<string>): (r: seq<string>)
    ensures Sorted(r)
    ensures multiset(r) == multiset(s)
  {
    if s == [] then []
    else
      assert s == [s[0]] + s[1..];
      Insert(s[0], Sort(s[1..]))
  }

  /** Sorting an already sorted sequence changes nothing. */
  lemma {:induction false} SortSorted(s: seq<string>)
    requires Sorted(s)
    ensures Sort(s) == s
  {
    if s != [] {
      assert Sorted(s[1..]);
      SortSorted(s[1..]);
      if |s| > 1 {
        assert Below(s[0], s[1..][0]);
      }
      assert s == [s[0]] + s[1..];
    }
  }

  // ---------------------------------------------------------------------
  // Textual removal

  /**
   * Removes every occurrence of `pattern`, scanning left to right without
   * overlaps, as `s.Replace(pattern, "")`. Text without an occurrence is
   * returned as it is; text with one loses at least that occurrence.
   * `RemoveAllFirst` gives the rest: the text ahead of the first occurrence
   * is kept, the occurrence is dropped, and the scan resumes after it.
   */
  function RemoveAll(s: string, pattern: string): (r: string)
    requires |pattern| > 0
    ensures |r| <= |s|
    ensures !Contains(s, pattern) ==> r == s
    ensures Contains(s, pattern) ==> |r| <= |s| - |pattern|
  {
    RemoveScanLength(s, pattern);
    RemoveScan(s, pattern)
  }

  /** The scan behind `RemoveAll`: drop an occurrence at the front, or keep one character and go on. */
  function RemoveScan(s: string, pattern: string): string
    requires |pattern| > 0
    decreases |s|
  {
    if |s| < |pattern| then s
    else if s[..|pattern|] == pattern then RemoveScan(s[|pattern|..], pattern)
    else [s[0]] + RemoveScan(s[1..], pattern)
  }

  lemma {:induction false} RemoveScanLength(s: string, pattern: string)
    requires |pattern| > 0
    ensures |RemoveScan(s, pattern)| <= |s|
    ensures !Contains(s, pattern) ==> RemoveScan(s, pattern) == s
    ensures Contains(s, pattern) ==> |RemoveScan(s, pattern)| <= |s| - |pattern|
    decreases |s|
  {
    if |s| < |pattern| {
    } else if s[..|pattern|] == pattern {
      RemoveScanLength(s[|pattern|..], pattern);
      assert StartsWith(s, pattern);
    } else {
      RemoveScanLength(s[1..], pattern);
      assert !StartsWith(s, pattern);
      assert s == [s[0]] + s[1..];
    }
  }

  /**
   * The first occurrence of `pattern` splits the text: what precedes it is
   * kept as it is, the occurrence itself is removed, and the removal goes on
   * with the text after it.
   */
  lemma RemoveAllFirst(s: string, pattern: string, i: nat)
    requires |pattern| > 0
    requires OccursAt(s, pattern, i)
    requires forall j :: 0 <= j < i ==> !OccursAt(s, pattern, j)
    ensures RemoveAll(s, pattern) == s[..i] + RemoveAll(s[i + |pattern|..], pattern)
  {
    assert s == s[..i] + pattern + s[i + |pattern|..];
    RemoveScanSplit(s[..i], pattern, s[i + |pattern|..]);
  }

  /** The scan on text written as `a + pattern + b`, where the occurrence after `a` is the first. */
  lemma {:induction false} RemoveScanSplit(a: string, pattern: string, b: string)
    requires |pattern| > 0
    requires forall j :: 0 <= j < |a| ==> !OccursAt(a + pattern + b, pattern, j)
    ensures RemoveScan(a + pattern + b, pattern) == a + RemoveScan(b, pattern)
    decreases |a|
  {
    var s := a + pattern + b;
    if a == [] {
      assert s[..|pattern|] == pattern;
      assert s[|pattern|..] == b;
    } else {
      var t := a[1..] + pattern + b;
      assert s[..|pattern|] != pattern by {
        assert !OccursAt(s, pattern, 0);
        assert s[..|pattern|] == s[0..|pattern|];
      }
      assert s[1..] == t;
      assert RemoveScan(s, pattern) == [a[0]] + RemoveScan(t, pattern);
      TailOccurrences(a, pattern, b);
      RemoveScanSplit(a[1..], pattern, b);
      assert a == [a[0]] + a[1..];
    }
  }

  /** No occurrence ahead of `pattern` in `a + pattern + b` means none ahead of it in the tail either. */
  lemma TailOccurrences(a: string, pattern: string, b: string)
    requires |a| > 0
    requires forall j :: 0 <= j < |a| ==> !OccursAt(a + pattern + b, pattern, j)
    ensures forall j :: 0 <= j < |a| - 1 ==> !OccursAt(a[1..] + pattern + b, pattern, j)
  {
    var s := a + pattern + b;
    assert s[1..] == a[1..] + pattern + b;
    forall j | 0 <= j < |a| - 1 ensures !OccursAt(a[1..] + pattern + b, pattern, j) {
      assert s[1..][j..j + |pattern|] == s[j + 1..j + 1 + |pattern|];
      assert !OccursAt(s, pattern, j + 1);
    }
  }
}

=== FILE: tree.dfy ===
/**
 * In-place edits of the tree, as values: what `element.Remove()`,
 * `element.Value = v`, removing every child and `group.Add(child)` do to the
 * root's children, and how each edit shows through a later lookup.
 */
module Tree {
  import opened Xml

  /** An edit of the children of every selected group. */
  datatype Edit =
    | Drop(pick: Pick)                       // remove every picked child
    | Assign(name: string, value: string)    // set the value of every child with this name
    | Clear                                  // remove every child element

  /** `child.Value = v` on every child called `k`. */
  function SetValues(cs: seq<Element>, k: string, v: string): (r: seq<Element>)
    ensures |r| == |cs|
    ensures forall i :: 0 <= i < |cs| ==> r[i] == if cs[i].name == k then WithValue(cs[i], v) else cs[i]
  {
    if cs == [] then []
    else [if cs[0].name == k then WithValue(cs[0], v) else cs[0]] + SetValues(cs[1..], k, v)
  }

  function ApplyEdit(cs: seq<Element>, ed: Edit): seq<Element>
  {
    match ed
    case Drop(p) => Unpicked(cs, p)
    case Assign(k, v) => SetValues(cs, k, v)
    case Clear => []
  }

  lemma ApplyEditConcat(a: seq<Element>, b: seq<Element>, ed: Edit)
    ensures ApplyEdit(a + b, ed) == ApplyEdit(a, ed) + ApplyEdit(b, ed)
  {
    match ed
    case Drop(p) => UnpickedConcat(a, b, p);
    case Assign(k, v) =>
      assert SetValues(a + b, k, v) == SetValues(a, k, v) + SetValues(b, k, v);
    case Clear =>
  }

  function EditGroup(e: Element, s: Selector, ed: Edit): Element
  {
    if Selects(s, e) then e.(children := ApplyEdit(e.children, ed)) else e
  }

  /** Applies `ed` to the children of every group `s` selects; nothing else changes. */
  function EditGroups(items: seq<Element>, s: Selector, ed: Edit): (r: seq<Element>)
    ensures SameHeaders(r, items)
    ensures forall i :: 0 <= i < |items| ==> r[i] == EditGroup(items[i], s, ed)
  {
    if items == [] then []
    else [EditGroup(items[0], s, ed)] + EditGroups(items[1..], s, ed)
  }

  /** Two selectors that choose the same elements among `items`. */
  predicate SameSelection(items: seq<Element>, s1: Selector, s2: Selector)
  {
    forall j :: 0 <= j < |items| ==> (Selects(s1, items[j]) <==> Selects(s2, items[j]))
  }

  /** Selectors that choose the same elements see the same children and make the same edits. */
  lemma {:induction false} EditSameSelection(items: seq<Element>, s1: Selector, s2: Selector, ed: Edit)
    requires SameSelection(items, s1, s2)
    ensures ScopeChildren(items, s1) == ScopeChildren(items, s2)
    ensures EditGroups(items, s1, ed) == EditGroups(items, s2, ed)
  {
    if items != [] {
      assert SameSelection(items[1..], s1, s2) by {
        forall j | 0 <= j < |items[1..]| ensures items[1..][j] == items[j + 1] {}
      }
      EditSameSelection(items[1..], s1, s2, ed);
    }
  }

  /** Which elements a selector chooses depends only on their headers. */
  lemma SameHeadersSelection(a: seq<Element>, b: seq<Element>, s1: Selector, s2: Selector)
    requires SameHeaders(a, b) && SameSelection(b, s1, s2)
    ensures SameSelection(a, s1, s2)
  {
    forall j | 0 <= j < |a| ensures Selects(s1, a[j]) <==> Selects(s2, a[j]) {
      assert Selects(s1, a[j]) <==> Selects(s1, b[j]);
      assert Selects(s2, a[j]) <==> Selects(s2, b[j]);
    }
  }

  /** A lookup through a selector inside `s` sees the edited children. */
  lemma {:induction false} EditWithin(items: seq<Element>, s: Selector, s2: Selector, ed: Edit)
    requires Within(s2, s)
    ensures ScopeChildren(EditGroups(items, s, ed), s2) == ApplyEdit(ScopeChildren(items, s2), ed)
  {
    if items != [] {
      EditWithin(items[1..], s, s2, ed);
      var head := if Selects(s2, items[0]) then items[0].children else [];
      ApplyEditConcat(head, ScopeChildren(items[1..], s2), ed);
      assert EditGroups(items, s, ed)[1..] == EditGroups(items[1..], s, ed);
    }
  }

  /** A lookup through a selector disjoint from `s` sees nothing of the edit. */
  lemma {:induction false} EditDisjoint(items: seq<Element>, s: Selector, s2: Selector, ed: Edit)
    requires Disjoint(s, s2)
    ensures ScopeChildren(EditGroups(items, s, ed), s2) == ScopeChildren(items, s2)
  {
    if items != [] {
      DisjointSelects(s, s2, items[0]);
      EditDisjoint(items[1..], s, s2, ed);
      assert EditGroups(items, s, ed)[1..] == EditGroups(items[1..], s, ed);
    }
  }

  /** `group.Add(c)` for every `c` in `cs`, on the group at index `g`. */
  function AppendChildren(items: seq<Element>, g: nat, cs: seq<Element>): (r: seq<Element>)
    requires g < |items|
    ensures SameHeaders(r, items)
    ensures r == items[g := items[g].(children := items[g].children + cs)]
  {
    items[g := items[g].(children := items[g].children + cs)]
  }

  lemma ScopeSplit(items: seq<Element>, g: nat, s: Selector)
    requires g < |items|
    ensures ScopeChildren(items, s) == ScopeChildren(items[..g + 1], s) + ScopeChildren(items[g + 1..], s)
  {
    assert items == items[..g + 1] + items[g + 1..];
    ScopeChildrenConcat(items[..g + 1], items[g + 1..], s);
  }

  /** Children added to a selected group show up right after that group's other children. */
  lemma AppendScope(items: seq<Element>, g: nat, cs: seq<Element>, s: Selector)
    requires g < |items|
    ensures ScopeChildren(AppendChildren(items, g, cs), s) ==
      ScopeChildren(items[..g + 1], s) + (if Selects(s, items[g]) then cs else []) + ScopeChildren(items[g + 1..], s)
  {
    var r := AppendChildren(items, g, cs);
    ScopeSplit(r, g, s);
    assert r[g + 1..] == items[g + 1..];
    assert r[..g + 1] == items[..g] + [r[g]];
    assert items[..g + 1] == items[..g] + [items[g]];
    ScopeChildrenConcat(items[..g], [r[g]], s);
    ScopeChildrenConcat(items[..g], [items[g]], s);
    assert ScopeChildren([r[g]], s) == (if Selects(s, r[g]) then r[g].children else []) + ScopeChildren([], s);
    assert ScopeChildren([items[g]], s) == (if Selects(s, items[g]) then items[g].children else []) + ScopeChildren([], s);
  }

  /** Children added to a group that `s` does not select leave what `s` sees unchanged. */
  lemma AppendUnselected(items: seq<Element>, g: nat, cs: seq<Element>, s: Selector)
    requires g < |items| && !Selects(s, items[g])
    ensures ScopeChildren(AppendChildren(items, g, cs), s) == ScopeChildren(items, s)
  {
    AppendScope(items, g, cs, s);
    ScopeSplit(items, g, s);
    assert ScopeChildren(items[..g + 1], s) + [] == ScopeChildren(items[..g + 1], s);
  }

  /** Children added to a selected group of a scope that was empty are all the scope then holds. */
  lemma AppendToEmpty(items: seq<Element>, g: nat, cs: seq<Element>, s: Selector)
    requires g < |items| && Selects(s, items[g]) && ScopeChildren(items, s) == []
    ensures ScopeChildren(AppendChildren(items, g, cs), s) == cs
  {
    AppendScope(items, g, cs, s);
    ScopeSplit(items, g, s);
    assert |ScopeChildren(items[..g + 1], s)| == 0 && |ScopeChildren(items[g + 1..], s)| == 0;
    assert [] + cs + [] == cs;
  }

  /** Clearing the selected groups is idempotent, whatever a cleared group has gained meanwhile. */
  lemma ClearAppended(items: seq<Element>, g: nat, cs: seq<Element>, s: Selector)
    requires g < |items| && Selects(s, items[g])
    ensures var cleared := EditGroups(items, s, Clear);
      EditGroups(AppendChildren(cleared, g, cs), s, Clear) == cleared
  {
    var cleared := EditGroups(items, s, Clear);
    var r := AppendChildren(cleared, g, cs);
    var again := EditGroups(r, s, Clear);
    forall j | 0 <= j < |r| ensures again[j] == cleared[j] {
      var c := cleared[j];
      if j == g {
        assert r[j] == c.(children := c.children + cs);
        ClearGroupAgain(items[j], cs, s);
      } else {
        assert c.children + [] == c.children;
        assert r[j] == c.(children := c.children + []);
        ClearGroupAgain(items[j], [], s);
      }
    }
  }

  lemma ClearGroupAgain(e: Element, cs: seq<Element>, s: Selector)
    requires Selects(s, e) || cs == []
    ensures var c := EditGroup(e, s, Clear);
      EditGroup(c.(children := c.children + cs), s, Clear) == c
  {
    var c := EditGroup(e, s, Clear);
    if Selects(s, e) {
      assert c.children == [];
    } else {
      assert c.children + [] == c.children;
    }
  }

  lemma AppendGroupScope(items: seq<Element>, grp: Element, s: Selector)
    ensures ScopeChildren(items + [grp], s) == ScopeChildren(items, s) + (if Selects(s, grp) then grp.children else [])
  {
    ScopeChildrenConcat(items, [grp], s);
    assert ScopeChildren([grp], s) == (if Selects(s, grp) then grp.children else []) + ScopeChildren([], s);
  }

  /** Setting the value of children of one name leaves the children of another name as they were. */
  lemma {:induction false} SetValuesOther(cs: seq<Element>, k: string, v: string, q: Pick)
    requires q.name != k
    ensures Picked(SetValues(cs, k, v), q) == Picked(cs, q)
  {
    if cs != [] {
      SetValuesOther(cs[1..], k, v, q);
      assert SetValues(cs, k, v) == [SetValues(cs, k, v)[0]] + SetValues(cs[1..], k, v);
      PickedConcat([SetValues(cs, k, v)[0]], SetValues(cs[1..], k, v), q);
    }
  }

  /** Setting the value of children called `k` sets it on each child called `k`, in place. */
  lemma {:induction false} SetValuesSame(cs: seq<Element>, k: string, v: string)
    ensures Picked(SetValues(cs, k, v), Named(k)) == SetValues(Picked(cs, Named(k)), k, v)
  {
    if cs != [] {
      SetValuesSame(cs[1..], k, v);
      assert SetValues(cs, k, v) == [SetValues(cs, k, v)[0]] + SetValues(cs[1..], k, v);
      PickedConcat([SetValues(cs, k, v)[0]], SetValues(cs[1..], k, v), Named(k));
      var head := if cs[0].name == k then [cs[0]] else [];
      assert Picked(cs, Named(k)) == head + Picked(cs[1..], Named(k));
      assert SetValues(head + Picked(cs[1..], Named(k)), k, v) == SetValues(head, k, v) + SetValues(Picked(cs[1..], Named(k)), k, v);
    }
  }
}

=== FILE: wrappers.dfy ===
/** Optional values and results that carry either a value or an error. */
module Wrappers {

  datatype Option<+T> = None | Some(value: T)

  datatype Result<+T, +E> = Success(value: T) | Failure(error: E) {

    predicate IsFailure() {
      Failure?
    }

    function PropagateFailure<U>(): Result<U, E>
      requires Failure?
    {
      Failure(error)
    }

    function Extract(): T
      requires Success?
    {
      value
    }
  }
}

=== FILE: xml.dfy ===
/**
 * The parsed XML tree the engine works on, and the read-only queries over
 * it: attribute lookup, the text value of an element, which groups a
 * selector matches, and which children a pick chooses.
 *
 * A document is modelled by the children of its root element (`Project`
 * for a project file, `package` for a manifest); every group the engine
 * looks up is one of those children.
 */
module Xml {
  import opened Wrappers
  import opened Text

  /** An attribute, by local name. */
  datatype Attr = Attr(name: string, value: string)

  /**
   * An element: namespace URI ("" for none), local name, attributes in
   * document order, its own text ("" when it has no text node) and its
   * child elements in document order.
   */
  datatype Element = Element(ns: string, name: string, attrs: seq<Attr>, text: string, children: seq<Element>)

  // ---------------------------------------------------------------------
  // Attributes and values

  /** The value of the first attribute called `name`, as `element.Attribute(name)?.Value`. */
  function AttrIn(attrs: seq<Attr>, name: string): (r: Option<string>)
    ensures r.Some? ==> Attr(name, r.value) in attrs
    ensures r.None? ==> forall a :: a in attrs ==> a.name != name
  {
    if attrs == [] then None
    else if attrs[0].name == name then Some(attrs[0].value)
    else AttrIn(attrs[1..], name)
  }

  function Attribute(e: Element, name: string): Option<string>
  {
    AttrIn(e.attrs, name)
  }

  /** `element.Value`: the element's text followed by the values of its children. */
  function Value(e: Element): string
  {
    e.text + Values(e.children)
  }

  function Values(cs: seq<Element>): string
  {
    if cs == [] then "" else Value(cs[0]) + Values(cs[1..])
  }

  /**
   * `element.Nodes().Any()` on the nodes an `Element` holds: a text node or
   * a child element. Comments, processing instructions and CDATA sections
   * are not part of an `Element`, so a group holding only those counts as
   * empty here.
   */
  predicate HasNodes(e: Element)
  {
    e.text != "" || e.children != []
  }

  /** `element.Value = v`: every child node is replaced by the text `v`. */
  function WithValue(e: Element, v: string): (r: Element)
    ensures Value(r) == v && r.children == []
    ensures r.ns == e.ns && r.name == e.name && r.attrs == e.attrs
  {
    e.(text := v, children := [])
  }

  /** `new XElement(name, v)`: a new element in no namespace holding text `v`. */
  function Leaf(name: string, v: string): Element
  {
    Element("", name, [], v, [])
  }

  /** `char.IsWhiteSpace`: the Unicode separators and the control characters U+0009 to U+000D and U+0085. */
  predicate IsWhiteSpace(c: char)
  {
    c == ' ' || ('\t' <= c <= '\r') || c == '\U{0085}' || c == '\U{00A0}' || c == '\U{1680}'
    || ('\U{2000}' <= c <= '\U{200A}') || c == '\U{2028}' || c == '\U{2029}'
    || c == '\U{202F}' || c == '\U{205F}' || c == '\U{3000}'
  }

  /** `string.IsNullOrWhiteSpace` on a present string. */
  predicate IsBlank(s: string)
  {
    forall i :: 0 <= i < |s| ==> IsWhiteSpace(s[i])
  }

  // ---------------------------------------------------------------------
  // Selecting groups among the root's children

  /**
   * How a lookup filters a group on its attributes: no attributes at all,
   * an attribute with the given name and value, or no filter.
   */
  datatype Filter = NoAttributes | WithAttribute(attr: string, value: string) | AnyAttributes

  /** A group lookup: namespace and local name of the group, and its attribute filter. */
  datatype Selector = Selector(ns: string, name: string, filter: Filter)

  /**
   * Whether `e` is one of the groups `s` looks up. An attribute filter asks
   * for some attribute with that local name and exactly that value.
   */
  predicate Selects(s: Selector, e: Element)
  {
    e.ns == s.ns && e.name == s.name &&
    match s.filter
    case NoAttributes => e.attrs == []
    case WithAttribute(a, v) => Attr(a, v) in e.attrs
    case AnyAttributes => true
  }

  /** No element is selected by both `a` and `b`. */
  predicate Disjoint(a: Selector, b: Selector)
  {
    a.ns != b.ns || a.name != b.name ||
    (a.filter.NoAttributes? && b.filter.WithAttribute?) ||
    (a.filter.WithAttribute? && b.filter.NoAttributes?)
  }

  lemma DisjointSelects(a: Selector, b: Selector, e: Element)
    requires Disjoint(a, b)
    ensures !(Selects(a, e) && Selects(b, e))
  {
  }

  /** Every element `inner` selects is selected by `outer`. */
  predicate Within(inner: Selector, outer: Selector)
  {
    inner.ns == outer.ns && inner.name == outer.name &&
    (outer.filter.AnyAttributes? || inner.filter == outer.filter)
  }

  /** Two sequences of elements agree on every element's namespace, name and attributes. */
  predicate SameHeaders(a: seq<Element>, b: seq<Element>)
  {
    |a| == |b| &&
    forall i :: 0 <= i < |a| ==> a[i].ns == b[i].ns && a[i].name == b[i].name && a[i].attrs == b[i].attrs
  }

  /** The index of the first selected element, as `FirstOrDefault`. */
  function FirstIndex(items: seq<Element>, s: Selector): (r: Option<nat>)
    ensures r.Some? ==> r.value < |items| && Selects(s, items[r.value])
    ensures r.Some? ==> forall j :: 0 <= j < r.value ==> !Selects(s, items[j])
    ensures r.None? ==> forall j :: 0 <= j < |items| ==> !Selects(s, items[j])
  {
    if items == [] then None
    else if Selects(s, items[0]) then Some(0)
    else
      match FirstIndex(items[1..], s)
      case None => None
      case Some(k) => Some(k + 1)
  }

  /** Edits that keep every header keep every lookup of a group. */
  lemma SameHeadersFirstIndex(a: seq<Element>, b: seq<Element>, s: Selector)
    requires SameHeaders(a, b)
    ensures FirstIndex(a, s) == FirstIndex(b, s)
  {
    if a != [] {
      assert Selects(s, a[0]) <==> Selects(s, b[0]);
      SameHeadersFirstIndex(a[1..], b[1..], s);
    }
  }

  /** The children of every selected group, in document order (`.SelectMany(g => g.Elements())`). */
  function ScopeChildren(items: seq<Element>, s: Selector): seq<Element>
  {
    if items == [] then []
    else (if Selects(s, items[0]) then items[0].children else []) + ScopeChildren(items[1..], s)
  }

  lemma {:induction false} ScopeChildrenConcat(a: seq<Element>, b: seq<Element>, s: Selector)
    ensures ScopeChildren(a + b, s) == ScopeChildren(a, s) + ScopeChildren(b, s)
  {
    if a == [] {
      assert a + b == b;
    } else {
      assert (a + b)[1..] == a[1..] + b;
      ScopeChildrenConcat(a[1..], b, s);
    }
  }

  // ---------------------------------------------------------------------
  // Picking children

  /**
   * Which children a lookup or a removal is about: every child with the
   * local name, or those whose key attribute is in a set, or contains a
   * substring, or whose value equals a string.
   */
  datatype Pick =
    | Named(name: string)
    | KeyIn(name: string, attr: string, keys: set<string>)
    | KeyContaining(name: string, attr: string, part: string)
    | ValueIs(name: string, value: string)

  predicate Picks(p: Pick, c: Element)
  {
    c.name == p.name &&
    match p
    case Named(_) => true
    case KeyIn(_, a, keys) => Attribute(c, a).Some? && Attribute(c, a).value in keys
    case KeyContaining(_, a, part) => Attribute(c, a).Some? && Contains(Attribute(c, a).value, part)
    case ValueIs(_, v) => Value(c) == v
  }

  /** The picked children, in order. */
  function Picked(cs: seq<Element>, p: Pick): (r: seq<Element>)
    ensures |r| <= |cs|
    ensures forall c :: c in r <==> c in cs && Picks(p, c)
  {
    if cs == [] then []
    else (if Picks(p, cs[0]) then [cs[0]] else []) + Picked(cs[1..], p)
  }

  /** The children that are not picked, in order. */
  function Unpicked(cs: seq<Element>, p: Pick): (r: seq<Element>)
    ensures |r| <= |cs|
    ensures forall c :: c in r <==> c in cs && !Picks(p, c)
  {
    if cs == [] then []
    else (if Picks(p, cs[0]) then [] else [cs[0]]) + Unpicked(cs[1..], p)
  }

  lemma {:induction false} PickedConcat(a: seq<Element>, b: seq<Element>, p: Pick)
    ensures Picked(a + b, p) == Picked(a, p) + Picked(b, p)
  {
    if a == [] {
      assert a + b == b;
    } else {
      assert (a + b)[1..] == a[1..] + b;
      assert (a + b)[0] == a[0];
      PickedConcat(a[1..], b, p);
    }
  }

  lemma {:induction false} UnpickedConcat(a: seq<Element>, b: seq<Element>, p: Pick)
    ensures Unpicked(a + b, p) == Unpicked(a, p) + Unpicked(b, p)
  {
    if a == [] {
      assert a + b == b;
    } else {
      assert (a + b)[1..] == a[1..] + b;
      assert (a + b)[0] == a[0];
      UnpickedConcat(a[1..], b, p);
    }
  }

  /** Nothing picked is left once the picked children are removed. */
  lemma {:induction false} UnpickedNone(cs: seq<Element>, p: Pick)
    ensures Picked(Unpicked(cs, p), p) == []
  {
    if cs != [] {
      UnpickedNone(cs[1..], p);
      PickedConcat(if Picks(p, cs[0]) then [] else [cs[0]], Unpicked(cs[1..], p), p);
    }
  }

  /** Removing children of one name leaves the children of another name as they were. */
  lemma {:induction false} UnpickedOther(cs: seq<Element>, p: Pick, q: Pick)
    requires p.name != q.name
    ensures Picked(Unpicked(cs, p), q) == Picked(cs, q)
  {
    if cs != [] {
      UnpickedOther(cs[1..], p, q);
      PickedConcat(if Picks(p, cs[0]) then [] else [cs[0]], Unpicked(cs[1..], p), q);
    }
  }

  /** A pick finds nothing in children that hold no element of its name. */
  lemma {:induction false} PickedNamed(cs: seq<Element>, p: Pick)
    requires Picked(cs, Named(p.name)) == []
    ensures Picked(cs, p) == []
  {
    if cs != [] {
      PickedConcat([cs[0]], cs[1..], Named(p.name));
      assert cs == [cs[0]] + cs[1..];
      PickedNamed(cs[1..], p);
    }
  }

  /** A picked element in front stays in front. */
  lemma PickedCons(c: Element, cs: seq<Element>, p: Pick)
    requires Picks(p, c)
    ensures Picked([c] + cs, p) == [c] + Picked(cs, p)
  {
    assert ([c] + cs)[1..] == cs;
  }

  /** Picking from children that are all picked keeps them all. */
  lemma {:induction false} PickedWhenAll(cs: seq<Element>, p: Pick)
    requires forall i :: 0 <= i < |cs| ==> Picks(p, cs[i])
    ensures Picked(cs, p) == cs
  {
    if cs != [] {
      PickedWhenAll(cs[1..], p);
      assert cs == [cs[0]] + cs[1..];
    }
  }

  /** Picking from children none of which is picked gives nothing. */
  lemma {:induction false} PickedWhenNone(cs: seq<Element>, p: Pick)
    requires forall i :: 0 <= i < |cs| ==> !Picks(p, cs[i])
    ensures Picked(cs, p) == []
  {
    if cs != [] {
      PickedWhenNone(cs[1..], p);
    }
  }

  /** Removing from children that are all picked leaves nothing. */
  lemma {:induction false} UnpickedWhenAll(cs: seq<Element>, p: Pick)
    requires forall i :: 0 <= i < |cs| ==> Picks(p, cs[i])
    ensures Unpicked(cs, p) == []
  {
    if cs != [] {
      UnpickedWhenAll(cs[1..], p);
    }
  }

  /** Removing from children none of which is picked changes nothing. */
  lemma {:induction false} UnpickedWhenNone(cs: seq<Element>, p: Pick)
    requires forall i :: 0 <= i < |cs| ==> !Picks(p, cs[i])
    ensures Unpicked(cs, p) == cs
  {
    if cs != [] {
      UnpickedWhenNone(cs[1..], p);
      assert cs == [cs[0]] + cs[1..];
    }
  }

  /** Removing by one pick and choosing by another can be done in either order. */
  lemma {:induction false} PickedUnpicked(cs: seq<Element>, p: Pick, q: Pick)
    ensures Picked(Unpicked(cs, p), q) == Unpicked(Picked(cs, q), p)
  {
    if cs != [] {
      PickedUnpicked(cs[1..], p, q);
      PickedConcat(if Picks(p, cs[0]) then [] else [cs[0]], Unpicked(cs[1..], p), q);
      UnpickedConcat(if Picks(q, cs[0]) then [cs[0]] else [], Picked(cs[1..], q), p);
    }
  }
}
